=== FILE: README.md ===
# RAG data platform: the review lifecycle in Dafny

The platform collects text for a retrieval-augmented generation corpus in three
stages. Collectors submit **raw** texts. Cleaners submit a **cleaned** version
of an approved raw text. Chunkers split an approved cleaned text into numbered
**chunks**. Every submission lands in a *pending* directory. An admin then
edits it, approves it into the matching *approved* directory, or rejects it.
Approved data can be pushed to an external dataset hub.

This project models that lifecycle as pure transitions over an immutable
store. It covers:

- the raw-data, cleaning and chunking routes;
- the admin routes;
- the reusable storage service;
- the record schemas.

Then it proves what the routes promise: which request gets which of the
400/404/409/500 replies (each code as an if-and-only-if), the
frame conditions, the counting, the chunk-index rule and its defect, and two
invariants of every request sequence.

## Layout

| file | module | contents |
|---|---|---|
| `json.dfy` | `Json` | JSON values, Python truthiness, `len`, `str` |
| `text.dfy` | `Text` | `strip`, `replace`, the filename rule, `{:02d}` padding, string order |
| `http.dfy` | `Http` | status codes, `Outcome` (success value or error code) |
| `sorting.dfy` | `Sorting` | insertion sort under a total order |
| `store.dfy` | `Store` | the six directories and their counting lemmas |
| `schemas.dfy` | `Schemas` | the three record dataclasses |
| `queue.dfy` | `Queue` | newest-first listings and the pending-first lookup |
| `raw_data.dfy` | `RawData` | the raw-data routes |
| `cleaning.dfy` | `Cleaning` | the cleaning routes |
| `chunking.dfy` | `Chunking` | the chunking routes, the index rule and its correction |
| `admin.dfy` | `Admin` | the admin routes |
| `storage.dfy` | `Storage` | the storage service |
| `lifecycle.dfy` | `Lifecycle` | request sequences and the invariants they keep |

### The data model

- **The store.** A `Store` holds three stages (raw, cleaned, chunked). Each
  stage has a pending and an approved `Dir`.
- **Directories.** A `Dir` holds three things, independent of each other just
  as on disk:
  - the `.txt` files: name → text;
  - the `.meta.json` sidecars: name → JSON object;
  - the chunk folders: folder → index → chunk record.
- **Chunk files.** The file `chunk_{i:02d}.json` is keyed by its integer
  index `i`. `Text.Pad2Injective` shows that the file name determines the index.
- **Request bodies.** A request body is a JSON object (`Json.Meta`). A field
  of the wrong JSON type, on which the route would raise, becomes the route's
  500 reply.
- **Route results.** A route returns a `Step`: its reply (`Outcome`) and the
  store afterwards. A route that raises after a partial write keeps the write.
  In particular a submission writes the text before the sidecar, so a
  non-string content that has a length leaves an empty text file and no
  sidecar (`RawData.Submit`, `Cleaning.Submit`).
- **Push.** Every call of the push uploads every approved file of the covered
  stages again; nothing records what was already published (`Admin.Push`).
- **Outside inputs.** The following are parameters of the model:
  - the clock (`now`);
  - fresh UUIDs (`id`);
  - the order `os.listdir` yields entries in;
  - the hub client (an upload oracle per kind, plus whether the client is
    configured);
  - the `HF_TOKEN` environment value.

## Model

| member | source | states |
|---|---|---|
| Text.RemoveChar | app/routes/raw_data.py:103 | `replace(c, '')` keeps exactly the characters other than `c` and never lengthens the string |
| Text.StripTrims | app/routes/raw_data.py:97 | the result is the input less leading and trailing whitespace, and starts and ends with a non-space |
| Text.FilenameCharsIff | app/routes/raw_data.py:102-107 | the filename rule accepts exactly the names made of letters, digits, `_` and `-` that hold at least one letter or digit; a name of only `_` and `-` is refused |
| Text.Take | app/models/schemas.py:215-216 | `s[:n]` is the prefix of length `min(len(s), n)` |
| Text.Pad2RoundTrip | app/routes/chunking.py:72 | `{i:02d}` can be read back to `i`, negative indices included |
| Text.Pad2Injective | app/routes/chunking.py:298 | distinct indices give distinct `chunk_NN.json` names |
| Text.LexLeTotal | app/routes/raw_data.py:179 | Python's string order is total, so the newest-first sorts are well defined |
| Text.LexLeTransitive | app/routes/raw_data.py:224 | Python's string order is transitive |
| Json.Len | app/routes/raw_data.py:54 | `len` is defined exactly on strings, lists and objects, and is the string length on strings |
| Json.RenderRoundTrip | app/routes/chunking.py:72 | an f-string renders a string as itself and an int as digits that read back as the int |
| Json.KeyLeTotal | app/routes/chunking.py:189 | the order the sorts use on keys of one kind (ints, or strings) is total |
| Sorting.SortBy | app/routes/raw_data.py:179 | the result is sorted under the key order and is a permutation of the input |
| Queue.TimeKey | app/routes/raw_data.py:179 | the sort key is the sidecar's timestamp, or `''` when it has none |
| Queue.SortableIff | app/routes/raw_data.py:179 | whether the sort raises depends only on the kinds of the keys, not on the listing order |
| Queue.ListNewestFirst | app/routes/raw_data.py:163-179 | 500 exactly when two or more sidecars have timestamps that are not all ints or all strings; otherwise every sidecar of the directory exactly once, newest timestamp first |
| Queue.LookupPendingFirst | app/routes/raw_data.py:272-289 | a pending text with its sidecar is returned from pending, else an approved one from approved; 404 exactly when the name is in neither; 500 exactly when the text found lacks its sidecar |
| Schemas.RawPostInit | app/models/schemas.py:60-63 | a non-empty content sets `content_length` to its length; an empty one keeps the given value; nothing else changes |
| Schemas.NewRawDataLength | app/models/schemas.py:27-63 | a freshly built raw record has the content's length, status `pending` and submitter `collector` |
| Schemas.RawToDictKeys | app/models/schemas.py:65-67 | `to_dict` has exactly the dataclass's fields, with the content under `content` |
| Schemas.RawToMetadata | app/models/schemas.py:69-76 | `to_metadata` is `to_dict` without `content`, every other field unchanged |
| Schemas.RawMetadataPlusContent | app/models/schemas.py:69-76 | putting the content back into `to_metadata` gives `to_dict` again |
| Schemas.RawValidate | app/models/schemas.py:83-104 | each message appears iff its rule fails, and the list is empty iff all four rules hold |
| Schemas.CleanedPostInit | app/models/schemas.py:141-144 | same length rule for cleaned records |
| Schemas.CleanedToDictKeys | app/models/schemas.py:146-148 | `to_dict` has exactly the cleaned dataclass's fields |
| Schemas.CleanedToMetadata | app/models/schemas.py:150-154 | `to_metadata` is `to_dict` without `content` |
| Schemas.ShortCategoryIsTake | app/models/schemas.py:215 | the conditional `category[:3]` is just the three-character prefix |
| Schemas.ShortFile | app/models/schemas.py:216 | the short file name has at most 10 characters and no `_` |
| Schemas.ChunkIdLastComponent | app/models/schemas.py:208-217 | the last `_`-separated part of an id reads back as the chunk index |
| Schemas.ChunkIdIndexInjective | app/models/schemas.py:208-217 | ids of different indices differ, whatever the other parts |
| Schemas.ShortFileOfStem | app/models/schemas.py:216 | a file name whose part before `_` is 10 characters or more shortens to those first 10 |
| Schemas.ChunkIdTruncationCollision | app/models/schemas.py:208-217 | two different source files that share a 10-character stem get the same id for the same index |
| Schemas.ChunkPostInit | app/models/schemas.py:200-206 | a supplied chunk id is kept; a missing one is generated and ends in the padded index; `text_length` follows the text |
| Schemas.NewChunkDataFields | app/models/schemas.py:163-217 | a fresh chunk gets the generated id in language `ta` and the text's length |
| Schemas.ChunkToDictKeys | app/models/schemas.py:219-221 | `to_dict` has exactly the chunk dataclass's fields |
| Schemas.ToRagFormatAgrees | app/models/schemas.py:256-270 | exactly the six retrieval keys, each copied unchanged from the record |
| Schemas.ChunkValidate | app/models/schemas.py:228-254 | each message appears iff its rule fails, and the list is empty iff all four rules hold |
| Store.SumSizesIsChunkCount | app/routes/admin.py:761-771 | adding up the chunk files folder by folder counts every chunk file of the directory once |
| Store.PutChunkCount | app/services/storage.py:220-229 | writing a chunk adds one file unless its index was already there |
| Store.DeleteChunkFileCount | app/routes/chunking.py:514-515 | deleting an existing chunk file removes exactly one |
| Storage.ResolveIff | app/services/storage.py:53-60 | a `{status}_{stage}` key names one of the six directories exactly when the stage and status are known names |
| Storage.KeyLiterals | app/services/storage.py:53-60 | the six directory keys are the literals the service uses |
| Storage.GetFile | app/services/storage.py:79-121 | a file is found iff the key is known and the text exists; the reply carries the text, and the sidecar or `{}` |
| Storage.ListFiles | app/services/storage.py:123-169 | one entry per text file (the sidecar, or `{'filename': name}`) or per chunk folder (with its chunk count); an unknown key lists nothing |
| Storage.SaveFile | app/services/storage.py:175-207 | succeeds iff the stage is known; a failure changes nothing |
| Storage.SaveThenGet | app/services/storage.py:188-207 | a saved file reads back from pending with the saved text and sidecar, with no conflict check |
| Storage.SaveFrame | app/services/storage.py:188-207 | the pending directory gains exactly the named text and sidecar; every other text and sidecar of it, its folders, the approved directory and the other stages are unchanged |
| Storage.SaveChunk | app/services/storage.py:209-232 | the folder is created first; a `chunk_index` (default 1) that is not an int raises out of the call, since the name is formatted before the `try`; otherwise it answers true and the chunk is stored under its index, replacing any chunk there; the folder set gains only this folder, and the other folders, the pending texts and sidecars and the other stages are untouched |
| Storage.SaveChunkCount | app/services/storage.py:220-228 | a saved chunk reads back from its folder under its index, and the pending directory gains one chunk file unless that index was taken |
| Storage.ApproveFile | app/services/storage.py:238-285 | false and no change unless pending; otherwise the text and sidecar leave pending, the text and the sidecar replace any approved namesake, the sidecar being exactly the pending one (or `{}`) with `status` and `approved_at` set, and every other file, folder and stage is unchanged |
| Storage.ApproveThenGet | app/services/storage.py:257-281 | after approval the file is no longer pending and reads back from approved with the same text |
| Storage.ApproveFileCounts | app/services/storage.py:257-281 | approval moves one text file from pending to approved |
| Storage.ApproveChunk | app/services/storage.py:287-333 | moves one chunk with the approval stamp; the pending folder disappears iff it held only that chunk; every other chunk, folder and text file is unchanged |
| Storage.ApproveChunkConserves | app/services/storage.py:305-329 | one pending chunk file fewer, and one approved chunk file more unless an approved chunk of that index was replaced |
| Storage.DeletePending | app/services/storage.py:339-371 | chunk folders are removed whole; for texts exactly the text and sidecar of that name go and the reply is true iff either existed; nothing else changes |
| Storage.DeletePendingIdempotent | app/services/storage.py:339-371 | a second deletion reports false and changes nothing |
| Storage.GetStats | app/services/storage.py:377-403 | there is a count for every one of the six keys |
| Storage.StatsMatchListing | app/services/storage.py:384-403 | text counts equal the listing's size; chunk counts are the chunk files, while the listing has one entry per folder |
| RawData.GenerateMetadataKeys | app/routes/raw_data.py:36-58 | the raw sidecar has exactly its eight keys |
| RawData.MetadataMatchesSchema | app/routes/raw_data.py:36-58 | the route's sidecar equals the schema's `to_metadata` for the same submission, less the two approval fields |
| RawData.Submit | app/routes/raw_data.py:65-149 | success iff the fields, the filename rule, a string content and no pending file of that name all hold; it writes the stripped name's text and sidecar; 400 iff a field is missing or falsy or the filename rule fails, 409 iff the name is already pending, 500 iff the filename or content is not a string; after a 500 the store is unchanged or differs only by an empty text of the stripped name; 400 and 409 change nothing |
| RawData.SubmitRefusals | app/routes/raw_data.py:103-125 | a stripped filename failing the rule is refused with 400, and a name already pending with 409, neither changing anything |
| RawData.SubmitThenRead | app/routes/raw_data.py:128-133 | a submitted text reads back from pending as submitted, with status `pending`, the clock and its length |
| RawData.ResubmitConflicts | app/routes/raw_data.py:121-125 | the same submission again is refused with 409 and changes nothing |
| RawData.ListPending | app/routes/raw_data.py:156-192 | every pending sidecar, newest submission first; 500 when the submission times are not all of one kind |
| RawData.ListApproved | app/routes/raw_data.py:199-237 | every approved sidecar, newest approval first; 500 when the approval times are not all of one kind |
| RawData.SubmitThenListed | app/routes/raw_data.py:156-192 | a submission's sidecar appears in the pending listing, which succeeds whenever every pending submission time is a string |
| RawData.GetFileContent | app/routes/raw_data.py:244-304 | a pending text with its sidecar is returned from pending, else an approved one; 404 iff in neither; 500 iff the text found has no sidecar |
| Cleaning.CleaningStatus | app/routes/cleaning.py:74-89 | `approved` iff an approved cleaned text exists, else `pending` iff a pending one does, else `not_started` |
| Cleaning.ContentPreview | app/routes/cleaning.py:87 | the whole text up to 200 characters, else its first 200 followed by `...` |
| Cleaning.ListRawFiles | app/routes/cleaning.py:39-104 | one entry per approved raw text, with its preview, length and cleaning status, and the sidecar's language and source defaulting to `ta` and `unknown` |
| Cleaning.CleanedMetadataKeys | app/routes/cleaning.py:157-167 | the cleaned sidecar has exactly its nine keys |
| Cleaning.MetadataMatchesSchema | app/routes/cleaning.py:157-167 | the sidecar copies language, source and raw id from the raw sidecar and equals the schema's metadata view |
| Cleaning.Submit | app/routes/cleaning.py:110-200 | success iff both keys, a string filename naming an approved raw text, a string content and no pending cleaned text; 400 iff a key is missing; 404 iff the raw text is not approved; 409 iff a cleaned text of that name is pending; 500 iff the filename or content is not a string; after a 500 the store is unchanged or differs only by an empty cleaned text of the stripped name |
| Cleaning.SubmitConflicts | app/routes/cleaning.py:173-179 | a cleaned text already pending is refused with 409 and nothing changes |
| Cleaning.SubmitThenStatus | app/routes/cleaning.py:142-186 | after a submission the raw listing reports the file as pending (or approved) and the sidecar points at the raw id |
| Cleaning.ListPending | app/routes/cleaning.py:207-245 | every pending cleaned sidecar, newest first; 500 when the submission times are not all of one kind |
| Cleaning.ListApproved | app/routes/cleaning.py:248-286 | every approved cleaned sidecar, newest approval first; 500 when the approval times are not all of one kind |
| Cleaning.GetFileContent | app/routes/cleaning.py:289-341 | a pending text with its sidecar is returned from pending, else an approved one; 404 iff in neither; 500 iff the text found has no sidecar |
| Cleaning.SubmitThenRead | app/routes/cleaning.py:182-186 | a cleaned submission reads back from pending as submitted |
| Chunking.GenerateChunkId | app/routes/chunking.py:50-72 | the id ends in the padded index, which reads back as the index |
| Chunking.GenerateChunkIdAgrees | app/routes/chunking.py:50-72 | the route's id generator agrees with the schema's |
| Chunking.ChunkRecordKeys | app/routes/chunking.py:280-292 | the stored chunk record has exactly its eleven keys |
| Chunking.ChunkRecordIndex | app/routes/chunking.py:286 | the stored chunk record carries the index it is filed under |
| Chunking.ChunkRecordMatchesSchema | app/routes/chunking.py:280-292 | the route's record equals the schema's `to_dict` of the same chunk, less the approval fields |
| Chunking.LanguageOf | app/routes/chunking.py:256-262 | the language is the approved cleaned sidecar's `language`, and `ta` when there is no sidecar or no such key |
| Chunking.NextIndexFresh | app/routes/chunking.py:265-274 | when the indices in use are exactly 1..n, the next index is not in use |
| Chunking.FreshIndex | app/routes/chunking.py:268-274 | the corrected index is not in use and is never below the counted one |
| Chunking.FreshIndexAgrees | app/routes/chunking.py:268-274 | on indices 1..n the corrected index equals the counted one |
| Chunking.SubmitWith | app/routes/chunking.py:210-318 | success iff the fields, an approved cleaned text and a string category; 400 iff a field is missing or falsy, 404 iff the cleaned text is not approved, 500 iff the filename or category is not a string or the text has no length; a failure changes nothing; on success only the chunk folder of that file changes |
| Chunking.Submit | app/routes/chunking.py:210-318 | the counted index, a matching id, and a write that replaces whatever chunk file has that index |
| Chunking.SubmitKeepsContiguous | app/routes/chunking.py:265-302 | on indices 1..n a submission makes them 1..n+1 |
| Chunking.SubmitCorrectedNeverOverwrites | app/routes/chunking.py:268-302 | with the corrected index a submission keeps every existing chunk |
| Chunking.Kept | app/routes/chunking.py:391-395 | item `p` gets index `next + p`, and skipped items use up their index too; the kept indices strictly increase |
| Chunking.WriteItems | app/routes/chunking.py:391-421 | the batch loop writes only indices in the batch's range and keeps the other chunk files |
| Chunking.WriteItemsRaises | app/routes/chunking.py:391-421 | the loop raises iff some item is not a well-formed object to skip or write |
| Chunking.WriteItemsFollowsKept | app/routes/chunking.py:391-421 | without a raise, the created chunks are exactly the kept indices, in order |
| Chunking.WriteItemsRecords | app/routes/chunking.py:414-419 | every reported chunk is written with its own index |
| Chunking.WriteItemsWrites | app/routes/chunking.py:391-421 | over items none of which fails, each kept item is stored at its index as the record built from it, and every other chunk file is unchanged |
| Chunking.SubmitBatch | app/routes/chunking.py:324-436 | success iff the fields, a non-empty list, an approved cleaned text and no failing item; 400 iff a key is missing or `chunks` is not a non-empty list, 404 iff the cleaned text is not approved, 500 iff the filename is not a string (nothing changes) or an item fails (the folder then holds exactly what the loop wrote before the raise); the reply lists the kept indices; only the text's pending chunk folder changes |
| Chunking.SubmitBatchWrites | app/routes/chunking.py:369-421 | an accepted batch stores each kept item's record, with the file's language, at its index and leaves the folder's other chunks as they were |
| Chunking.BatchOnContiguousKeepsChunks | app/routes/chunking.py:369-421 | on indices 1..n a batch overwrites no existing pending chunk |
| Chunking.DeleteChunk | app/routes/chunking.py:490-527 | succeeds iff the chunk is pending, removing only it; 404 with no change otherwise; approved chunks are never touched |
| Chunking.DeleteThenSubmitCollides | app/routes/chunking.py:268-274 | after deleting a pending chunk below the top index, the next submission gets the top index, which is still in use |
| Chunking.CollisionWitness | app/routes/chunking.py:268-302 | on a file with pending chunks 1, 2 and 3, deleting chunk 2 and submitting gives index 3, still a pending chunk file, and the folder stays at two files |
| Chunking.DeleteLowersNext | app/routes/chunking.py:268-274 | deleting a pending chunk below the top index of a gap-free file lowers the counted index by one, onto an index still in use |
| Chunking.SubmitOnUsedIndex | app/routes/chunking.py:268-302 | when the counted index is in use as a pending chunk, the submission replaces it and the folder does not grow |
| Chunking.BatchSkipBreaksContiguity | app/routes/chunking.py:391-395 | a batch whose first item is skipped leaves a gap in the indices |
| Chunking.ListCleanedFiles | app/routes/chunking.py:79-144 | one entry per approved cleaned text, with its pending, approved and total chunk counts |
| Chunking.ListedTotalGivesNextIndex | app/routes/chunking.py:110-130 | the listed total plus one is the index the next submission gets |
| Chunking.GetChunks | app/routes/chunking.py:151-204 | 500 exactly when two or more chunks have index keys that are not all ints or all strings; otherwise every pending and approved chunk of the file, each once and tagged with its location, sorted by index |
| Chunking.Merged | app/routes/chunking.py:164-189 | the result is a permutation of the tagged pending and approved chunk files, sorted by index, and it raises exactly when the index keys are mixed |
| Chunking.MergedSortableIff | app/routes/chunking.py:189 | whether the merged sort raises depends only on the kinds of the two folders' index keys |
| Chunking.FolderSortableIff | app/routes/admin.py:87 | sorting one folder's chunks by index raises exactly when the folder has two or more chunks whose keys are not all ints or all strings |
| Admin.IntOf | app/routes/admin.py:316 | `int(v)` returns an int unchanged and otherwise succeeds only on a digit string |
| Admin.Merge | app/routes/admin.py:269-271 | `dict.update` with an object gives the right-biased union; with an empty string or list nothing changes; anything else raises |
| Admin.Stamped | app/routes/admin.py:273-275 | the edit stamp sets `updated_at` and `updated_by` and keeps every other key |
| Admin.UpdateText | app/routes/admin.py:250-306 | 404 with no change iff the text is not pending; otherwise content is replaced only when supplied, and the sidecar becomes the stamped merge; any other failure is 500, leaves every sidecar as it was and keeps only the content written before the raise; other files are untouched |
| Admin.UpdateChunk | app/routes/admin.py:308-331 | 400 iff `chunk_index` is missing or null; 404 iff `int()` accepts it, the filename is a string and the chunk is not pending; 500 iff the index or filename cannot be used or a supplied chunk is not an object; success iff the chunk is pending; a supplied chunk replaces it, stamped |
| Admin.Update | app/routes/admin.py:219-351 | 400 without type or filename, and for a type other than raw, cleaned or chunk; dispatch by type; approved data never changes |
| Admin.UpdatePatchThenStamp | app/routes/admin.py:269-275 | the stamp wins over the patch, and every other patched key holds its patched value |
| Admin.ApprovalStamp | app/routes/admin.py:402-413 | the approval stamp sets status, `approved_at` and `approved_by` and keeps every other key |
| Admin.ApproveText | app/routes/admin.py:388-440 | 404 with no change iff not pending; 500 with no change iff the sidecar is missing; otherwise the text and sidecar move to approved, stamped, and nothing else changes |
| Admin.ApproveTextCounts | app/routes/admin.py:402-413 | approval moves exactly one text from pending to approved |
| Admin.ApproveChunkItem | app/routes/admin.py:442-481 | 400 iff no index; 404 iff the index is an int, the filename a string and the chunk not pending; 500 iff the index is not an int or the filename not a string; success iff the chunk is pending; it moves stamped, and the pending folder disappears iff it empties |
| Admin.Approve | app/routes/admin.py:358-501 | 400 without type or filename, and for a type other than raw, cleaned or chunk; dispatch by type; a failure changes nothing |
| Admin.ApproveChunkCounts | app/routes/admin.py:451-481 | chunk approval moves exactly one chunk file |
| Admin.RejectChunkFile | app/routes/admin.py:565-575 | the chunk is removed if present, and the folder too when it is left empty |
| Admin.Reject | app/routes/admin.py:508-598 | 400 without type or filename, and for an unknown type; texts are deleted from pending if present and always succeed; for chunks, 400 iff the index is missing or null, 500 iff it is not an int or the filename not a string; approved data never changes |
| Admin.RejectIdempotent | app/routes/admin.py:540-575 | rejecting twice is rejecting once |
| Admin.BulkStamp | app/routes/admin.py:646-647 | the bulk stamp sets status and `approved_at`, adds no approver, and keeps every other key |
| Admin.ApproveAllTexts | app/routes/admin.py:631-675 | every pending text with a sidecar moves with status and `approved_at` (no `approved_by`); the count is their number; the others stay |
| Admin.ApproveAllChunks | app/routes/admin.py:677-707 | every pending chunk of the folder moves, stamped, and the folder is removed; the count is the folder's size |
| Admin.ApproveAll | app/routes/admin.py:605-720 | 400 iff the type is falsy, or `chunks` has no filename; 500 iff the `chunks` filename is truthy but not a string, and no other failure; an unknown type succeeds with count 0 and changes nothing |
| Admin.ApproveAllTextsTwice | app/routes/admin.py:631-653 | after a bulk approval nothing is left to move |
| Admin.ApproveAllChunksConserves | app/routes/admin.py:686-707 | the pending chunks lose the folder's files, and the approved ones gain those whose index was not approved yet |
| Admin.PendingTotalsOf | app/routes/admin.py:79-97 | 500 exactly when some pending folder's chunks cannot be sorted by index; otherwise the totals count the sidecars and the chunk files, and `total` is their sum |
| Admin.GetStats | app/routes/admin.py:727-789 | per-stage counts of text files and chunk files; the totals are the sums of the three stages |
| Admin.StatsAgreeWithStorage | app/routes/admin.py:749-771 | the route's counts equal the storage service's six counts |
| Admin.PendingTotalsAgree | app/routes/admin.py:90-97 | where every pending text has a sidecar, a successful pending total equals the stats' pending total |
| Admin.TextsUploaded | app/routes/admin.py:849-872 | the uploaded names are listed files with a sidecar |
| Admin.TextsUploadedAll | app/routes/admin.py:849-872 | when every upload succeeds, every file is reported uploaded, in listing order |
| Admin.PushTexts | app/routes/admin.py:849-872 | each approved text is counted exactly once, as uploaded or failed |
| Admin.ChunkPathParts | app/routes/admin.py:921 | a reported path (`Admin.ChunkPath`) is the folder name, a slash, and a file name whose `{:02d}` part reads back as the chunk index |
| Admin.ChunkPathInjective | app/routes/admin.py:921 | within a folder, different chunk indices are reported under different paths |
| Admin.PathsAt | app/routes/admin.py:909-921 | position j of `Admin.Paths` holds the path of the j-th listed chunk of the folder |
| Admin.ChunksUploaded | app/routes/admin.py:905-926 | the reference report of a chunk push: folder by folder, the accepted chunks' paths, never more than the listed chunks |
| Admin.FolderUploaded | app/routes/admin.py:905-926 | a folder reports only paths of its listed chunks that the hub accepted, at most one per listed chunk |
| Admin.ChunksUploadedSound | app/routes/admin.py:905-926 | every reported chunk path is a chunk file of the directory that the hub accepted |
| Admin.ChunksUploadedAll | app/routes/admin.py:905-926 | when the hub accepts everything, the report is the path of every listed chunk, folder by folder in listing order |
| Admin.ChunksUploadedEvery | app/routes/admin.py:905-926 | when the hub accepts everything, one path is reported per approved chunk file |
| Admin.PushFolder | app/routes/admin.py:910-926 | each chunk of a folder is counted once, as uploaded or failed, and the uploaded paths are the accepted ones |
| Admin.PushChunks | app/routes/admin.py:905-926 | each approved chunk file is counted exactly once, as uploaded or failed, and the uploaded paths are the accepted ones in listing order |
| Admin.Push | app/routes/admin.py:795-948 | 400 iff there is no type, no token, or no configured client; otherwise uploaded plus failed is the number of approved files of the covered stages, and each stage reports the files the hub accepted |
| Lifecycle.ApproveKeepsApproved | app/routes/admin.py:358-501 | an approval withdraws nothing approved |
| Lifecycle.ApproveAllKeepsApproved | app/routes/admin.py:605-720 | a bulk approval withdraws nothing approved |
| Lifecycle.ApplyKeepsApproved | app/__init__.py:87-102 | no request to any registered route removes an approved text or chunk: of the writing routes only the admin approvals touch approved data, and they only add to it |
| Lifecycle.RunKeepsApproved | app/__init__.py:87-102 | along any sequence of requests to the registered routes everything approved stays approved |
| Lifecycle.UpdateKeepsLineage | app/routes/admin.py:219-351 | an edit creates no new name |
| Lifecycle.ApproveKeepsLineage | app/routes/admin.py:388-440 | approving a cleaned text whose raw text is approved keeps the lineage |
| Lifecycle.ApproveAllKeepsLineage | app/routes/admin.py:655-675 | bulk approval keeps the lineage |
| Lifecycle.ChunkSubmitKeepsLineage | app/routes/chunking.py:248-254 | a chunk is created only for an approved cleaned text |
| Lifecycle.ApplyKeepsLineage | app/__init__.py:87-102 | no request creates a cleaned text without an approved raw text, or chunks without an approved cleaned text: the cleaning (cleaning.py:142-147) and chunking (chunking.py:248-254) guards, and approvals that only add approved data |
| Lifecycle.RunKeepsLineage | app/__init__.py:87-102 | lineage holds after any request sequence that starts with it |
| Lifecycle.RunFromEmptyHasLineage | app/__init__.py:68-79 | starting from the six empty directories the application creates, every cleaned text and chunk folder traces back to approved data |

## Findings

| source | as written | input that shows it | evidently intended | confidence | as-written member | corrected member |
|---|---|---|---|---|---|---|
| app/routes/chunking.py:268-274 | a new chunk gets index = number of existing chunk files + 1. After a deletion, or after a batch that skipped an item, that index can still be in use, and the write replaces that chunk file | pending chunks 1, 2 and 3 of a file, nothing approved; delete chunk 2 (chunking.py:506-515); submit a chunk: it gets index 3 and overwrites `chunk_03.json` | a new chunk never replaces an existing one: app/models/schemas.py:171 documents `chunk_id` as a "Unique chunk identifier" | not executed | Chunking.DeleteThenSubmitCollides | Chunking.SubmitCorrectedNeverOverwrites |

The corrected rule is `Chunking.FreshIndex`: the first unused index at or
above the counted one. `Chunking.FreshIndexAgrees` proves it equals the
counted index whenever the indices in use are exactly 1..n, so it changes
nothing in the normal case. `Lifecycle.Apply` takes the index rule as a
parameter, and both lifecycle invariants are proved for either rule.

## Left out

- File system I/O and JSON (de)serialisation: the directories are maps and the sidecars are JSON values.
- Crash atomicity and concurrency: each request is one atomic step, and there is no locking to model.
- The hub client: each upload is a success/failure oracle, and `is_configured` is a boolean. Repository selection (`repo`) is not modelled.
- `uuid4` and `datetime.now()`: they are parameters. One clock reading serves a whole request, although the code reads the clock once per record.
- Python's Unicode `isalnum` and `strip`: the model uses ASCII letters and digits and ASCII whitespace.
- JSON booleans and floats are not values of the model.
- Json.Render: `str()` of a list or object is an opaque placeholder (`[...]`, `{...}`) rather than Python's repr. It enters the admin routes' file names and, through a non-string `language`, the chunk ids.
- File names holding a path separator, or `.txt` inside the name (which `replace('.txt', '')` would also cut): the model treats names as opaque keys.
- Request bodies that are not JSON objects (`request.get_json()` returning `None` or a list) are not modelled.
- `GET /api/admin/item` (`get_pending_item`) and `GET /api/chunking/pending` are read-only listings that no property depends on.
- The item lists of `GET /api/admin/pending`: only its totals, and the 500 its per-folder sort can raise, are modelled (`Admin.PendingTotalsOf`).
- Logging of the reject reason, and the messages of the replies.
- The storage service's `KeyError` for a stage name outside the three in `approve_file` and `delete_pending`: the model takes the stage as a `StageKind`.
- Write errors inside `save_file` and `save_chunk`: writes always succeed in the model, so `Storage.SaveChunk` never answers false.
- The storage service and the routes are separate code paths (the routes do not call the service). `Admin.StatsAgreeWithStorage` relates their counts.
- Listing orders of `list_files`, `list_raw_files` and `list_cleaned_files`: these are maps keyed by name, where the code's lists follow `os.listdir`.
- Sorting.SortBy: stability of Python's sort is not proved. Only sortedness and permutation are stated.
- Admin.IntOf: it accepts only an int or a digit string. Python's `int()` also accepts signs, surrounding whitespace and underscores.
- Admin.Merge: a list of key/value pairs, which `dict.update` also accepts, is treated as raising.
- Chunking.GetChunks: keys that are all lists are treated as raising (500), although Python can order lists element by element.
- Chunking.Merged: index keys that are all lists are treated as raising (500), although Python can order them.
- Admin.PendingTotalsOf: a pending folder whose index keys are all lists is treated as raising (500), although Python can order them.
- RawData.ListPending: `submitted_at` values that are all lists are treated as raising (500), although Python can order them.
- RawData.ListApproved: `approved_at` values that are all lists are treated as raising (500), although Python can order them.
- Cleaning.ListPending: `submitted_at` values that are all lists are treated as raising (500), although Python can order them.
- Cleaning.ListApproved: `approved_at` values that are all lists are treated as raising (500), although Python can order them.
- Queue.ListNewestFirst: the order among equal timestamps is not stated, since stability of the sort is not proved.
- Chunking.Accepts: a category that is not a string is treated as raising (500). Python would format a list category without error.

=== FILE: admin.dfy ===
/** The admin routes: edit, approve and reject pending items one at a time,
    approve all pending items of a stage (or all chunks of one file), count
    what is pending and approved, and push approved data to the hub. The
    clock is a parameter; the hub client is an oracle. */
module Admin {
  import opened Json
  import opened Text
  import opened Http
  import opened Store
  import Storage
  import Chunking

  // ---------------------------------------------------------------------------
  // Reading the request
  // ---------------------------------------------------------------------------

  /** The text stage a `type` value names, if it names one. */
  function TextKind(t: Value): Option<StageKind> {
    if t == VStr("raw") then Some(Raw)
    else if t == VStr("cleaned") then Some(Cleaned)
    else None
  }

  /** `f'chunk_{i:02d}.json'`: only an int can be formatted; anything else raises. */
  function FormatIndex(v: Value): Option<int> {
    if v.VInt? then Some(v.i) else None
  }

  /** `int(v)`: an int, or a string of decimal digits. */
  function IntOf(v: Value): (r: Option<int>)
    ensures v.VInt? ==> r == Some(v.i)
    ensures r.Some? ==> v.VInt? || (v.VStr? && |v.s| > 0 && AllDigits(v.s))
  {
    match v
    case VInt(i) => Some(i)
    case VStr(s) => if |s| > 0 && AllDigits(s) then Some(ParseDigits(s)) else None
    case _ => None
  }

  /** `metadata.update(patch)`: an object's entries win over the old ones; an
      empty string or list changes nothing; any other value raises. */
  function Merge(prev: Meta, patch: Value): (r: Option<Meta>)
    ensures r.Some? <==> patch.VObj? || patch == VStr("") || patch == VList([])
    ensures patch.VObj? ==>
      && r.Some?
      && (forall k :: k in r.value <==> k in prev || k in patch.fields)
      && (forall k :: k in patch.fields ==> r.value[k] == patch.fields[k])
      && (forall k :: k in prev && k !in patch.fields ==> r.value[k] == prev[k])
    ensures r.Some? && !patch.VObj? ==> r.value == prev
  {
    match patch
    case VObj(fields) => Some(prev + fields)
    case VStr(s) => if s == "" then Some(prev) else None
    case VList(items) => if items == [] then Some(prev) else None
    case _ => None
  }

  /** The edit stamp the admin routes put on what they rewrite. */
  function Stamped(m: Meta, now: string): (r: Meta)
    ensures Holds(r, "updated_at", VStr(now)) && Holds(r, "updated_by", VStr("admin"))
    ensures forall k :: k != "updated_at" && k != "updated_by" ==> (k in r <==> k in m)
    ensures forall k :: k in m && k != "updated_at" && k != "updated_by" ==> r[k] == m[k]
  {
    m["updated_at" := VStr(now)]["updated_by" := VStr("admin")]
  }

  // ---------------------------------------------------------------------------
  // POST /api/admin/update
  // ---------------------------------------------------------------------------

  /** When the edit of a pending text succeeds: the text exists, a supplied
      content is a string, its sidecar exists, and a supplied patch can be
      merged. */
  predicate TextUpdateSucceeds(s: Store, k: StageKind, name: string, data: Meta) {
    var p := StageOf(s, k).pending;
    && name in p.content
    && ("content" in data ==> data["content"].VStr?)
    && name in p.meta
    && ("metadata" in data ==> Merge(p.meta[name], data["metadata"]).Some?)
  }

  /** The edit of a pending raw or cleaned text: 404 when it is not pending;
      otherwise a supplied content is written first (a non-string one leaves
      the file empty and raises), then the sidecar is read (raising when it
      is missing), merged with the patch and stamped. */
  function UpdateText(s: Store, k: StageKind, name: string, data: Meta, now: string): (r: Step<Outcome<()>>)
    ensures r.out.Done? <==> TextUpdateSucceeds(s, k, name, data)
    ensures r.out == Fail(NotFound) <==> name !in StageOf(s, k).pending.content
    ensures r.out == Fail(NotFound) ==> r.store == s
    ensures r.out.Fail? ==> r.out == Fail(NotFound) || r.out == Fail(ServerError)
    ensures r.out.Fail? ==>
      var p := StageOf(s, k).pending;
      var p' := StageOf(r.store, k).pending;
      && p'.meta == p.meta
      && p'.content == (if name in p.content && "content" in data
                        then p.content[name := if data["content"].VStr? then data["content"].s else ""]
                        else p.content)
    ensures forall k' :: k' != k ==> StageOf(r.store, k') == StageOf(s, k')
    ensures StageOf(r.store, k).approved == StageOf(s, k).approved
    ensures StageOf(r.store, k).pending.content.Keys == StageOf(s, k).pending.content.Keys
    ensures StageOf(r.store, k).pending.folders == StageOf(s, k).pending.folders
    ensures r.out.Done? ==>
      var p := StageOf(s, k).pending;
      var p' := StageOf(r.store, k).pending;
      && p'.content == (if "content" in data then p.content[name := data["content"].s] else p.content)
      && p'.meta.Keys == p.meta.Keys
      && (forall f :: f in p.meta && f != name ==> p'.meta[f] == p.meta[f])
      && p'.meta[name] == Stamped(if "metadata" in data then Merge(p.meta[name], data["metadata"]).value else p.meta[name], now)
  {
    var st := StageOf(s, k);
    var p := st.pending;
    if name !in p.content then Step(Fail(NotFound), s)
    else
      var written := if "content" in data then p.(content := p.content[name := (if data["content"].VStr? then data["content"].s else "")]) else p;
      var s1 := WithStage(s, k, st.(pending := written));
      if "content" in data && !data["content"].VStr? then Step(Fail(ServerError), s1)
      else if name !in p.meta then Step(Fail(ServerError), s1)
      else
        var patched := if "metadata" in data then Merge(p.meta[name], data["metadata"]) else Some(p.meta[name]);
        if patched.None? then Step(Fail(ServerError), s1)
        else Step(Done(()), WithStage(s, k, st.(pending := written.(meta := p.meta[name := Stamped(patched.value, now)]))))
  }

  /** The edit of a pending chunk: a missing or null index is 400; an index
      `int()` rejects, or a filename that is not a string, raises (500); a
      chunk that is not pending is 404. A supplied `chunk` must be an object
      and replaces the whole chunk file, stamped; without one nothing is
      written. */
  function UpdateChunk(s: Store, filename: Value, data: Meta, now: string): (r: Step<Outcome<()>>)
    ensures r.out.Fail? ==> r.store == s
    ensures r.out == Fail(BadRequest) <==> GetOr(data, "chunk_index", VNull) == VNull
    ensures r.out.Done? <==>
      && IntOf(GetOr(data, "chunk_index", VNull)).Some? && filename.VStr?
      && IntOf(GetOr(data, "chunk_index", VNull)).value in FolderOf(s.chunked.pending, filename.s)
      && ("chunk" in data ==> data["chunk"].VObj?)
    ensures r.out == Fail(NotFound) <==>
      && IntOf(GetOr(data, "chunk_index", VNull)).Some? && filename.VStr?
      && IntOf(GetOr(data, "chunk_index", VNull)).value !in FolderOf(s.chunked.pending, filename.s)
    ensures r.out == Fail(ServerError) <==>
      && GetOr(data, "chunk_index", VNull) != VNull
      && (|| IntOf(GetOr(data, "chunk_index", VNull)).None? || !filename.VStr?
          || (&& IntOf(GetOr(data, "chunk_index", VNull)).value in FolderOf(s.chunked.pending, filename.s)
              && "chunk" in data && !data["chunk"].VObj?))
    ensures r.store.raw == s.raw && r.store.cleaned == s.cleaned && r.store.chunked.approved == s.chunked.approved
    ensures r.out.Done? && "chunk" in data ==>
      var i := IntOf(GetOr(data, "chunk_index", VNull)).value;
      r.store.chunked.pending == PutChunk(s.chunked.pending, filename.s, i, Stamped(data["chunk"].fields, now))
    ensures r.out.Done? && "chunk" !in data ==> r.store == s
  {
    var iv := GetOr(data, "chunk_index", VNull);
    if iv == VNull then Step(Fail(BadRequest), s)
    else if IntOf(iv).None? || !filename.VStr? then Step(Fail(ServerError), s)
    else
      var f := filename.s;
      var i := IntOf(iv).value;
      if i !in FolderOf(s.chunked.pending, f) then Step(Fail(NotFound), s)
      else if "chunk" !in data then Step(Done(()), s)
      else if !data["chunk"].VObj? then Step(Fail(ServerError), s)
      else
        var chunk := Stamped(data["chunk"].fields, now);
        Step(Done(()), s.(chunked := s.chunked.(pending := PutChunk(s.chunked.pending, f, i, chunk))))
  }

  /** `POST /api/admin/update`: 400 without `type` and `filename`, or for
      an unknown type. A text's file name is the filename value as an
      f-string renders it. */
  function Update(s: Store, data: Meta, now: string): (r: Step<Outcome<()>>)
    ensures "type" !in data || "filename" !in data ==> r == Step(Fail(BadRequest), s)
    ensures r.out == Fail(NotFound) ==> r.store == s
    ensures r.store.chunked.approved == s.chunked.approved
      && r.store.raw.approved == s.raw.approved && r.store.cleaned.approved == s.cleaned.approved
    ensures "type" in data && "filename" in data && TextKind(data["type"]).Some? ==>
      r == UpdateText(s, TextKind(data["type"]).value, Render(data["filename"]), data, now)
    ensures "type" in data && "filename" in data && data["type"] == VStr("chunk") ==>
      r == UpdateChunk(s, data["filename"], data, now)
    ensures "type" in data && "filename" in data && TextKind(data["type"]).None? && data["type"] != VStr("chunk") ==>
      r == Step(Fail(BadRequest), s)
  {
    if "type" !in data || "filename" !in data then Step(Fail(BadRequest), s)
    else
      var t := data["type"];
      if TextKind(t).Some? then UpdateText(s, TextKind(t).value, Render(data["filename"]), data, now)
      else if t == VStr("chunk") then UpdateChunk(s, data["filename"], data, now)
      else Step(Fail(BadRequest), s)
  }

  /** The stamps win over the patch: whatever `updated_at` or `updated_by`
      the patch carries, the sidecar ends with the clock and `admin`; every
      other patched key takes the patch's value. */
  lemma UpdatePatchThenStamp(s: Store, k: StageKind, name: string, data: Meta, now: string)
    requires TextUpdateSucceeds(s, k, name, data)
    requires "metadata" in data && data["metadata"].VObj?
    ensures var m := StageOf(UpdateText(s, k, name, data, now).store, k).pending.meta[name];
      && Holds(m, "updated_at", VStr(now)) && Holds(m, "updated_by", VStr("admin"))
      && (forall key :: key in data["metadata"].fields && key != "updated_at" && key != "updated_by" ==>
            Holds(m, key, data["metadata"].fields[key]))
  {
  }

  // ---------------------------------------------------------------------------
  // POST /api/admin/approve
  // ---------------------------------------------------------------------------

  /** The approval stamps of the single-item approval. */
  function ApprovalStamp(m: Meta, now: string): (r: Meta)
    ensures Holds(r, "status", VStr("approved")) && Holds(r, "approved_at", VStr(now)) && Holds(r, "approved_by", VStr("admin"))
    ensures forall k :: k !in {"status", "approved_at", "approved_by"} ==> (k in r <==> k in m)
    ensures forall k :: k in m && k !in {"status", "approved_at", "approved_by"} ==> r[k] == m[k]
  {
    m["status" := VStr("approved")]["approved_at" := VStr(now)]["approved_by" := VStr("admin")]
  }

  /** Approval of a pending text: 404 when the text is not pending, 500 when
      its sidecar is missing; otherwise the text moves to the approved
      directory with a stamped sidecar. */
  function ApproveText(s: Store, k: StageKind, name: string, now: string): (r: Step<Outcome<()>>)
    ensures r.out == Fail(NotFound) <==> name !in StageOf(s, k).pending.content
    ensures r.out.Done? <==> name in StageOf(s, k).pending.content && name in StageOf(s, k).pending.meta
    ensures r.out.Fail? ==> r.out == Fail(NotFound) || r.out == Fail(ServerError)
    ensures r.out.Fail? ==> r.store == s
    ensures forall k' :: k' != k ==> StageOf(r.store, k') == StageOf(s, k')
    ensures r.out.Done? ==>
      var st := StageOf(s, k);
      var st' := StageOf(r.store, k);
      && st'.pending.content == st.pending.content - {name}
      && st'.pending.meta == st.pending.meta - {name}
      && st'.approved.content == st.approved.content[name := st.pending.content[name]]
      && st'.approved.meta == st.approved.meta[name := ApprovalStamp(st.pending.meta[name], now)]
      && st'.pending.folders == st.pending.folders && st'.approved.folders == st.approved.folders
  {
    var st := StageOf(s, k);
    if name !in st.pending.content then Step(Fail(NotFound), s)
    else if name !in st.pending.meta then Step(Fail(ServerError), s)
    else Step(Done(()), WithStage(s, k, MoveFile(st, name, ApprovalStamp(st.pending.meta[name], now))))
  }

  /** Approval moves exactly one text: the pending directory loses it and
      the approved one gains it (or replaces its namesake). */
  lemma ApproveTextCounts(s: Store, k: StageKind, name: string, now: string)
    requires name in StageOf(s, k).pending.content && name in StageOf(s, k).pending.meta
    ensures var st := StageOf(s, k);
      var st' := StageOf(ApproveText(s, k, name, now).store, k);
      && |st'.pending.content| + 1 == |st.pending.content|
      && |st'.approved.content| == |st.approved.content| + (if name in st.approved.content then 0 else 1)
  {
    var st := StageOf(s, k);
    var st' := StageOf(ApproveText(s, k, name, now).store, k);
    assert st'.approved.content.Keys == st.approved.content.Keys + {name};
  }

  /** Approval of a pending chunk: a missing or null index is 400; an index
      that is not an int, or a filename that is not a string, raises (500);
      a chunk that is not pending is 404. Otherwise the chunk is stamped and
      written to the approved folder (created when needed), removed from
      the pending one, and the pending folder goes when it is left empty. */
  function ApproveChunkItem(s: Store, filename: Value, data: Meta, now: string): (r: Step<Outcome<()>>)
    ensures r.out.Fail? ==> r.store == s
    ensures r.out == Fail(BadRequest) <==> GetOr(data, "chunk_index", VNull) == VNull
    ensures r.out.Done? <==>
      && GetOr(data, "chunk_index", VNull).VInt? && filename.VStr?
      && GetOr(data, "chunk_index", VNull).i in FolderOf(s.chunked.pending, filename.s)
    ensures r.out == Fail(NotFound) <==>
      && GetOr(data, "chunk_index", VNull).VInt? && filename.VStr?
      && GetOr(data, "chunk_index", VNull).i !in FolderOf(s.chunked.pending, filename.s)
    ensures r.out == Fail(ServerError) <==>
      GetOr(data, "chunk_index", VNull) != VNull && (!GetOr(data, "chunk_index", VNull).VInt? || !filename.VStr?)
    ensures r.store.raw == s.raw && r.store.cleaned == s.cleaned
    ensures r.out.Done? ==>
      var f := filename.s;
      var i := data["chunk_index"].i;
      var p := s.chunked.pending;
      var p' := r.store.chunked.pending;
      && r.store.chunked.approved == PutChunk(s.chunked.approved, f, i, ApprovalStamp(p.folders[f][i], now))
      && (f in p'.folders <==> p.folders[f].Keys != {i})
      && (f in p'.folders ==> p'.folders[f] == p.folders[f] - {i})
      && p'.folders - {f} == p.folders - {f}
  {
    var iv := GetOr(data, "chunk_index", VNull);
    if iv == VNull then Step(Fail(BadRequest), s)
    else if FormatIndex(iv).None? || !filename.VStr? then Step(Fail(ServerError), s)
    else
      var f := filename.s;
      var i := FormatIndex(iv).value;
      if i !in FolderOf(s.chunked.pending, f) then Step(Fail(NotFound), s)
      else
        var p := s.chunked.pending;
        var rest := p.folders[f] - {i};
        assert rest.Keys == p.folders[f].Keys - {i};
        assert rest == map[] <==> rest.Keys == {};
        var chunk := ApprovalStamp(p.folders[f][i], now);
        Step(Done(()), s.(chunked := Stage(DeleteChunkFile(p, f, i, true), PutChunk(s.chunked.approved, f, i, chunk))))
  }

  /** `POST /api/admin/approve`: 400 without `type` and `filename`, or for
      an unknown type. */
  function Approve(s: Store, data: Meta, now: string): (r: Step<Outcome<()>>)
    ensures "type" !in data || "filename" !in data ==> r == Step(Fail(BadRequest), s)
    ensures r.out.Fail? ==> r.store == s
    ensures "type" in data && "filename" in data && TextKind(data["type"]).Some? ==>
      r == ApproveText(s, TextKind(data["type"]).value, Render(data["filename"]), now)
    ensures "type" in data && "filename" in data && data["type"] == VStr("chunk") ==>
      r == ApproveChunkItem(s, data["filename"], data, now)
    ensures "type" in data && "filename" in data && TextKind(data["type"]).None? && data["type"] != VStr("chunk") ==>
      r == Step(Fail(BadRequest), s)
  {
    if "type" !in data || "filename" !in data then Step(Fail(BadRequest), s)
    else
      var t := data["type"];
      if TextKind(t).Some? then ApproveText(s, TextKind(t).value, Render(data["filename"]), now)
      else if t == VStr("chunk") then ApproveChunkItem(s, data["filename"], data, now)
      else Step(Fail(BadRequest), s)
  }

  /** Approving a chunk moves it: the pending directory has one chunk file
      fewer, and the approved one has one more unless it already held a
      chunk of that index. */
  lemma ApproveChunkCounts(s: Store, filename: Value, data: Meta, now: string)
    requires ApproveChunkItem(s, filename, data, now).out.Done?
    ensures var r := ApproveChunkItem(s, filename, data, now);
      var f := filename.s;
      var i := data["chunk_index"].i;
      && ChunkCount(r.store.chunked.pending) + 1 == ChunkCount(s.chunked.pending)
      && ChunkCount(r.store.chunked.approved)
           == ChunkCount(s.chunked.approved) + (if i in FolderOf(s.chunked.approved, f) then 0 else 1)
  {
    var r := ApproveChunkItem(s, filename, data, now);
    var f := filename.s;
    var i := data["chunk_index"].i;
    var p := s.chunked.pending;
    var chunk := ApprovalStamp(p.folders[f][i], now);
    assert r.store.chunked == Stage(DeleteChunkFile(p, f, i, true), PutChunk(s.chunked.approved, f, i, chunk));
    DeleteChunkFileCount(p, f, i, true);
    PutChunkCount(s.chunked.approved, f, i, chunk);
  }

  // ---------------------------------------------------------------------------
  // POST /api/admin/reject
  // ---------------------------------------------------------------------------

  /** Rejection of a chunk: the chunk file goes if it exists, and the
      pending folder goes if it exists and is (then) empty. */
  function RejectChunkFile(d: Dir, f: string, i: int): (d': Dir)
    ensures d'.content == d.content && d'.meta == d.meta
    ensures forall g :: g != f ==> (g in d'.folders <==> g in d.folders)
    ensures forall g :: g != f && g in d.folders ==> d'.folders[g] == d.folders[g]
    ensures f in d'.folders <==> f in d.folders && d.folders[f].Keys - {i} != {}
    ensures f in d'.folders ==> d'.folders[f] == d.folders[f] - {i}
  {
    if f !in d.folders then d
    else
      var rest := d.folders[f] - {i};
      assert rest.Keys == d.folders[f].Keys - {i};
      assert rest == map[] <==> rest.Keys == {};
      if rest == map[] then d.(folders := d.folders - {f}) else d.(folders := d.folders[f := rest])
  }

  /** `POST /api/admin/reject`: a pending text and its sidecar are removed
      if they exist, and the request succeeds either way. A chunk needs an
      index (400 when missing or null) that is an int and a string filename
      (500 otherwise). Approved files are never touched. */
  function Reject(s: Store, data: Meta): (r: Step<Outcome<()>>)
    ensures "type" !in data || "filename" !in data ==> r == Step(Fail(BadRequest), s)
    ensures r.out.Fail? ==> r.store == s
    ensures r.store.raw.approved == s.raw.approved && r.store.cleaned.approved == s.cleaned.approved
      && r.store.chunked.approved == s.chunked.approved
    ensures "type" in data && "filename" in data && TextKind(data["type"]).Some? ==>
      var k := TextKind(data["type"]).value;
      && r.out.Done?
      && r.store == WithStage(s, k, StageOf(s, k).(pending := RemoveFile(StageOf(s, k).pending, Render(data["filename"]))))
    ensures "type" in data && "filename" in data && data["type"] == VStr("chunk") ==>
      && (r.out.Done? <==> GetOr(data, "chunk_index", VNull).VInt? && data["filename"].VStr?)
      && (r.out == Fail(BadRequest) <==> GetOr(data, "chunk_index", VNull) == VNull)
      && (r.out == Fail(ServerError) <==>
            GetOr(data, "chunk_index", VNull) != VNull && (!GetOr(data, "chunk_index", VNull).VInt? || !data["filename"].VStr?))
    ensures r.out.Done? && data["type"] == VStr("chunk") ==>
      r.store.chunked.pending == RejectChunkFile(s.chunked.pending, data["filename"].s, data["chunk_index"].i)
    ensures "type" in data && "filename" in data && TextKind(data["type"]).None? && data["type"] != VStr("chunk") ==>
      r == Step(Fail(BadRequest), s)
  {
    if "type" !in data || "filename" !in data then Step(Fail(BadRequest), s)
    else
      var t := data["type"];
      if TextKind(t).Some? then
        var k := TextKind(t).value;
        Step(Done(()), WithStage(s, k, StageOf(s, k).(pending := RemoveFile(StageOf(s, k).pending, Render(data["filename"])))))
      else if t == VStr("chunk") then
        var iv := GetOr(data, "chunk_index", VNull);
        if iv == VNull then Step(Fail(BadRequest), s)
        else if FormatIndex(iv).None? || !data["filename"].VStr? then Step(Fail(ServerError), s)
        else Step(Done(()), s.(chunked := s.chunked.(pending := RejectChunkFile(s.chunked.pending, data["filename"].s, iv.i))))
      else Step(Fail(BadRequest), s)
  }

  /** Rejecting twice is rejecting once. */
  lemma RejectIdempotent(s: Store, data: Meta)
    ensures var s1 := Reject(s, data).store;
      Reject(s1, data) == Step(Reject(s, data).out, s1)
  {
    var r := Reject(s, data);
    if "type" in data && "filename" in data && data["type"] == VStr("chunk") && r.out.Done? {
      var f := data["filename"].s;
      var i := data["chunk_index"].i;
      var d := s.chunked.pending;
      var d1 := RejectChunkFile(d, f, i);
      var d2 := RejectChunkFile(d1, f, i);
      if f in d1.folders {
        assert d1.folders[f] - {i} == d1.folders[f];
      }
      assert d2.folders == d1.folders;
    }
  }

  // ---------------------------------------------------------------------------
  // POST /api/admin/approve-all
  // ---------------------------------------------------------------------------

  /** The stamps of the bulk approval: status and time, but no approver. */
  function BulkStamp(m: Meta, now: string): (r: Meta)
    ensures Holds(r, "status", VStr("approved")) && Holds(r, "approved_at", VStr(now))
    ensures forall k :: k !in {"status", "approved_at"} ==> (k in r <==> k in m)
    ensures forall k :: k in m && k !in {"status", "approved_at"} ==> r[k] == m[k]
  {
    m["status" := VStr("approved")]["approved_at" := VStr(now)]
  }

  /** The texts a bulk approval moves: those with a sidecar. */
  function Movable(d: Dir): (r: set<string>)
    ensures forall f :: f in r <==> f in d.content && f in d.meta
  {
    set f | f in d.content && f in d.meta
  }

  /** Bulk approval of a text stage: every pending text that has a sidecar
      moves, with its sidecar stamped; texts without one stay pending. */
  function ApproveAllTexts(st: Stage, now: string): (r: (Stage, nat))
    ensures r.1 == |Movable(st.pending)|
    ensures r.0.pending.content.Keys == st.pending.content.Keys - Movable(st.pending)
    ensures r.0.pending.meta.Keys == st.pending.meta.Keys - Movable(st.pending)
    ensures forall f :: f in r.0.pending.content ==> r.0.pending.content[f] == st.pending.content[f]
    ensures forall f :: f in r.0.pending.meta ==> r.0.pending.meta[f] == st.pending.meta[f]
    ensures forall f :: f in Movable(st.pending) ==>
      && f in r.0.approved.content && r.0.approved.content[f] == st.pending.content[f]
      && f in r.0.approved.meta && r.0.approved.meta[f] == BulkStamp(st.pending.meta[f], now)
    ensures forall f :: f !in Movable(st.pending) ==>
      && (f in r.0.approved.content <==> f in st.approved.content)
      && (f in st.approved.content ==> r.0.approved.content[f] == st.approved.content[f])
      && (f in r.0.approved.meta <==> f in st.approved.meta)
      && (f in st.approved.meta ==> r.0.approved.meta[f] == st.approved.meta[f])
    ensures r.0.pending.folders == st.pending.folders && r.0.approved.folders == st.approved.folders
  {
    var p := st.pending;
    var moved := Movable(p);
    var a := st.approved;
    var stage := Stage(
      p.(content := p.content - moved, meta := p.meta - moved),
      a.(content := a.content + (map f | f in moved :: p.content[f]),
         meta := a.meta + (map f | f in moved :: BulkStamp(p.meta[f], now))));
    (stage, |moved|)
  }

  /** Bulk approval of the chunks of one file: every chunk moves, stamped,
      into the approved folder (created even for an empty folder), and the
      pending folder goes. Nothing happens when the folder does not exist. */
  function ApproveAllChunks(st: Stage, f: string, now: string): (r: (Stage, nat))
    ensures f !in st.pending.folders ==> r == (st, 0)
    ensures f in st.pending.folders ==>
      && r.1 == |st.pending.folders[f]|
      && r.0.pending.folders == st.pending.folders - {f}
      && f in r.0.approved.folders
      && r.0.approved.folders - {f} == st.approved.folders - {f}
      && (forall i :: i in r.0.approved.folders[f] <==> i in FolderOf(st.approved, f) || i in st.pending.folders[f])
      && (forall i :: i in st.pending.folders[f] ==> r.0.approved.folders[f][i] == BulkStamp(st.pending.folders[f][i], now))
    ensures r.0.pending.content == st.pending.content && r.0.pending.meta == st.pending.meta
    ensures r.0.approved.content == st.approved.content && r.0.approved.meta == st.approved.meta
  {
    if f !in st.pending.folders then (st, 0)
    else
      var folder := st.pending.folders[f];
      var stamped := map i | i in folder :: BulkStamp(folder[i], now);
      var a := st.approved;
      (Stage(st.pending.(folders := st.pending.folders - {f}),
             a.(folders := a.folders[f := FolderOf(a, f) + stamped])),
       |folder|)
  }

  /** `POST /api/admin/approve-all`: 400 when `type` is missing or falsy.
      `raw` and `cleaned` approve every pending text that has a sidecar;
      `chunks` needs a truthy filename (400), which must be a string (500),
      and approves every chunk of that file. Any other type succeeds with
      count 0. */
  function ApproveAll(s: Store, data: Meta, now: string): (r: Step<Outcome<nat>>)
    ensures r.out == Fail(BadRequest) <==>
      MissingOrFalsy(data, "type") || (data["type"] == VStr("chunks") && MissingOrFalsy(data, "filename"))
    ensures r.out == Fail(ServerError) <==>
      && !MissingOrFalsy(data, "type") && data["type"] == VStr("chunks")
      && !MissingOrFalsy(data, "filename") && !data["filename"].VStr?
    ensures r.out.Fail? ==> r.out == Fail(BadRequest) || r.out == Fail(ServerError)
    ensures r.out.Fail? ==> r.store == s
    ensures !MissingOrFalsy(data, "type") && TextKind(data["type"]).Some? ==>
      var k := TextKind(data["type"]).value;
      && r.out == Done(|Movable(StageOf(s, k).pending)|)
      && r.store == WithStage(s, k, ApproveAllTexts(StageOf(s, k), now).0)
    ensures !MissingOrFalsy(data, "type") && data["type"] == VStr("chunks") && !MissingOrFalsy(data, "filename")
            && data["filename"].VStr? ==>
      && r.out == Done(FolderCount(s.chunked.pending, data["filename"].s))
      && r.store == s.(chunked := ApproveAllChunks(s.chunked, data["filename"].s, now).0)
    ensures !MissingOrFalsy(data, "type") && TextKind(data["type"]).None? && data["type"] != VStr("chunks") ==>
      r == Step(Done(0), s)
  {
    if MissingOrFalsy(data, "type") then Step(Fail(BadRequest), s)
    else
      var t := data["type"];
      if TextKind(t).Some? then
        var k := TextKind(t).value;
        var res := ApproveAllTexts(StageOf(s, k), now);
        Step(Done(res.1), WithStage(s, k, res.0))
      else if t == VStr("chunks") then
        if MissingOrFalsy(data, "filename") then Step(Fail(BadRequest), s)
        else if !data["filename"].VStr? then Step(Fail(ServerError), s)
        else
          var res := ApproveAllChunks(s.chunked, data["filename"].s, now);
          Step(Done(res.1), s.(chunked := res.0))
      else Step(Done(0), s)
  }

  /** After a bulk approval of a text stage, a second one finds nothing to
      move: every text left pending lacks a sidecar. */
  lemma ApproveAllTextsTwice(st: Stage, now: string, now': string)
    ensures var st1 := ApproveAllTexts(st, now).0;
      && Movable(st1.pending) == {}
      && ApproveAllTexts(st1, now').1 == 0
  {
    var st1 := ApproveAllTexts(st, now).0;
    forall f | f in st1.pending.content ensures f !in st1.pending.meta {
      assert f !in Movable(st.pending);
    }
    assert Movable(st1.pending) == {};
  }

  /** Bulk approval of a file's chunks: the pending directory loses the
      folder's chunk files, and the approved one gains those whose index it
      did not hold yet (the others replace their namesakes). */
  lemma ApproveAllChunksConserves(st: Stage, f: string, now: string)
    requires f in st.pending.folders
    ensures var st' := ApproveAllChunks(st, f, now).0;
      && ChunkCount(st'.pending) + |st.pending.folders[f]| == ChunkCount(st.pending)
      && ChunkCount(st'.approved)
           == ChunkCount(st.approved) + |st.pending.folders[f].Keys - FolderOf(st.approved, f).Keys|
  {
    var folder := st.pending.folders[f];
    var stamped := map i | i in folder :: BulkStamp(folder[i], now);
    var prev := FolderOf(st.approved, f);
    assert stamped.Keys == folder.Keys;
    assert ApproveAllChunks(st, f, now).0 == Stage(st.pending.(folders := st.pending.folders - {f}),
      st.approved.(folders := st.approved.folders[f := prev + stamped]));
    ChunkCountRemove(st.pending.folders, f);
    MergeSize(prev, stamped);
    ChunkCountUpdate(st.approved.folders, f, prev + stamped);
  }

  // ---------------------------------------------------------------------------
  // Counting
  // ---------------------------------------------------------------------------

  datatype PendingTotals = PendingTotals(raw: nat, cleaned: nat, chunked: nat, total: nat)

  /** The totals of `GET /api/admin/pending`: pending sidecars of the two
      text stages, and chunk files summed over the pending folders in
      listing order. Each folder's chunks are sorted by index first, which
      raises (500) when a folder's keys are neither all ints nor all strings. */
  function PendingTotalsOf(s: Store, folderOrder: seq<string>): (r: Outcome<PendingTotals>)
    requires Enumerates(folderOrder, s.chunked.pending.folders.Keys)
    ensures r.Done? <==> forall f :: f in s.chunked.pending.folders ==> Chunking.FolderSortable(s.chunked.pending.folders[f])
    ensures r.Fail? ==> r.code == ServerError
    ensures r.Done? ==>
      && r.value.raw == |s.raw.pending.meta| && r.value.cleaned == |s.cleaned.pending.meta|
      && r.value.chunked == ChunkCount(s.chunked.pending)
      && r.value.total == r.value.raw + r.value.cleaned + r.value.chunked
  {
    if exists f :: f in s.chunked.pending.folders && !Chunking.FolderSortable(s.chunked.pending.folders[f]) then
      Fail(ServerError)
    else
      SumSizesIsChunkCount(s.chunked.pending.folders, folderOrder);
      var chunked := SumSizes(s.chunked.pending.folders, folderOrder);
      Done(PendingTotals(|s.raw.pending.meta|, |s.cleaned.pending.meta|, chunked,
                         |s.raw.pending.meta| + |s.cleaned.pending.meta| + chunked))
  }

  datatype Counts = Counts(pending: nat, approved: nat)
  datatype Stats = Stats(raw: Counts, cleaned: Counts, chunked: Counts, totals: Counts)

  /** `GET /api/admin/stats`: text files per text directory, chunk files
      summed over the folders of each chunk directory, and the totals. */
  function GetStats(s: Store, pendingFolders: seq<string>, approvedFolders: seq<string>): (r: Stats)
    requires Enumerates(pendingFolders, s.chunked.pending.folders.Keys)
    requires Enumerates(approvedFolders, s.chunked.approved.folders.Keys)
    ensures r.totals.pending == r.raw.pending + r.cleaned.pending + r.chunked.pending
    ensures r.totals.approved == r.raw.approved + r.cleaned.approved + r.chunked.approved
    ensures r.raw == Counts(TextCount(s.raw.pending), TextCount(s.raw.approved))
    ensures r.cleaned == Counts(TextCount(s.cleaned.pending), TextCount(s.cleaned.approved))
    ensures r.chunked == Counts(ChunkCount(s.chunked.pending), ChunkCount(s.chunked.approved))
  {
    SumSizesIsChunkCount(s.chunked.pending.folders, pendingFolders);
    SumSizesIsChunkCount(s.chunked.approved.folders, approvedFolders);
    var raw := Counts(|s.raw.pending.content|, |s.raw.approved.content|);
    var cleaned := Counts(|s.cleaned.pending.content|, |s.cleaned.approved.content|);
    var chunked := Counts(SumSizes(s.chunked.pending.folders, pendingFolders), SumSizes(s.chunked.approved.folders, approvedFolders));
    Stats(raw, cleaned, chunked,
          Counts(raw.pending + cleaned.pending + chunked.pending, raw.approved + cleaned.approved + chunked.approved))
  }

  /** The admin statistics and the storage service's statistics count the
      same things. */
  lemma StatsAgreeWithStorage(s: Store, pendingFolders: seq<string>, approvedFolders: seq<string>)
    requires Enumerates(pendingFolders, s.chunked.pending.folders.Keys)
    requires Enumerates(approvedFolders, s.chunked.approved.folders.Keys)
    ensures var r := GetStats(s, pendingFolders, approvedFolders);
      var t := Storage.GetStats(s);
      && r.raw.pending == t["pending_raw"] && r.raw.approved == t["approved_raw"]
      && r.cleaned.pending == t["pending_cleaned"] && r.cleaned.approved == t["approved_cleaned"]
      && r.chunked.pending == t["pending_chunked"] && r.chunked.approved == t["approved_chunked"]
  {
    Storage.KeyLiterals();
  }

  /** The pending total of the review queue and of the statistics agree
      exactly when as many texts as sidecars are pending: a text without a
      sidecar (left by a failed write) is counted by one and not the other. */
  lemma PendingTotalsAgree(s: Store, pendingFolders: seq<string>, approvedFolders: seq<string>)
    requires Enumerates(pendingFolders, s.chunked.pending.folders.Keys)
    requires Enumerates(approvedFolders, s.chunked.approved.folders.Keys)
    requires s.raw.pending.content.Keys == s.raw.pending.meta.Keys
    requires s.cleaned.pending.content.Keys == s.cleaned.pending.meta.Keys
    ensures var r := PendingTotalsOf(s, pendingFolders);
      r.Done? ==> r.value.total == GetStats(s, pendingFolders, approvedFolders).totals.pending
  {
    assert |s.raw.pending.content| == |s.raw.pending.content.Keys|;
    assert |s.raw.pending.meta| == |s.raw.pending.meta.Keys|;
    assert |s.cleaned.pending.content| == |s.cleaned.pending.content.Keys|;
    assert |s.cleaned.pending.meta| == |s.cleaned.pending.meta.Keys|;
  }

  // ---------------------------------------------------------------------------
  // POST /api/admin/push-to-hf
  // ---------------------------------------------------------------------------

  /** Per stage: files uploaded, files failed, and the names uploaded. */
  datatype Tally = Tally(uploaded: nat, failed: nat, files: seq<string>)

  /** The texts of a listing the hub accepts: a text is attempted in listing
      order and fails when its sidecar is missing or the upload fails. */
  function TextsUploaded(d: Dir, order: seq<string>, upload: (string, string, Meta) -> bool): (r: seq<string>)
    requires forall i :: 0 <= i < |order| ==> order[i] in d.content
    ensures |r| <= |order|
    ensures forall f :: f in r ==> f in order && f in d.meta
    decreases |order|
  {
    if order == [] then []
    else
      var last := order[|order| - 1];
      var init := TextsUploaded(d, order[..|order| - 1], upload);
      if last in d.meta && upload(last, d.content[last], d.meta[last]) then init + [last] else init
  }

  /** When every listed text has a sidecar and the hub accepts every
      upload, every listed text is reported as uploaded, in listing order. */
  lemma {:induction false} TextsUploadedAll(d: Dir, order: seq<string>, upload: (string, string, Meta) -> bool)
    requires forall i :: 0 <= i < |order| ==> order[i] in d.content && order[i] in d.meta
    requires forall i :: 0 <= i < |order| ==> upload(order[i], d.content[order[i]], d.meta[order[i]])
    ensures TextsUploaded(d, order, upload) == order
    decreases |order|
  {
    if order != [] {
      var init := order[..|order| - 1];
      TextsUploadedAll(d, init, upload);
      assert init + [order[|order| - 1]] == order;
    }
  }

  /** Uploads the texts of a directory one by one, counting each attempt
      as uploaded or failed. */
  method PushTexts(d: Dir, order: seq<string>, upload: (string, string, Meta) -> bool) returns (t: Tally)
    requires Enumerates(order, d.content.Keys)
    ensures t.uploaded + t.failed == |d.content|
    ensures t.files == TextsUploaded(d, order, upload)
    ensures t.uploaded == |t.files|
  {
    EnumeratedLength(order, d.content.Keys);
    t := Tally(0, 0, []);
    var i := 0;
    while i < |order|
      invariant 0 <= i <= |order|
      invariant t.uploaded + t.failed == i
      invariant t.files == TextsUploaded(d, order[..i], upload)
      invariant t.uploaded == |t.files|
    {
      var f := order[i];
      assert order[..i + 1][..i] == order[..i];
      if f in d.meta && upload(f, d.content[f], d.meta[f]) {
        t := t.(uploaded := t.uploaded + 1, files := t.files + [f]);
      } else {
        t := t.(failed := t.failed + 1);
      }
      i := i + 1;
    }
    assert order[..|order|] == order;
  }

  /** The path an uploaded chunk is reported under: `{folder}/chunk_{i:02d}.json`. */
  function ChunkPath(folder: string, index: int): string {
    folder + "/chunk_" + Pad2(index) + ".json"
  }

  /** A reported path is the folder name, a slash, and a file name whose
      padded part reads back as the chunk index. */
  lemma ChunkPathParts(folder: string, index: int)
    ensures var r := ChunkPath(folder, index);
      && |r| == |folder| + |Pad2(index)| + 12
      && r[..|folder| + 1] == folder + "/"
      && ParsePad(r[|folder| + 7..|r| - 5]) == index
  {
    var r := ChunkPath(folder, index);
    assert r[|folder| + 7..|r| - 5] == Pad2(index);
    Pad2RoundTrip(index);
  }

  /** Within a folder, different chunks are reported under different paths. */
  lemma ChunkPathInjective(folder: string, i: int, j: int)
    requires i != j
    ensures ChunkPath(folder, i) != ChunkPath(folder, j)
  {
    ChunkPathParts(folder, i);
    ChunkPathParts(folder, j);
  }

  /** The chunks of one folder the hub accepts, reported by path in
      listing order. */
  function FolderUploaded(f: string, folder: Folder, order: seq<int>, upload: (string, int, Meta) -> bool): (r: seq<string>)
    requires forall j :: 0 <= j < |order| ==> order[j] in folder
    ensures |r| <= |order|
    ensures forall p :: p in r ==> exists j :: 0 <= j < |order| && p == ChunkPath(f, order[j]) && upload(f, order[j], folder[order[j]])
    decreases |order|
  {
    if order == [] then []
    else
      var last := order[|order| - 1];
      var init := FolderUploaded(f, folder, order[..|order| - 1], upload);
      if upload(f, last, folder[last]) then init + [ChunkPath(f, last)] else init
  }

  /** Every folder of the listing is in the directory, with a listing of
      its own naming only its chunk files. */
  predicate ChunkListing(d: Dir, folderOrder: seq<string>, chunkOrders: map<string, seq<int>>) {
    forall i :: 0 <= i < |folderOrder| ==>
      && folderOrder[i] in d.folders && folderOrder[i] in chunkOrders
      && (forall j :: 0 <= j < |chunkOrders[folderOrder[i]]| ==> chunkOrders[folderOrder[i]][j] in d.folders[folderOrder[i]])
  }

  lemma ListingPrefix(d: Dir, folderOrder: seq<string>, chunkOrders: map<string, seq<int>>, n: int)
    requires ChunkListing(d, folderOrder, chunkOrders) && 0 <= n <= |folderOrder|
    ensures ChunkListing(d, folderOrder[..n], chunkOrders)
  {
    forall i | 0 <= i < n ensures folderOrder[..n][i] == folderOrder[i] {
    }
  }

  /** The chunks of a directory the hub accepts, folder by folder in
      listing order. */
  function ChunksUploaded(d: Dir, folderOrder: seq<string>, chunkOrders: map<string, seq<int>>,
                          upload: (string, int, Meta) -> bool): (r: seq<string>)
    requires ChunkListing(d, folderOrder, chunkOrders)
    ensures |r| <= |AllPaths(folderOrder, chunkOrders)|
    decreases |folderOrder|
  {
    if folderOrder == [] then []
    else
      var n := |folderOrder| - 1;
      var f := folderOrder[n];
      ListingPrefix(d, folderOrder, chunkOrders, n);
      ChunksUploaded(d, folderOrder[..n], chunkOrders, upload) + FolderUploaded(f, d.folders[f], chunkOrders[f], upload)
  }

  /** Only chunks the hub accepted are reported. */
  lemma {:induction false} ChunksUploadedSound(d: Dir, folderOrder: seq<string>, chunkOrders: map<string, seq<int>>,
                                               upload: (string, int, Meta) -> bool)
    requires ChunkListing(d, folderOrder, chunkOrders)
    ensures forall p :: p in ChunksUploaded(d, folderOrder, chunkOrders, upload) ==>
      exists f, i :: f in d.folders && i in d.folders[f] && p == ChunkPath(f, i) && upload(f, i, d.folders[f][i])
    decreases |folderOrder|
  {
    if folderOrder != [] {
      var n := |folderOrder| - 1;
      var f := folderOrder[n];
      ListingPrefix(d, folderOrder, chunkOrders, n);
      ChunksUploadedSound(d, folderOrder[..n], chunkOrders, upload);
      var init := ChunksUploaded(d, folderOrder[..n], chunkOrders, upload);
      var last := FolderUploaded(f, d.folders[f], chunkOrders[f], upload);
      assert ChunksUploaded(d, folderOrder, chunkOrders, upload) == init + last;
      forall p | p in last
        ensures exists g, i :: g in d.folders && i in d.folders[g] && p == ChunkPath(g, i) && upload(g, i, d.folders[g][i])
      {
        var j :| 0 <= j < |chunkOrders[f]| && p == ChunkPath(f, chunkOrders[f][j]) && upload(f, chunkOrders[f][j], d.folders[f][chunkOrders[f][j]]);
        assert chunkOrders[f][j] in d.folders[f];
      }
    }
  }

  /** Listing one more folder appends the chunks of it the hub accepts. */
  lemma ChunksUploadedStep(d: Dir, folderOrder: seq<string>, chunkOrders: map<string, seq<int>>,
                           upload: (string, int, Meta) -> bool, i: int)
    requires ChunkListing(d, folderOrder, chunkOrders) && 0 <= i < |folderOrder|
    ensures ChunkListing(d, folderOrder[..i], chunkOrders) && ChunkListing(d, folderOrder[..i + 1], chunkOrders)
    ensures var f := folderOrder[i];
      ChunksUploaded(d, folderOrder[..i + 1], chunkOrders, upload)
        == ChunksUploaded(d, folderOrder[..i], chunkOrders, upload) + FolderUploaded(f, d.folders[f], chunkOrders[f], upload)
  {
    ListingPrefix(d, folderOrder, chunkOrders, i);
    ListingPrefix(d, folderOrder, chunkOrders, i + 1);
    assert folderOrder[..i + 1][..i] == folderOrder[..i];
  }

  /** The paths of a folder's chunks, in listing order. */
  function Paths(f: string, order: seq<int>): (r: seq<string>)
    ensures |r| == |order|
    decreases |order|
  {
    if order == [] then []
    else Paths(f, order[..|order| - 1]) + [ChunkPath(f, order[|order| - 1])]
  }

  /** Position `j` of a folder's paths is the path of its `j`-th listed chunk. */
  lemma {:induction false} PathsAt(f: string, order: seq<int>)
    ensures forall j :: 0 <= j < |order| ==> Paths(f, order)[j] == ChunkPath(f, order[j])
    decreases |order|
  {
    if order != [] {
      var init := order[..|order| - 1];
      var head := Paths(f, init);
      PathsAt(f, init);
      assert Paths(f, order) == head + [ChunkPath(f, order[|order| - 1])];
      forall j | 0 <= j < |order| ensures Paths(f, order)[j] == ChunkPath(f, order[j]) {
        if j < |init| {
          assert Paths(f, order)[j] == head[j] && init[j] == order[j];
        }
      }
    }
  }

  /** The paths of every listed chunk, folder by folder: what a push reports
      when the hub accepts everything. */
  function AllPaths(folderOrder: seq<string>, chunkOrders: map<string, seq<int>>): seq<string>
    requires forall i :: 0 <= i < |folderOrder| ==> folderOrder[i] in chunkOrders
    decreases |folderOrder|
  {
    if folderOrder == [] then []
    else
      var n := |folderOrder| - 1;
      AllPaths(folderOrder[..n], chunkOrders) + Paths(folderOrder[n], chunkOrders[folderOrder[n]])
  }

  /** When the hub accepts every upload, every listed chunk of a folder is
      reported, in listing order. */
  lemma {:induction false} FolderUploadedAll(f: string, folder: Folder, order: seq<int>, upload: (string, int, Meta) -> bool)
    requires forall j :: 0 <= j < |order| ==> order[j] in folder
    requires forall i :: i in folder ==> upload(f, i, folder[i])
    ensures FolderUploaded(f, folder, order, upload) == Paths(f, order)
    decreases |order|
  {
    if order != [] {
      var init := order[..|order| - 1];
      FolderUploadedAll(f, folder, init, upload);
      assert order[|order| - 1] in folder;
    }
  }

  /** When the hub accepts every upload, every listed chunk is reported, in
      listing order. */
  lemma {:induction false} ChunksUploadedAll(d: Dir, folderOrder: seq<string>, chunkOrders: map<string, seq<int>>,
                                             upload: (string, int, Meta) -> bool)
    requires ChunkListing(d, folderOrder, chunkOrders)
    requires forall f, i :: f in d.folders && i in d.folders[f] ==> upload(f, i, d.folders[f][i])
    ensures ChunksUploaded(d, folderOrder, chunkOrders, upload) == AllPaths(folderOrder, chunkOrders)
    decreases |folderOrder|
  {
    if folderOrder != [] {
      var n := |folderOrder| - 1;
      var f := folderOrder[n];
      ListingPrefix(d, folderOrder, chunkOrders, n);
      ChunksUploadedAll(d, folderOrder[..n], chunkOrders, upload);
      FolderUploadedAll(f, d.folders[f], chunkOrders[f], upload);
    }
  }

  /** Listings that enumerate every folder and every chunk name each chunk
      file once. */
  lemma {:induction false} AllPathsCount(d: Dir, folderOrder: seq<string>, chunkOrders: map<string, seq<int>>)
    requires forall i :: 0 <= i < |folderOrder| ==> folderOrder[i] in d.folders && folderOrder[i] in chunkOrders
    requires forall f :: f in d.folders && f in chunkOrders ==> Enumerates(chunkOrders[f], d.folders[f].Keys)
    ensures |AllPaths(folderOrder, chunkOrders)| == SumSizes(d.folders, folderOrder)
    decreases |folderOrder|
  {
    if folderOrder != [] {
      var n := |folderOrder| - 1;
      AllPathsCount(d, folderOrder[..n], chunkOrders);
      EnumeratedLength(chunkOrders[folderOrder[n]], d.folders[folderOrder[n]].Keys);
    }
  }

  /** When the hub accepts every upload, the report names one path per
      approved chunk file: the path of each listed chunk, in listing order. */
  lemma ChunksUploadedEvery(d: Dir, folderOrder: seq<string>, chunkOrders: map<string, seq<int>>,
                            upload: (string, int, Meta) -> bool)
    requires Enumerates(folderOrder, d.folders.Keys)
    requires forall f :: f in d.folders ==> f in chunkOrders && Enumerates(chunkOrders[f], d.folders[f].Keys)
    requires forall f, i :: f in d.folders && i in d.folders[f] ==> upload(f, i, d.folders[f][i])
    ensures ChunkListing(d, folderOrder, chunkOrders)
    ensures var r := ChunksUploaded(d, folderOrder, chunkOrders, upload);
      && r == AllPaths(folderOrder, chunkOrders)
      && |r| == ChunkCount(d)
  {
    ChunkListingOf(d, folderOrder, chunkOrders);
    ChunksUploadedAll(d, folderOrder, chunkOrders, upload);
    AllPathsCount(d, folderOrder, chunkOrders);
    SumSizesIsChunkCount(d.folders, folderOrder);
  }

  /** Listings of every folder and chunk are a chunk listing. */
  lemma ChunkListingOf(d: Dir, folderOrder: seq<string>, chunkOrders: map<string, seq<int>>)
    requires Enumerates(folderOrder, d.folders.Keys)
    requires forall f :: f in d.folders ==> f in chunkOrders && Enumerates(chunkOrders[f], d.folders[f].Keys)
    ensures ChunkListing(d, folderOrder, chunkOrders)
  {
    forall i | 0 <= i < |folderOrder| ensures folderOrder[i] in d.folders {
      assert folderOrder[i] in folderOrder;
    }
  }

  /** Uploads the chunks of one folder one by one, counting each attempt
      as uploaded or failed. */
  method PushFolder(f: string, folder: Folder, order: seq<int>, upload: (string, int, Meta) -> bool) returns (t: Tally)
    requires forall j :: 0 <= j < |order| ==> order[j] in folder
    ensures t.uploaded + t.failed == |order|
    ensures t.files == FolderUploaded(f, folder, order, upload)
    ensures t.uploaded == |t.files|
  {
    t := Tally(0, 0, []);
    var j := 0;
    while j < |order|
      invariant 0 <= j <= |order|
      invariant t.uploaded + t.failed == j
      invariant t.files == FolderUploaded(f, folder, order[..j], upload)
      invariant t.uploaded == |t.files|
    {
      var index := order[j];
      assert order[..j + 1][..j] == order[..j];
      if upload(f, index, folder[index]) {
        t := t.(uploaded := t.uploaded + 1, files := t.files + [ChunkPath(f, index)]);
      } else {
        t := t.(failed := t.failed + 1);
      }
      j := j + 1;
    }
    assert order[..|order|] == order;
  }

  /** Uploads every chunk of a directory, folder by folder, counting each
      attempt as uploaded or failed. */
  method PushChunks(d: Dir, folderOrder: seq<string>, chunkOrders: map<string, seq<int>>,
                    upload: (string, int, Meta) -> bool) returns (t: Tally)
    requires Enumerates(folderOrder, d.folders.Keys)
    requires forall f :: f in d.folders ==> f in chunkOrders && Enumerates(chunkOrders[f], d.folders[f].Keys)
    ensures t.uploaded + t.failed == ChunkCount(d)
    ensures ChunkListing(d, folderOrder, chunkOrders) && t.files == ChunksUploaded(d, folderOrder, chunkOrders, upload)
    ensures t.uploaded == |t.files|
  {
    SumSizesIsChunkCount(d.folders, folderOrder);
    ChunkListingOf(d, folderOrder, chunkOrders);
    ListingPrefix(d, folderOrder, chunkOrders, 0);
    t := Tally(0, 0, []);
    var i := 0;
    while i < |folderOrder|
      invariant 0 <= i <= |folderOrder|
      invariant t.uploaded + t.failed == SumSizes(d.folders, folderOrder[..i])
      invariant ChunkListing(d, folderOrder[..i], chunkOrders)
      invariant t.files == ChunksUploaded(d, folderOrder[..i], chunkOrders, upload)
      invariant t.uploaded == |t.files|
    {
      var f := folderOrder[i];
      EnumeratedLength(chunkOrders[f], d.folders[f].Keys);
      var one := PushFolder(f, d.folders[f], chunkOrders[f], upload);
      t := Tally(t.uploaded + one.uploaded, t.failed + one.failed, t.files + one.files);
      SumSizesStep(d.folders, folderOrder, i);
      ChunksUploadedStep(d, folderOrder, chunkOrders, upload, i);
      i := i + 1;
    }
    assert folderOrder[..|folderOrder|] == folderOrder;
  }

  datatype PushResults = PushResults(raw: Tally, cleaned: Tally, chunked: Tally, uploaded: nat, failed: nat)

  /** The listings the push walks: `os.listdir` orders of the approved directories. */
  datatype Listings = Listings(raw: seq<string>, cleaned: seq<string>, folders: seq<string>, chunks: map<string, seq<int>>)

  predicate ListsApproved(s: Store, l: Listings) {
    && Enumerates(l.raw, s.raw.approved.content.Keys)
    && Enumerates(l.cleaned, s.cleaned.approved.content.Keys)
    && Enumerates(l.folders, s.chunked.approved.folders.Keys)
    && (forall f :: f in s.chunked.approved.folders ==>
          f in l.chunks && Enumerates(l.chunks[f], s.chunked.approved.folders[f].Keys))
  }

  /** Whether a push of type `t` covers a stage: its own name, or `all`. */
  predicate Covers(t: Value, stage: string) {
    t == VStr(stage) || t == VStr("all")
  }

  /** `POST /api/admin/push-to-hf`: 400 without a type, without a token (in
      the request or the environment), or when the hub client reports
      itself unconfigured. Each approved file of each covered stage is
      attempted once and counted as uploaded or failed. */
  method Push(s: Store, data: Meta, envToken: Value, configured: bool, l: Listings,
              uploadRaw: (string, string, Meta) -> bool, uploadCleaned: (string, string, Meta) -> bool,
              uploadChunk: (string, int, Meta) -> bool) returns (r: Outcome<PushResults>)
    requires ListsApproved(s, l)
    ensures r.Fail? <==> "type" !in data || (MissingOrFalsy(data, "hf_token") && Falsy(envToken)) || !configured
    ensures r.Fail? ==> r.code == BadRequest
    ensures r.Done? ==>
      && r.value.uploaded + r.value.failed ==
           (if Covers(data["type"], "raw") then TextCount(s.raw.approved) else 0)
         + (if Covers(data["type"], "cleaned") then TextCount(s.cleaned.approved) else 0)
         + (if Covers(data["type"], "chunked") then ChunkCount(s.chunked.approved) else 0)
      && r.value.uploaded == |r.value.raw.files| + |r.value.cleaned.files| + |r.value.chunked.files|
      && r.value.raw.files == (if Covers(data["type"], "raw") then TextsUploaded(s.raw.approved, l.raw, uploadRaw) else [])
      && r.value.cleaned.files == (if Covers(data["type"], "cleaned") then TextsUploaded(s.cleaned.approved, l.cleaned, uploadCleaned) else [])
      && ChunkListing(s.chunked.approved, l.folders, l.chunks)
      && r.value.chunked.files ==
           (if Covers(data["type"], "chunked") then ChunksUploaded(s.chunked.approved, l.folders, l.chunks, uploadChunk) else [])
  {
    if "type" !in data {
      return Fail(BadRequest);
    }
    if MissingOrFalsy(data, "hf_token") && Falsy(envToken) {
      return Fail(BadRequest);
    }
    if !configured {
      return Fail(BadRequest);
    }
    ChunkListingOf(s.chunked.approved, l.folders, l.chunks);
    var t := data["type"];
    var raw := Tally(0, 0, []);
    var cleaned := Tally(0, 0, []);
    var chunked := Tally(0, 0, []);
    if Covers(t, "raw") {
      raw := PushTexts(s.raw.approved, l.raw, uploadRaw);
    }
    if Covers(t, "cleaned") {
      cleaned := PushTexts(s.cleaned.approved, l.cleaned, uploadCleaned);
    }
    if Covers(t, "chunked") {
      chunked := PushChunks(s.chunked.approved, l.folders, l.chunks, uploadChunk);
    }
    r := Done(PushResults(raw, cleaned, chunked, raw.uploaded + cleaned.uploaded + chunked.uploaded,
                          raw.failed + cleaned.failed + chunked.failed));
  }
}

=== FILE: chunking.dfy ===
/** The chunking routes: chunkers see the approved cleaned texts, submit
    chunks of one of them (singly or in a batch) into the pending chunk
    folder named after it, read a file's chunks back, and delete a pending
    chunk. A new chunk's index is the number of chunk files the file already
    has, pending and approved together, plus one. The clock is a parameter. */
module Chunking {
  import opened Json
  import opened Text
  import opened Http
  import opened Store
  import opened Sorting
  import Schemas

  // ---------------------------------------------------------------------------
  // Chunk ids and chunk files
  // ---------------------------------------------------------------------------

  /** `generate_chunk_id`: `{language}_{category[:3]}_{file[:10]}_{index:02d}`,
      where the file part has its underscores removed before it is cut. The
      index can always be read back from the last `_`-separated part. */
  function GenerateChunkId(language: Value, category: string, filename: string, index: int): (id: string)
    ensures ParsePad(LastComponent(id)) == index
  {
    var catShort := if |category| > 3 then category[..3] else category;
    var fileShort := Take(RemoveChar(filename, '_'), 10);
    LastComponentAfter(Render(language) + "_" + catShort + "_" + fileShort, Pad2(index));
    Pad2RoundTrip(index);
    Render(language) + "_" + catShort + "_" + fileShort + "_" + Pad2(index)
  }

  /** The route's id is the schema's id of the same parts. */
  lemma GenerateChunkIdAgrees(language: Value, category: string, filename: string, index: int)
    ensures GenerateChunkId(language, category, filename, index)
         == Schemas.ChunkId(Render(language), category, filename, index)
  {
  }

  /** The parts of a chunk submission the chunk file records. */
  datatype ChunkRequest = ChunkRequest(text: Value, category: string, source: Value, overlap: Value)

  /** The keys of a chunk file as the chunking routes write it. */
  const ChunkFileKeys: set<string> := {
    "chunk_id", "text", "language", "category", "source", "chunk_index", "source_file",
    "overlap_reference", "created_at", "created_by", "text_length"
  }

  /** The chunk file written for chunk `index` of `filename`. */
  function ChunkRecord(req: ChunkRequest, language: Value, filename: string, index: int, now: string): Meta
    requires Len(req.text).Some?
  {
    map[
      "chunk_id" := VStr(GenerateChunkId(language, req.category, filename, index)),
      "text" := req.text,
      "language" := language,
      "category" := VStr(req.category),
      "source" := req.source,
      "chunk_index" := VInt(index),
      "source_file" := VStr(filename),
      "overlap_reference" := req.overlap,
      "created_at" := VStr(now),
      "created_by" := VStr("chunker"),
      "text_length" := VInt(Len(req.text).value)
    ]
  }

  /** The chunk file has exactly its eleven keys. */
  lemma ChunkRecordKeys(req: ChunkRequest, language: Value, filename: string, index: int, now: string)
    requires Len(req.text).Some?
    ensures ChunkRecord(req, language, filename, index, now).Keys == ChunkFileKeys
  {
  }

  /** The chunk file records its own index. */
  lemma ChunkRecordIndex(req: ChunkRequest, language: Value, filename: string, index: int, now: string)
    requires Len(req.text).Some?
    ensures Holds(ChunkRecord(req, language, filename, index, now), "chunk_index", VInt(index))
  {
  }

  /** With string parts, the chunk file is the schema's dictionary view of
      the same chunk, less the status and approval fields: the same keys,
      the same values. */
  lemma ChunkRecordMatchesSchema(c: Schemas.ChunkData)
    requires c.chunkId == Schemas.ChunkId(c.language, c.category, c.sourceFile, c.chunkIndex)
    requires c.textLength == |c.text| && c.createdBy == "chunker"
    ensures var m := SchemaRecord(c);
      && m.Keys == Schemas.ChunkToDict(c).Keys - {"status", "approved_at", "approved_by"}
      && (forall k :: k in m ==> m[k] == Schemas.ChunkToDict(c)[k])
  {
    var m := SchemaRecord(c);
    var d := Schemas.ChunkToDict(c);
    ChunkRecordKeys(ChunkRequest(VStr(c.text), c.category, VStr(c.source), VStr(c.overlapReference)),
                    VStr(c.language), c.sourceFile, c.chunkIndex, c.createdAt);
    Schemas.ChunkToDictKeys(c);
    ChunkFileKeysInSchema();
    IdMatches(c);
    ValuesMatchText(c);
    ValuesMatchLabels(c);
    ValuesMatchOrigin(c);
    ValuesMatchCreation(c);
    AgreeOnChunkFileKeys(m, d);
  }

  /** Two dictionaries agree on every key of a chunk file once they agree on
      each of the eleven. */
  lemma AgreeOnChunkFileKeys(m: Meta, d: Meta)
    requires m.Keys == ChunkFileKeys && ChunkFileKeys <= d.Keys
    requires m["chunk_id"] == d["chunk_id"] && m["text"] == d["text"] && m["language"] == d["language"]
    requires m["category"] == d["category"] && m["source"] == d["source"] && m["chunk_index"] == d["chunk_index"]
    requires m["source_file"] == d["source_file"] && m["overlap_reference"] == d["overlap_reference"]
    requires m["created_at"] == d["created_at"] && m["created_by"] == d["created_by"]
    requires m["text_length"] == d["text_length"]
    ensures forall k :: k in m ==> m[k] == d[k]
  {
  }

  /** The chunk file's keys are the schema's fields less status and approval. */
  lemma ChunkFileKeysInSchema()
    ensures ChunkFileKeys == Schemas.ChunkFields - {"status", "approved_at", "approved_by"}
  {
  }

  /** The chunk file the routes write for the parts of a schema record. */
  function SchemaRecord(c: Schemas.ChunkData): Meta {
    ChunkRecord(ChunkRequest(VStr(c.text), c.category, VStr(c.source), VStr(c.overlapReference)),
                VStr(c.language), c.sourceFile, c.chunkIndex, c.createdAt)
  }

  lemma IdMatches(c: Schemas.ChunkData)
    requires c.chunkId == Schemas.ChunkId(c.language, c.category, c.sourceFile, c.chunkIndex)
    ensures SchemaRecord(c)["chunk_id"] == Schemas.ChunkToDict(c)["chunk_id"]
  {
    GenerateChunkIdAgrees(VStr(c.language), c.category, c.sourceFile, c.chunkIndex);
  }

  lemma ValuesMatchText(c: Schemas.ChunkData)
    requires c.textLength == |c.text|
    ensures var m := SchemaRecord(c); var d := Schemas.ChunkToDict(c);
      m["text"] == d["text"] && m["text_length"] == d["text_length"]
  {
  }

  lemma ValuesMatchLabels(c: Schemas.ChunkData)
    ensures var m := SchemaRecord(c); var d := Schemas.ChunkToDict(c);
      m["language"] == d["language"] && m["category"] == d["category"]
  {
  }

  lemma ValuesMatchOrigin(c: Schemas.ChunkData)
    ensures var m := SchemaRecord(c); var d := Schemas.ChunkToDict(c);
      && m["source"] == d["source"] && m["chunk_index"] == d["chunk_index"] && m["source_file"] == d["source_file"]
  {
  }

  lemma ValuesMatchCreation(c: Schemas.ChunkData)
    requires c.createdBy == "chunker"
    ensures var m := SchemaRecord(c); var d := Schemas.ChunkToDict(c);
      && m["overlap_reference"] == d["overlap_reference"] && m["created_at"] == d["created_at"]
      && m["created_by"] == d["created_by"]
  {
  }

  // ---------------------------------------------------------------------------
  // The index rule
  // ---------------------------------------------------------------------------

  /** The language recorded for a cleaned file (`ta` by default): read
      from the approved cleaned sidecar when there is one. */
  function LanguageOf(s: Store, name: string): (r: Value)
    ensures name in s.cleaned.approved.meta && "language" in s.cleaned.approved.meta[name] ==>
      r == s.cleaned.approved.meta[name]["language"]
    ensures name !in s.cleaned.approved.meta || "language" !in s.cleaned.approved.meta[name] ==> r == VStr("ta")
  {
    if name in s.cleaned.approved.meta then GetOr(s.cleaned.approved.meta[name], "language", VStr("ta")) else VStr("ta")
  }

  /** The indices of the chunk files of `f`, pending and approved. */
  function UsedIndices(s: Store, f: string): set<int> {
    FolderOf(s.chunked.pending, f).Keys + FolderOf(s.chunked.approved, f).Keys
  }

  /** The index the routes give the next chunk of `f`: the number of its
      chunk files plus one. */
  function NextIndex(s: Store, f: string): (n: int)
    ensures n == |FolderOf(s.chunked.pending, f)| + |FolderOf(s.chunked.approved, f)| + 1
  {
    FolderCount(s.chunked.pending, f) + FolderCount(s.chunked.approved, f) + 1
  }

  /** The indices 1..n. */
  function Upto(n: int): (r: set<int>)
    ensures forall k :: k in r <==> 1 <= k <= n
    decreases n
  {
    if n <= 0 then {} else Upto(n - 1) + {n}
  }

  /** The state the index rule presumes: the chunks of `f` are numbered
      1..n without gaps, and no index is both pending and approved. */
  predicate Contiguous(s: Store, f: string) {
    && FolderOf(s.chunked.pending, f).Keys !! FolderOf(s.chunked.approved, f).Keys
    && UsedIndices(s, f) == Upto(NextIndex(s, f) - 1)
  }

  /** On a contiguous state the counted index is not in use. */
  lemma NextIndexFresh(s: Store, f: string)
    requires Contiguous(s, f)
    ensures NextIndex(s, f) !in UsedIndices(s, f)
  {
  }

  /** The first index at or after `from` that is not in use. */
  function FirstFree(used: set<int>, from: int): (r: int)
    ensures r >= from && r !in used
    ensures forall k :: from <= k < r ==> k in used
    decreases used
  {
    if from !in used then from
    else FirstFree(used - {from}, from + 1)
  }

  /** The corrected index: the counted index, moved past any index in use. */
  function FreshIndex(s: Store, f: string): (n: int)
    ensures n !in UsedIndices(s, f)
    ensures n >= NextIndex(s, f)
  {
    FirstFree(UsedIndices(s, f), NextIndex(s, f))
  }

  /** Where the counted index is right, the corrected one agrees with it. */
  lemma FreshIndexAgrees(s: Store, f: string)
    requires Contiguous(s, f)
    ensures FreshIndex(s, f) == NextIndex(s, f)
  {
    NextIndexFresh(s, f);
  }

  /** How a submission picks its index: as the routes do, or corrected. */
  datatype IndexRule = Counted | Corrected

  function IndexFor(rule: IndexRule, s: Store, f: string): int {
    if rule == Counted then NextIndex(s, f) else FreshIndex(s, f)
  }

  // ---------------------------------------------------------------------------
  // Single submission
  // ---------------------------------------------------------------------------

  /** What a successful chunk submission reports. */
  datatype ChunkCreated = ChunkCreated(chunkId: string, chunkIndex: int, filename: string)

  predicate HasRequired(data: Meta) {
    && !MissingOrFalsy(data, "filename")
    && !MissingOrFalsy(data, "text")
    && !MissingOrFalsy(data, "category")
  }

  /** When a chunk submission is accepted: the three fields are present and
      truthy, the filename is a string whose stripped form names an approved
      cleaned text, the category is a string and the text has a length. */
  predicate Accepts(s: Store, data: Meta) {
    && HasRequired(data)
    && data["filename"].VStr?
    && Strip(data["filename"].s) in s.cleaned.approved.content
    && data["category"].VStr?
    && Len(data["text"]).Some?
  }

  function RequestOf(data: Meta): ChunkRequest
    requires "text" in data && "category" in data && data["category"].VStr?
  {
    ChunkRequest(data["text"], data["category"].s, GetOr(data, "source", VStr("unknown")),
                 GetOr(data, "overlap_reference", VStr("")))
  }

  /** `POST /api/chunking/submit`, with the index picked by `rule`. Checks,
      in order: the three required fields (400), a string filename (500), an
      approved cleaned text of the stripped name (404), a string category and
      a text with a length (500). Only then is the chunk folder created and
      the chunk file written, replacing any file of that index. */
  function SubmitWith(rule: IndexRule, s: Store, data: Meta, now: string): (r: Step<Outcome<ChunkCreated>>)
    ensures r.out.Done? <==> Accepts(s, data)
    ensures r.out.Fail? ==> r.store == s
    ensures !HasRequired(data) ==> r.out == Fail(BadRequest)
    ensures HasRequired(data) && data["filename"].VStr? && Strip(data["filename"].s) !in s.cleaned.approved.content ==>
      r.out == Fail(NotFound)
    ensures r.out.Fail? ==> r.out == Fail(BadRequest) || r.out == Fail(NotFound) || r.out == Fail(ServerError)
    ensures r.out == Fail(ServerError) <==>
      && HasRequired(data)
      && (|| !data["filename"].VStr?
          || (&& Strip(data["filename"].s) in s.cleaned.approved.content
              && (!data["category"].VStr? || Len(data["text"]).None?)))
    ensures r.out.Done? ==>
      var name := Strip(data["filename"].s);
      var index := IndexFor(rule, s, name);
      var language := LanguageOf(s, name);
      && r.out.value == ChunkCreated(GenerateChunkId(language, data["category"].s, name, index), index, name)
      && r.store == s.(chunked := s.chunked.(pending :=
           PutChunk(s.chunked.pending, name, index, ChunkRecord(RequestOf(data), language, name, index, now))))
  {
    if !HasRequired(data) then Step(Fail(BadRequest), s)
    else if !data["filename"].VStr? then Step(Fail(ServerError), s)
    else
      var name := Strip(data["filename"].s);
      if name !in s.cleaned.approved.content then Step(Fail(NotFound), s)
      else
        var language := LanguageOf(s, name);
        var index := IndexFor(rule, s, name);
        if !data["category"].VStr? || Len(data["text"]).None? then Step(Fail(ServerError), s)
        else
          var req := RequestOf(data);
          var chunk := ChunkRecord(req, language, name, index, now);
          Step(Done(ChunkCreated(GenerateChunkId(language, req.category, name, index), index, name)),
               s.(chunked := s.chunked.(pending := PutChunk(s.chunked.pending, name, index, chunk))))
  }

  /** `POST /api/chunking/submit` as the source writes it. */
  function Submit(s: Store, data: Meta, now: string): (r: Step<Outcome<ChunkCreated>>)
    ensures r.out.Done? <==> Accepts(s, data)
    ensures r.out.Fail? ==> r.store == s
    ensures r.out.Done? ==>
      var name := Strip(data["filename"].s);
      && r.out.value.chunkIndex == |FolderOf(s.chunked.pending, name)| + |FolderOf(s.chunked.approved, name)| + 1
      && r.out.value.filename == name
      && ParsePad(LastComponent(r.out.value.chunkId)) == r.out.value.chunkIndex
      && name in r.store.chunked.pending.folders
      && r.store.chunked.pending.folders[name] ==
           FolderOf(s.chunked.pending, name)[r.out.value.chunkIndex :=
             ChunkRecord(RequestOf(data), LanguageOf(s, name), name, r.out.value.chunkIndex, now)]
      && r.store.chunked.pending.folders - {name} == s.chunked.pending.folders - {name}
      && r.store.chunked.approved == s.chunked.approved && r.store.raw == s.raw && r.store.cleaned == s.cleaned
  {
    var r := SubmitWith(Counted, s, data, now);
    if r.out.Done? then
      var name := Strip(data["filename"].s);
      var index := NextIndex(s, name);
      var chunk := ChunkRecord(RequestOf(data), LanguageOf(s, name), name, index, now);
      UpdateThenRemove(s.chunked.pending.folders, name, FolderOf(s.chunked.pending, name)[index := chunk]);
      r
    else r
  }

  /** Writing the chunk with the counted index keeps a contiguous file
      contiguous, one index longer. */
  lemma PutNextKeepsContiguous(s: Store, f: string, chunk: Meta)
    requires Contiguous(s, f)
    ensures var n := NextIndex(s, f);
      var s' := s.(chunked := s.chunked.(pending := PutChunk(s.chunked.pending, f, n, chunk)));
      && Contiguous(s', f)
      && UsedIndices(s', f) == UsedIndices(s, f) + {n}
  {
    var n := NextIndex(s, f);
    var s' := s.(chunked := s.chunked.(pending := PutChunk(s.chunked.pending, f, n, chunk)));
    var p := FolderOf(s.chunked.pending, f);
    var a := FolderOf(s.chunked.approved, f);
    assert FolderOf(s'.chunked.pending, f) == p[n := chunk];
    assert FolderOf(s'.chunked.approved, f) == a;
    AddNext(p, a, n, chunk);
    assert NextIndex(s', f) == n + 1;
  }

  /** Adding the next index to folders split over 1..n-1 splits 1..n. */
  lemma AddNext(p: Folder, a: Folder, n: int, chunk: Meta)
    requires n == |p| + |a| + 1
    requires p.Keys !! a.Keys && p.Keys + a.Keys == Upto(n - 1)
    ensures p[n := chunk].Keys !! a.Keys
    ensures p[n := chunk].Keys + a.Keys == Upto(n) == p.Keys + a.Keys + {n}
    ensures |p[n := chunk]| == |p| + 1
  {
    assert n !in p.Keys + a.Keys;
    UpdateFresh(p, n, chunk);
    AddFresh(p.Keys, a.Keys, n);
  }

  /** Adding a fresh key to a map adds it to the keys and one to the size. */
  lemma UpdateFresh<K, V>(m: map<K, V>, k: K, v: V)
    requires k !in m
    ensures m[k := v].Keys == m.Keys + {k} && |m[k := v]| == |m| + 1
  {
  }

  /** Adding the next index to a split of 1..n-1 gives a split of 1..n. */
  lemma AddFresh(p: set<int>, a: set<int>, n: int)
    requires n >= 1 && p !! a && p + a == Upto(n - 1) && n !in p + a
    ensures (p + {n}) !! a && (p + {n}) + a == Upto(n) && |p + {n}| == |p| + 1
  {
    assert Upto(n) == Upto(n - 1) + {n};
  }

  /** On a contiguous state a submission adds the next index and stays
      contiguous: as long as chunks are only added and approved, indices run
      1..n without gaps or overwrites. */
  lemma SubmitKeepsContiguous(s: Store, data: Meta, now: string)
    requires Accepts(s, data)
    requires Contiguous(s, Strip(data["filename"].s))
    ensures var name := Strip(data["filename"].s);
      var s' := SubmitWith(Counted, s, data, now).store;
      && Contiguous(s', name)
      && UsedIndices(s', name) == UsedIndices(s, name) + {NextIndex(s, name)}
  {
    var name := Strip(data["filename"].s);
    var n := NextIndex(s, name);
    PutNextKeepsContiguous(s, name, ChunkRecord(RequestOf(data), LanguageOf(s, name), name, n, now));
  }

  /** The corrected submission never replaces a chunk file: every chunk of
      every file, pending or approved, is still there unchanged, and the new
      index is not an approved index of the same file either. */
  lemma SubmitCorrectedNeverOverwrites(s: Store, data: Meta, now: string)
    requires Accepts(s, data)
    ensures var r := SubmitWith(Corrected, s, data, now);
      var name := Strip(data["filename"].s);
      && r.out.Done?
      && r.out.value.chunkIndex !in FolderOf(s.chunked.approved, name)
      && (forall f, i :: f in s.chunked.pending.folders && i in s.chunked.pending.folders[f] ==>
            f in r.store.chunked.pending.folders && i in r.store.chunked.pending.folders[f]
            && r.store.chunked.pending.folders[f][i] == s.chunked.pending.folders[f][i])
      && r.store.chunked.approved == s.chunked.approved
  {
    var r := SubmitWith(Corrected, s, data, now);
    var name := Strip(data["filename"].s);
    var n := FreshIndex(s, name);
    var chunk := ChunkRecord(RequestOf(data), LanguageOf(s, name), name, n, now);
    var pending := s.chunked.pending;
    assert r.store.chunked.pending == PutChunk(pending, name, n, chunk);
    assert n !in FolderOf(pending, name) && n !in FolderOf(s.chunked.approved, name);
    PutFreshKeeps(pending, name, n, chunk);
  }

  /** Writing a chunk file under an unused index keeps every chunk file. */
  lemma PutFreshKeeps(d: Dir, name: string, n: int, chunk: Meta)
    requires n !in FolderOf(d, name)
    ensures var d' := PutChunk(d, name, n, chunk);
      forall f, i :: f in d.folders && i in d.folders[f] ==>
        f in d'.folders && i in d'.folders[f] && d'.folders[f][i] == d.folders[f][i]
  {
    var d' := PutChunk(d, name, n, chunk);
    forall f, i | f in d.folders && i in d.folders[f]
      ensures f in d'.folders && i in d'.folders[f] && d'.folders[f][i] == d.folders[f][i]
    {
      if f == name {
        assert i != n;
      }
    }
  }

  // ---------------------------------------------------------------------------
  // Batch submission
  // ---------------------------------------------------------------------------

  /** One created chunk of a batch. */
  datatype Created = Created(chunkId: string, chunkIndex: int)

  /** What a successful batch reports. */
  datatype BatchReply = BatchReply(chunks: seq<Created>, filename: string)

  /** How the batch loop treats one item: `'text' not in item or 'category'
      not in item` skips it; for an object with both keys a chunk is made;
      a string or list holding both passes the test and then raises when
      indexed by a key, and a number or null raises at the test. */
  datatype Probe = Make | Skip | Raise

  function ProbeItem(item: Value): Probe {
    match item
    case VObj(fields) => if "text" in fields && "category" in fields then Make else Skip
    case VStr(s) => if IsSubstring("text", s) && IsSubstring("category", s) then Raise else Skip
    case VList(xs) => if VStr("text") in xs && VStr("category") in xs then Raise else Skip
    case _ => Raise
  }

  /** The item makes the batch raise (500): it raises at the test, or it is
      an object whose category is not a string or whose text has no length. */
  predicate ItemFails(item: Value) {
    || ProbeItem(item) == Raise
    || (ProbeItem(item) == Make && (!item.fields["category"].VStr? || Len(item.fields["text"]).None?))
  }

  /** The indices a batch gives its chunks when item `p` gets index
      `next + p`, skipped items included: the reference the loop is held to. */
  function Kept(items: seq<Value>, next: int): (r: seq<int>)
    ensures forall k :: k in r <==> next <= k < next + |items| && ProbeItem(items[k - next]) == Make
    ensures forall a, b :: 0 <= a < b < |r| ==> r[a] < r[b]
    ensures forall a :: 0 <= a < |r| ==> next <= r[a] < next + |items|
    decreases |items|
  {
    if items == [] then []
    else
      var rest := Kept(items[1..], next + 1);
      assert forall p :: 0 <= p < |items| - 1 ==> items[1..][p] == items[p + 1];
      if ProbeItem(items[0]) == Make then [next] + rest else rest
  }

  /** The request an object item of a batch stands for. */
  function ItemRequest(item: Value): (req: ChunkRequest)
    requires item.VObj? && "text" in item.fields && "category" in item.fields && item.fields["category"].VStr?
    ensures req.text == item.fields["text"] && VStr(req.category) == item.fields["category"]
  {
    ChunkRequest(item.fields["text"], item.fields["category"].s, GetOr(item.fields, "source", VStr("unknown")),
                 GetOr(item.fields, "overlap_reference", VStr("")))
  }

  /** The state of the batch loop when it ends or raises. */
  datatype BatchRun = BatchRun(folder: Folder, created: seq<Created>, raised: bool)

  /** The batch loop from position `next` on: each kept item is written to
      the folder at its index; the loop stops at the first failing item,
      keeping what it has written so far. It writes nowhere outside the
      indices of its items. */
  function WriteItems(folder: Folder, items: seq<Value>, next: int, language: Value, filename: string, now: string): (r: BatchRun)
    ensures RunWithin(folder, r, next, |items|)
    decreases |items|
  {
    if items == [] then BatchRun(folder, [], false)
    else
      var item := items[0];
      match ProbeItem(item)
      case Raise => BatchRun(folder, [], true)
      case Skip =>
        var rest := WriteItems(folder, items[1..], next + 1, language, filename, now);
        SkipWithin(folder, rest, next, |items|);
        rest
      case Make =>
        var category := item.fields["category"];
        var text := item.fields["text"];
        if !category.VStr? || Len(text).None? then BatchRun(folder, [], true)
        else
          var req := ItemRequest(item);
          var id := GenerateChunkId(language, category.s, filename, next);
          var chunk := ChunkRecord(req, language, filename, next, now);
          var rest := WriteItems(folder[next := chunk], items[1..], next + 1, language, filename, now);
          ConsWithin(folder, chunk, rest, id, next, |items|);
          BatchRun(rest.folder, [Created(id, next)] + rest.created, rest.raised)
  }

  /** A run of the loop over `n` items from index `next` writes only indices
      in `next .. next + n - 1`, keeps every other chunk file as it was, and
      reports only indices in that range. */
  predicate RunWithin(folder: Folder, r: BatchRun, next: int, n: int) {
    && (forall k :: k in r.folder ==> k in folder || next <= k < next + n)
    && (forall k :: k in folder && !(next <= k < next + n) ==> k in r.folder && r.folder[k] == folder[k])
    && (forall j :: 0 <= j < |r.created| ==> next <= r.created[j].chunkIndex < next + n)
  }

  lemma SkipWithin(folder: Folder, rest: BatchRun, next: int, n: int)
    requires RunWithin(folder, rest, next + 1, n - 1)
    ensures RunWithin(folder, rest, next, n)
  {
  }

  lemma ConsWithin(folder: Folder, chunk: Meta, rest: BatchRun, id: string, next: int, n: int)
    requires n >= 1
    requires RunWithin(folder[next := chunk], rest, next + 1, n - 1)
    ensures RunWithin(folder, BatchRun(rest.folder, [Created(id, next)] + rest.created, rest.raised), next, n)
  {
    var created := [Created(id, next)] + rest.created;
    forall j | 0 <= j < |created| ensures next <= created[j].chunkIndex < next + n {
      if j > 0 {
        assert created[j] == rest.created[j - 1];
      }
    }
  }

  /** One step of the loop over a skipped item. */
  lemma WriteItemsSkip(folder: Folder, items: seq<Value>, next: int, language: Value, filename: string, now: string)
    requires items != [] && ProbeItem(items[0]) == Skip
    ensures WriteItems(folder, items, next, language, filename, now)
         == WriteItems(folder, items[1..], next + 1, language, filename, now)
  {
  }

  /** One step of the loop over a written item. */
  lemma WriteItemsMake(folder: Folder, items: seq<Value>, next: int, language: Value, filename: string, now: string)
    requires items != [] && ProbeItem(items[0]) == Make
    requires items[0].fields["category"].VStr? && Len(items[0].fields["text"]).Some?
    ensures var chunk := ChunkRecord(ItemRequest(items[0]), language, filename, next, now);
      var rest := WriteItems(folder[next := chunk], items[1..], next + 1, language, filename, now);
      var id := GenerateChunkId(language, items[0].fields["category"].s, filename, next);
      WriteItems(folder, items, next, language, filename, now)
        == BatchRun(rest.folder, [Created(id, next)] + rest.created, rest.raised)
  {
  }

  /** The loop raises exactly when some item fails. */
  lemma {:induction false} WriteItemsRaises(folder: Folder, items: seq<Value>, next: int, language: Value, filename: string, now: string)
    ensures WriteItems(folder, items, next, language, filename, now).raised
        <==> exists p :: 0 <= p < |items| && ItemFails(items[p])
    decreases |items|
  {
    if items != [] {
      assert forall p :: 0 <= p < |items| - 1 ==> items[1..][p] == items[p + 1];
      var item := items[0];
      if ProbeItem(item) == Skip {
        WriteItemsRaises(folder, items[1..], next + 1, language, filename, now);
        WriteItemsSkip(folder, items, next, language, filename, now);
        assert !ItemFails(items[0]);
      } else if ProbeItem(item) == Make && item.fields["category"].VStr? && Len(item.fields["text"]).Some? {
        var req := ItemRequest(item);
        WriteItemsRaises(folder[next := ChunkRecord(req, language, filename, next, now)], items[1..], next + 1, language, filename, now);
        WriteItemsMake(folder, items, next, language, filename, now);
        assert !ItemFails(items[0]);
      } else {
        assert ItemFails(items[0]);
      }
    }
  }

  /** When the loop runs to the end, the chunks it creates are exactly the
      kept items at their reference indices, and the folder gains exactly
      those indices. */
  lemma {:induction false} WriteItemsFollowsKept(folder: Folder, items: seq<Value>, next: int, language: Value, filename: string, now: string)
    ensures Follows(folder, WriteItems(folder, items, next, language, filename, now), Kept(items, next))
    decreases |items|
  {
    if items != [] {
      var item := items[0];
      var kept := Kept(items, next);
      var rest := Kept(items[1..], next + 1);
      assert forall p :: 0 <= p < |items| - 1 ==> items[1..][p] == items[p + 1];
      if ProbeItem(item) == Skip {
        WriteItemsFollowsKept(folder, items[1..], next + 1, language, filename, now);
        WriteItemsSkip(folder, items, next, language, filename, now);
        assert kept == rest;
      } else if ProbeItem(item) == Make && item.fields["category"].VStr? && Len(item.fields["text"]).Some? {
        var chunk := ChunkRecord(ItemRequest(item), language, filename, next, now);
        var id := GenerateChunkId(language, item.fields["category"].s, filename, next);
        WriteItemsFollowsKept(folder[next := chunk], items[1..], next + 1, language, filename, now);
        ConsFollows(folder, chunk, WriteItems(folder[next := chunk], items[1..], next + 1, language, filename, now), rest, id, next);
        WriteItemsMake(folder, items, next, language, filename, now);
        assert kept == [next] + rest;
      }
    }
  }

  /** A run that does not raise reports the chunks of `kept` in order, and
      its folder holds the indices of `folder` and of `kept`. */
  ghost predicate Follows(folder: Folder, r: BatchRun, kept: seq<int>) {
    !r.raised ==>
      && |r.created| == |kept|
      && (forall j :: 0 <= j < |r.created| ==> r.created[j].chunkIndex == kept[j])
      && (forall k :: k in r.folder <==> k in folder || k in kept)
  }

  lemma ConsFollows(folder: Folder, chunk: Meta, rest: BatchRun, kept: seq<int>, id: string, next: int)
    requires Follows(folder[next := chunk], rest, kept)
    ensures Follows(folder, BatchRun(rest.folder, [Created(id, next)] + rest.created, rest.raised), [next] + kept)
  {
    var created := [Created(id, next)] + rest.created;
    if !rest.raised {
      forall j | 0 <= j < |created| ensures created[j].chunkIndex == ([next] + kept)[j] {
        if j > 0 {
          assert created[j] == rest.created[j - 1];
        }
      }
    }
  }

  /** Every chunk a run reports is in its folder under its index, with that
      index recorded in it. */
  predicate RecordsCreated(r: BatchRun) {
    forall j :: 0 <= j < |r.created| ==> Recorded(r.folder, r.created[j].chunkIndex)
  }

  predicate Recorded(folder: Folder, k: int) {
    k in folder && Holds(folder[k], "chunk_index", VInt(k))
  }

  /** The loop reports only chunks it has written. */
  lemma {:induction false} WriteItemsRecords(folder: Folder, items: seq<Value>, next: int, language: Value, filename: string, now: string)
    ensures RecordsCreated(WriteItems(folder, items, next, language, filename, now))
    decreases |items|
  {
    if items != [] {
      var item := items[0];
      if ProbeItem(item) == Skip {
        WriteItemsRecords(folder, items[1..], next + 1, language, filename, now);
        WriteItemsSkip(folder, items, next, language, filename, now);
      } else if ProbeItem(item) == Make && item.fields["category"].VStr? && Len(item.fields["text"]).Some? {
        var chunk := ChunkRecord(ItemRequest(item), language, filename, next, now);
        var folder' := folder[next := chunk];
        var id := GenerateChunkId(language, item.fields["category"].s, filename, next);
        WriteItemsRecords(folder', items[1..], next + 1, language, filename, now);
        var rest := WriteItems(folder', items[1..], next + 1, language, filename, now);
        assert Recorded(rest.folder, next) by {
          ChunkRecordIndex(ItemRequest(item), language, filename, next, now);
          assert Recorded(folder', next);
        }
        ConsRecorded(rest, id, next);
        WriteItemsMake(folder, items, next, language, filename, now);
      }
    }
  }

  lemma ConsRecorded(rest: BatchRun, id: string, next: int)
    requires RecordsCreated(rest) && Recorded(rest.folder, next)
    ensures RecordsCreated(BatchRun(rest.folder, [Created(id, next)] + rest.created, rest.raised))
  {
    var created := [Created(id, next)] + rest.created;
    forall j | 0 <= j < |created| ensures Recorded(rest.folder, created[j].chunkIndex) {
      if j > 0 {
        assert created[j] == rest.created[j - 1];
      }
    }
  }

  /** What a run over items none of which fails leaves in the folder: item
      `p`, when kept, is stored at index `next + p` as the record built
      from it, and every chunk file at an index no item is kept for is as
      it was. */
  ghost predicate WritesKept(before: Folder, after: Folder, items: seq<Value>, next: int, language: Value, filename: string, now: string) {
    StoresKept(after, items, next, language, filename, now) && KeepsOthers(before, after, Kept(items, next))
  }

  /** Each kept item `p` is stored at index `next + p` as its record. */
  ghost predicate StoresKept(after: Folder, items: seq<Value>, next: int, language: Value, filename: string, now: string) {
    forall p :: 0 <= p < |items| ==> StoredAt(after, items[p], next + p, language, filename, now)
  }

  /** A kept item that does not fail is stored at index `k` as its record. */
  ghost predicate StoredAt(after: Folder, item: Value, k: int, language: Value, filename: string, now: string) {
    ProbeItem(item) == Make && !ItemFails(item) ==>
      k in after && after[k] == ChunkRecord(ItemRequest(item), language, filename, k, now)
  }

  /** Every chunk file outside `kept` is as it was. */
  ghost predicate KeepsOthers(before: Folder, after: Folder, kept: seq<int>) {
    forall k :: k in before && k !in kept ==> k in after && after[k] == before[k]
  }

  /** The loop writes each kept item's record at its index and nothing else. */
  lemma {:induction false} WriteItemsWrites(folder: Folder, items: seq<Value>, next: int, language: Value, filename: string, now: string)
    requires forall p :: 0 <= p < |items| ==> !ItemFails(items[p])
    ensures WritesKept(folder, WriteItems(folder, items, next, language, filename, now).folder, items, next, language, filename, now)
    decreases |items|
  {
    if items != [] {
      var item := items[0];
      var tail := items[1..];
      assert forall p :: 0 <= p < |items| - 1 ==> tail[p] == items[p + 1];
      if ProbeItem(item) == Skip {
        WriteItemsWrites(folder, tail, next + 1, language, filename, now);
        WriteItemsSkip(folder, items, next, language, filename, now);
        assert Kept(items, next) == Kept(tail, next + 1);
        WritesShift(folder, WriteItems(folder, tail, next + 1, language, filename, now).folder, items, next, language, filename, now);
      } else {
        assert !ItemFails(item);
        var chunk := ChunkRecord(ItemRequest(item), language, filename, next, now);
        WriteItemsWrites(folder[next := chunk], tail, next + 1, language, filename, now);
        WriteItemsMake(folder, items, next, language, filename, now);
        var after := WriteItems(folder[next := chunk], tail, next + 1, language, filename, now).folder;
        assert Kept(items, next) == [next] + Kept(tail, next + 1);
        WritesCons(folder, chunk, after, items, next, language, filename, now);
      }
    }
  }

  /** The step of `WriteItemsWrites` over a skipped first item. */
  lemma WritesShift(folder: Folder, after: Folder, items: seq<Value>, next: int, language: Value, filename: string, now: string)
    requires items != [] && ProbeItem(items[0]) == Skip
    requires Kept(items, next) == Kept(items[1..], next + 1)
    requires WritesKept(folder, after, items[1..], next + 1, language, filename, now)
    ensures WritesKept(folder, after, items, next, language, filename, now)
  {
    forall p | 0 <= p < |items| ensures StoredAt(after, items[p], next + p, language, filename, now) {
      if p == 0 {
        assert !(ProbeItem(items[0]) == Make);
      } else {
        assert StoredAt(after, items[1..][p - 1], next + 1 + (p - 1), language, filename, now);
        assert items[1..][p - 1] == items[p];
      }
    }
  }

  /** The step of `WriteItemsWrites` over a written first item. */
  lemma WritesCons(folder: Folder, chunk: Meta, after: Folder, items: seq<Value>, next: int, language: Value, filename: string, now: string)
    requires items != [] && ProbeItem(items[0]) == Make && !ItemFails(items[0])
    requires chunk == ChunkRecord(ItemRequest(items[0]), language, filename, next, now)
    requires Kept(items, next) == [next] + Kept(items[1..], next + 1)
    requires WritesKept(folder[next := chunk], after, items[1..], next + 1, language, filename, now)
    ensures WritesKept(folder, after, items, next, language, filename, now)
  {
    var tail := items[1..];
    assert next !in Kept(tail, next + 1);
    assert next in after && after[next] == chunk by {
      assert next in folder[next := chunk];
    }
    ConsStores(after, items, next, language, filename, now);
    ConsKeeps(folder, chunk, after, Kept(tail, next + 1), next);
  }

  lemma ConsStores(after: Folder, items: seq<Value>, next: int, language: Value, filename: string, now: string)
    requires items != [] && StoredAt(after, items[0], next, language, filename, now)
    requires StoresKept(after, items[1..], next + 1, language, filename, now)
    ensures StoresKept(after, items, next, language, filename, now)
  {
    var tail := items[1..];
    forall p | 1 <= p < |items| ensures StoredAt(after, items[p], next + p, language, filename, now) {
      assert StoredAt(after, tail[p - 1], next + 1 + (p - 1), language, filename, now);
      assert tail[p - 1] == items[p];
    }
  }

  lemma ConsKeeps(folder: Folder, chunk: Meta, after: Folder, kept: seq<int>, next: int)
    requires next !in kept
    requires KeepsOthers(folder[next := chunk], after, kept)
    ensures KeepsOthers(folder, after, [next] + kept)
  {
    forall k | k in folder && k !in [next] + kept
      ensures k in after && after[k] == folder[k]
    {
      assert k in folder[next := chunk];
    }
  }

  /** When a batch is accepted: both keys present, a string filename, a
      non-empty list of items, an approved cleaned text of the stripped
      name, and no failing item. */
  predicate BatchAccepts(s: Store, data: Meta) {
    && "filename" in data && "chunks" in data
    && data["filename"].VStr?
    && data["chunks"].VList? && |data["chunks"].items| > 0
    && Strip(data["filename"].s) in s.cleaned.approved.content
    && (forall p :: 0 <= p < |data["chunks"].items| ==> !ItemFails(data["chunks"].items[p]))
  }

  /** `POST /api/chunking/submit-batch`. Checks, in order: both keys present
      (400), a string filename (500), a non-empty list (400), an approved
      cleaned text of the stripped name (404). Then the pending folder is
      created and item `p` is written with index `existing + p + 1`, where
      skipped items use up their index too. A failing item ends the batch
      with 500, keeping the chunks written before it. */
  function SubmitBatch(s: Store, data: Meta, now: string): (r: Step<Outcome<BatchReply>>)
    ensures r.out.Done? <==> BatchAccepts(s, data)
    ensures r.out == Fail(BadRequest) <==>
      || "filename" !in data || "chunks" !in data
      || (data["filename"].VStr? && !(data["chunks"].VList? && |data["chunks"].items| > 0))
    ensures r.out == Fail(NotFound) <==>
      && "filename" in data && "chunks" in data && data["filename"].VStr?
      && data["chunks"].VList? && |data["chunks"].items| > 0
      && Strip(data["filename"].s) !in s.cleaned.approved.content
    ensures r.out == Fail(ServerError) <==>
      && "filename" in data && "chunks" in data
      && (|| !data["filename"].VStr?
          || (&& data["chunks"].VList? && |data["chunks"].items| > 0
              && Strip(data["filename"].s) in s.cleaned.approved.content
              && (exists p :: 0 <= p < |data["chunks"].items| && ItemFails(data["chunks"].items[p]))))
    ensures r.out.Fail? && r.out.code != ServerError ==> r.store == s
    ensures r.out.Fail? && !("filename" in data && data["filename"].VStr?) ==> r.store == s
    ensures r.out == Fail(ServerError) && data["filename"].VStr? ==>
      var name := Strip(data["filename"].s);
      && name in r.store.chunked.pending.folders
      && r.store.chunked.pending.folders[name]
           == WriteItems(FolderOf(s.chunked.pending, name), data["chunks"].items, NextIndex(s, name),
                         LanguageOf(s, name), name, now).folder
    ensures r.store.raw == s.raw && r.store.cleaned == s.cleaned && r.store.chunked.approved == s.chunked.approved
    ensures r.store.chunked.pending.folders.Keys <= s.chunked.pending.folders.Keys + s.cleaned.approved.content.Keys
    ensures r.store.chunked.pending.content == s.chunked.pending.content && r.store.chunked.pending.meta == s.chunked.pending.meta
    ensures "filename" in data && data["filename"].VStr? ==>
      var name := Strip(data["filename"].s);
      r.store.chunked.pending.folders - {name} == s.chunked.pending.folders - {name}
    ensures r.out.Done? ==>
      var name := Strip(data["filename"].s);
      var kept := Kept(data["chunks"].items, NextIndex(s, name));
      && r.out.value.filename == name
      && |r.out.value.chunks| == |kept|
      && (forall j :: 0 <= j < |kept| ==> r.out.value.chunks[j].chunkIndex == kept[j])
      && name in r.store.chunked.pending.folders
      && (forall k :: k in r.store.chunked.pending.folders[name] <==> k in FolderOf(s.chunked.pending, name) || k in kept)
  {
    if "filename" !in data || "chunks" !in data then Step(Fail(BadRequest), s)
    else if !data["filename"].VStr? then Step(Fail(ServerError), s)
    else
      var name := Strip(data["filename"].s);
      var chunks := data["chunks"];
      if !chunks.VList? || |chunks.items| == 0 then Step(Fail(BadRequest), s)
      else if name !in s.cleaned.approved.content then Step(Fail(NotFound), s)
      else
        var run := WriteItems(FolderOf(s.chunked.pending, name), chunks.items, NextIndex(s, name),
                              LanguageOf(s, name), name, now);
        WriteItemsRaises(FolderOf(s.chunked.pending, name), chunks.items, NextIndex(s, name), LanguageOf(s, name), name, now);
        WriteItemsFollowsKept(FolderOf(s.chunked.pending, name), chunks.items, NextIndex(s, name), LanguageOf(s, name), name, now);
        var s' := s.(chunked := s.chunked.(pending := s.chunked.pending.(
                    folders := s.chunked.pending.folders[name := run.folder])));
        UpdateThenRemove(s.chunked.pending.folders, name, run.folder);
        if run.raised then Step(Fail(ServerError), s')
        else Step(Done(BatchReply(run.created, name)), s')
  }

  /** On a contiguous state a batch only writes unused indices: every chunk
      that existed is still there unchanged. */
  lemma BatchOnContiguousKeepsChunks(s: Store, data: Meta, now: string)
    requires BatchAccepts(s, data)
    requires Contiguous(s, Strip(data["filename"].s))
    ensures var name := Strip(data["filename"].s);
      var s' := SubmitBatch(s, data, now).store;
      forall i :: i in FolderOf(s.chunked.pending, name) ==>
        i in s'.chunked.pending.folders[name] && s'.chunked.pending.folders[name][i] == FolderOf(s.chunked.pending, name)[i]
  {
    var name := Strip(data["filename"].s);
    forall i | i in FolderOf(s.chunked.pending, name) ensures i < NextIndex(s, name) {
      assert i in UsedIndices(s, name);
    }
  }

  /** An accepted batch stores each kept item's record at its index in the
      text's pending folder and leaves the folder's other chunks as they were. */
  lemma SubmitBatchWrites(s: Store, data: Meta, now: string)
    requires BatchAccepts(s, data)
    ensures var name := Strip(data["filename"].s);
      var r := SubmitBatch(s, data, now);
      && name in r.store.chunked.pending.folders
      && WritesKept(FolderOf(s.chunked.pending, name), r.store.chunked.pending.folders[name], data["chunks"].items,
                    NextIndex(s, name), LanguageOf(s, name), name, now)
  {
    var name := Strip(data["filename"].s);
    WriteItemsWrites(FolderOf(s.chunked.pending, name), data["chunks"].items, NextIndex(s, name), LanguageOf(s, name), name, now);
  }

  // ---------------------------------------------------------------------------
  // Deletion
  // ---------------------------------------------------------------------------

  /** `DELETE /api/chunking/chunk/<filename>/<index>`: removes one pending
      chunk file; 404 when it does not exist (in particular when the chunk
      was approved). The folder stays, even when left empty. */
  function DeleteChunk(s: Store, filename: string, index: nat): (r: Step<Outcome<()>>)
    ensures r.out.Done? <==> filename in s.chunked.pending.folders && index in s.chunked.pending.folders[filename]
    ensures r.out.Fail? ==> r == Step(Fail(NotFound), s)
    ensures r.out.Done? ==>
      && filename in r.store.chunked.pending.folders
      && r.store.chunked.pending.folders[filename] == s.chunked.pending.folders[filename] - {index}
      && r.store.chunked.pending.folders - {filename} == s.chunked.pending.folders - {filename}
    ensures r.store.chunked.approved == s.chunked.approved && r.store.raw == s.raw && r.store.cleaned == s.cleaned
  {
    if filename !in s.chunked.pending.folders || index !in s.chunked.pending.folders[filename] then
      Step(Fail(NotFound), s)
    else
      Step(Done(()), s.(chunked := s.chunked.(pending := DeleteChunkFile(s.chunked.pending, filename, index, false))))
  }

  // ---------------------------------------------------------------------------
  // The index defect, exhibited
  // ---------------------------------------------------------------------------

  /** Deleting a pending chunk other than the last and then submitting a
      chunk of the same file: the counted index is one that is still in use,
      so the new chunk lands on an existing chunk file (replacing it when it
      is pending), and the file does not grow. */
  lemma DeleteThenSubmitCollides(s: Store, data: Meta, now: string, i: int)
    requires Accepts(s, data)
    requires Contiguous(s, Strip(data["filename"].s))
    requires i in FolderOf(s.chunked.pending, Strip(data["filename"].s))
    requires i < NextIndex(s, Strip(data["filename"].s)) - 1
    ensures var name := Strip(data["filename"].s);
      var s1 := DeleteChunk(s, name, i).store;
      var r := Submit(s1, data, now);
      && r.out.Done?
      && r.out.value.chunkIndex == NextIndex(s, name) - 1
      && r.out.value.chunkIndex in UsedIndices(s1, name)
      && (r.out.value.chunkIndex in FolderOf(s1.chunked.pending, name) ==>
            |r.store.chunked.pending.folders[name]| == |FolderOf(s1.chunked.pending, name)|)
  {
    var name := Strip(data["filename"].s);
    var s1 := DeleteChunk(s, name, i).store;
    DeleteLowersNext(s, name, i);
    assert Accepts(s1, data);
    SubmitOnUsedIndex(s1, data, now);
  }

  /** A concrete store for the defect: pending chunks 1, 2 and 3 of "a",
      whose cleaned text is approved. */
  const WitnessStore: Store :=
    Store(Stage(EmptyDir, EmptyDir),
          Stage(EmptyDir, Dir(map["a" := "t"], map[], map[])),
          Stage(Dir(map[], map[], map["a" := map[1 := map[], 2 := map[], 3 := map[]]]), EmptyDir))

  /** A chunk submission for "a". */
  const WitnessData: Meta := map["filename" := VStr("a"), "text" := VStr("t"), "category" := VStr("c")]

  lemma WitnessAccepted()
    ensures Strip(WitnessData["filename"].s) == "a"
    ensures Accepts(WitnessStore, WitnessData)
  {
    assert WitnessData["filename"].s == "a";
    assert Strip("a") == "a";
  }

  /** The pending chunk files of "a" in the concrete store. */
  const WitnessFolder: Folder := map[1 := map[], 2 := map[], 3 := map[]]

  lemma WitnessFolders()
    ensures FolderOf(WitnessStore.chunked.pending, "a") == WitnessFolder
    ensures FolderOf(WitnessStore.chunked.approved, "a") == map[]
  {
  }

  lemma WitnessFolderKeys()
    ensures WitnessFolder.Keys == {1, 2, 3} == Upto(3)
    ensures |WitnessFolder| == 3
  {
    assert WitnessFolder.Keys == {1, 2, 3};
    assert Upto(3) == {1, 2, 3};
  }

  lemma WitnessContiguous()
    ensures Contiguous(WitnessStore, "a")
    ensures 2 in FolderOf(WitnessStore.chunked.pending, "a")
    ensures NextIndex(WitnessStore, "a") == 4
  {
    WitnessFolders();
    WitnessFolderKeys();
  }

  /** The defect on the concrete store: after chunk 2 is deleted, the next
      submission is given index 3, which is still a pending chunk file, so
      the submission replaces it and the folder stays at two files. */
  lemma CollisionWitness(now: string)
    ensures var s1 := DeleteChunk(WitnessStore, "a", 2).store;
      var r := Submit(s1, WitnessData, now);
      && r.out.Done?
      && r.out.value.chunkIndex == 3
      && 3 in FolderOf(s1.chunked.pending, "a")
      && |r.store.chunked.pending.folders["a"]| == 2
  {
    WitnessAccepted();
    WitnessContiguous();
    DeleteThenSubmitCollides(WitnessStore, WitnessData, now, 2);
    WitnessAfterDelete();
  }

  /** After chunk 2 is deleted from the concrete store, chunks 1 and 3 remain. */
  lemma WitnessAfterDelete()
    ensures var s1 := DeleteChunk(WitnessStore, "a", 2).store;
      && 3 in FolderOf(s1.chunked.pending, "a")
      && |FolderOf(s1.chunked.pending, "a")| == 2
  {
    WitnessFolders();
    WitnessFolderKeys();
    DeleteChunkFolders(WitnessStore, "a", 2);
    RemovePresent(WitnessFolder, 2);
  }

  /** Deleting a pending chunk other than the last from a contiguous file
      lowers the counted index by one, onto an index still in use. */
  lemma DeleteLowersNext(s: Store, f: string, i: int)
    requires Contiguous(s, f)
    requires i in FolderOf(s.chunked.pending, f) && i < NextIndex(s, f) - 1
    ensures var s1 := DeleteChunk(s, f, i).store;
      && NextIndex(s1, f) == NextIndex(s, f) - 1
      && NextIndex(s, f) - 1 in UsedIndices(s1, f)
  {
    var n := NextIndex(s, f);
    var p := FolderOf(s.chunked.pending, f);
    DeleteChunkFolders(s, f, i);
    RemovePresent(p, i);
    assert n - 1 in Upto(n - 1);
  }

  /** Deleting a pending chunk changes only that folder, by that index. */
  lemma DeleteChunkFolders(s: Store, f: string, i: nat)
    requires i in FolderOf(s.chunked.pending, f)
    ensures var s1 := DeleteChunk(s, f, i).store;
      && FolderOf(s1.chunked.pending, f) == FolderOf(s.chunked.pending, f) - {i}
      && FolderOf(s1.chunked.approved, f) == FolderOf(s.chunked.approved, f)
  {
  }

  /** When the counted index is in use, a submission lands on an existing
      chunk file and, when that file is pending, replaces it. */
  lemma SubmitOnUsedIndex(s: Store, data: Meta, now: string)
    requires Accepts(s, data)
    requires NextIndex(s, Strip(data["filename"].s)) in UsedIndices(s, Strip(data["filename"].s))
    ensures var name := Strip(data["filename"].s);
      var r := Submit(s, data, now);
      && r.out.Done?
      && r.out.value.chunkIndex == NextIndex(s, name)
      && (r.out.value.chunkIndex in FolderOf(s.chunked.pending, name) ==>
            |r.store.chunked.pending.folders[name]| == |FolderOf(s.chunked.pending, name)|)
  {
    var name := Strip(data["filename"].s);
    var r := Submit(s, data, now);
    var p := FolderOf(s.chunked.pending, name);
    var k := r.out.value.chunkIndex;
    if k in p {
      UpdatePresent(p, k, ChunkRecord(RequestOf(data), LanguageOf(s, name), name, k, now));
    }
  }

  /** A batch whose first item is skipped, on a contiguous file, while some
      later item is written: the skipped item's index stays unused, so the
      file is no longer numbered 1..n, and the counted index of later
      submissions no longer points past the last chunk. */
  lemma BatchSkipBreaksContiguity(s: Store, data: Meta, now: string)
    requires BatchAccepts(s, data)
    requires Contiguous(s, Strip(data["filename"].s))
    requires ProbeItem(data["chunks"].items[0]) == Skip
    requires exists p :: 0 <= p < |data["chunks"].items| && ProbeItem(data["chunks"].items[p]) == Make
    ensures !Contiguous(SubmitBatch(s, data, now).store, Strip(data["filename"].s))
  {
    var name := Strip(data["filename"].s);
    var items := data["chunks"].items;
    var n := NextIndex(s, name);
    var kept := Kept(items, n);
    var s' := SubmitBatch(s, data, now).store;
    var p :| 0 <= p < |items| && ProbeItem(items[p]) == Make;
    assert n + p in kept;
    assert n !in kept;
    assert n !in UsedIndices(s, name) by {
      NextIndexFresh(s, name);
    }
    assert n !in UsedIndices(s', name);
  }

  // ---------------------------------------------------------------------------
  // Reads
  // ---------------------------------------------------------------------------

  /** One entry of the cleaned-file listing. */
  datatype CleanedEntry = CleanedEntry(
    filename: string,
    language: Value,
    source: Value,
    content: string,
    contentLength: nat,
    pendingChunks: nat,
    approvedChunks: nat,
    totalChunks: nat)

  /** `GET /api/chunking/cleaned-files`, keyed by file name: one entry per
      approved cleaned text with its chunk counts. */
  function ListCleanedFiles(s: Store): (r: map<string, CleanedEntry>)
    ensures r.Keys == s.cleaned.approved.content.Keys
    ensures forall f :: f in r ==>
      && r[f].content == s.cleaned.approved.content[f]
      && r[f].pendingChunks == |FolderOf(s.chunked.pending, f)|
      && r[f].approvedChunks == |FolderOf(s.chunked.approved, f)|
      && r[f].totalChunks == r[f].pendingChunks + r[f].approvedChunks
  {
    var d := s.cleaned.approved;
    map f | f in d.content ::
      var meta := if f in d.meta then d.meta[f] else map[];
      var p := FolderCount(s.chunked.pending, f);
      var a := FolderCount(s.chunked.approved, f);
      CleanedEntry(f, GetOr(meta, "language", VStr("ta")), GetOr(meta, "source", VStr("unknown")),
                   d.content[f], |d.content[f]|, p, a, p + a)
  }

  /** The listing's total is what the next chunk's index is computed from. */
  lemma ListedTotalGivesNextIndex(s: Store, f: string)
    requires f in s.cleaned.approved.content
    ensures ListCleanedFiles(s)[f].totalChunks + 1 == NextIndex(s, f)
  {
  }

  /** `chunk.get('chunk_index', 0)`, the key chunks are sorted by. */
  function IndexKey(m: Meta): Value {
    GetOr(m, "chunk_index", VInt(0))
  }

  function ByIndex(): (Meta, Meta) -> bool {
    (a: Meta, b: Meta) => KeyLe(IndexKey(a), IndexKey(b))
  }

  /** The sort keys of a listing, in its order. */
  function IndexKeys(ms: seq<Meta>): (r: seq<Value>)
    ensures |r| == |ms|
    ensures forall i :: 0 <= i < |ms| ==> r[i] == IndexKey(ms[i])
  {
    seq(|ms|, i requires 0 <= i < |ms| => IndexKey(ms[i]))
  }

  /** The chunk files of a folder, in listing order, with `status` overwritten. */
  function Tagged(folder: Folder, order: seq<int>, status: string): (r: seq<Meta>)
    requires forall j :: 0 <= j < |order| ==> order[j] in folder
    ensures |r| == |order|
    ensures forall j :: 0 <= j < |order| ==> r[j] == folder[order[j]]["status" := VStr(status)]
  {
    seq(|order|, j requires 0 <= j < |order| => folder[order[j]]["status" := VStr(status)])
  }

  /** Every chunk file of the folder appears, tagged, in the listing. */
  lemma TaggedCovers(folder: Folder, order: seq<int>, status: string)
    requires Enumerates(order, folder.Keys)
    ensures forall i :: i in folder ==> folder[i]["status" := VStr(status)] in Tagged(folder, order, status)
  {
    var t := Tagged(folder, order, status);
    forall i | i in folder ensures folder[i]["status" := VStr(status)] in t {
      var j :| 0 <= j < |order| && order[j] == i;
      assert t[j] == folder[i]["status" := VStr(status)];
    }
  }

  /** Every entry of the listing carries the given status. */
  lemma TaggedStatus(folder: Folder, order: seq<int>, status: string)
    requires forall j :: 0 <= j < |order| ==> order[j] in folder
    ensures forall m :: m in Tagged(folder, order, status) ==> Holds(m, "status", VStr(status))
  {
  }

  /** Two sequences with the same multiset have the same elements. */
  lemma SameElements<T>(a: seq<T>, b: seq<T>)
    requires multiset(a) == multiset(b)
    ensures forall m :: m in a <==> m in b
  {
    forall m ensures m in a <==> m in b {
      assert m in a <==> m in multiset(a);
      assert m in b <==> m in multiset(b);
    }
  }

  /** Python can sort the chunks of a pending and an approved folder by
      index: fewer than two of them, or their `chunk_index` keys (0 when
      missing) are all ints or all strings. */
  predicate ChunksSortable(p: Folder, a: Folder) {
    || |p| + |a| <= 1
    || (AllKeysOf(p, true) && AllKeysOf(a, true))
    || (AllKeysOf(p, false) && AllKeysOf(a, false))
  }

  /** Whether sorting one folder's chunks by index succeeds. */
  predicate FolderSortable(folder: Folder) {
    |folder| <= 1 || AllKeysOf(folder, true) || AllKeysOf(folder, false)
  }

  /** A key of the kind (int or string) a sort needs throughout. */
  predicate OfKind(v: Value, isInt: bool) {
    if isInt then v.VInt? else v.VStr?
  }

  /** Every chunk of the folder has an index key of that kind. */
  predicate AllKeysOf(folder: Folder, isInt: bool) {
    forall i :: i in folder ==> OfKind(IndexKey(folder[i]), isInt)
  }

  /** Every entry of the listing has an index key of that kind. */
  ghost predicate AllListedOf(ms: seq<Meta>, isInt: bool) {
    forall j :: 0 <= j < |ms| ==> OfKind(IndexKey(ms[j]), isInt)
  }

  /** `GET /api/chunking/chunks/<filename>`: every chunk of the file, pending
      and approved, each marked with the directory it was read from, sorted
      by index; 500 when the indices cannot be compared. */
  function GetChunks(s: Store, filename: string, pendingOrder: seq<int>, approvedOrder: seq<int>): (r: Outcome<seq<Meta>>)
    requires Enumerates(pendingOrder, FolderOf(s.chunked.pending, filename).Keys)
    requires Enumerates(approvedOrder, FolderOf(s.chunked.approved, filename).Keys)
    ensures r.Done? <==> ChunksSortable(FolderOf(s.chunked.pending, filename), FolderOf(s.chunked.approved, filename))
    ensures r.Fail? ==> r.code == ServerError
    ensures r.Done? ==>
      var p := FolderOf(s.chunked.pending, filename);
      var a := FolderOf(s.chunked.approved, filename);
      && multiset(r.value) == multiset(Tagged(p, pendingOrder, "pending") + Tagged(a, approvedOrder, "approved"))
      && |r.value| == |p| + |a|
      && (forall i :: 0 < i < |r.value| ==> KeyLe(IndexKey(r.value[i - 1]), IndexKey(r.value[i])))
      && (forall m :: m in r.value ==> Holds(m, "status", VStr("pending")) || Holds(m, "status", VStr("approved")))
      && (forall i :: i in p ==> p[i]["status" := VStr("pending")] in r.value)
      && (forall i :: i in a ==> a[i]["status" := VStr("approved")] in r.value)
  {
    Merged(FolderOf(s.chunked.pending, filename), FolderOf(s.chunked.approved, filename), pendingOrder, approvedOrder)
  }

  lemma ByIndexTotal()
    ensures Total(ByIndex())
  {
    forall x: Meta, y: Meta ensures ByIndex()(x, y) || ByIndex()(y, x) {
      KeyLeTotal(IndexKey(x), IndexKey(y));
    }
  }

  /** The chunks of a pending and an approved folder, each tagged with its
      location, sorted by index: exactly the tagged chunk files, rearranged. */
  function Merged(p: Folder, a: Folder, pendingOrder: seq<int>, approvedOrder: seq<int>): (r: Outcome<seq<Meta>>)
    requires Enumerates(pendingOrder, p.Keys) && Enumerates(approvedOrder, a.Keys)
    ensures r.Done? <==> ChunksSortable(p, a)
    ensures r.Fail? ==> r.code == ServerError
    ensures r.Done? ==>
      && multiset(r.value) == multiset(Tagged(p, pendingOrder, "pending") + Tagged(a, approvedOrder, "approved"))
      && |r.value| == |p| + |a|
      && (forall i :: 0 < i < |r.value| ==> KeyLe(IndexKey(r.value[i - 1]), IndexKey(r.value[i])))
      && (forall m :: m in r.value ==> Holds(m, "status", VStr("pending")) || Holds(m, "status", VStr("approved")))
      && (forall i :: i in p ==> p[i]["status" := VStr("pending")] in r.value)
      && (forall i :: i in a ==> a[i]["status" := VStr("approved")] in r.value)
  {
    var tp := Tagged(p, pendingOrder, "pending");
    var ta := Tagged(a, approvedOrder, "approved");
    MergedSortableIff(p, a, pendingOrder, approvedOrder);
    if !Orderable(IndexKeys(tp + ta)) then Fail(ServerError)
    else
      ByIndexTotal();
      EnumeratedLength(pendingOrder, p.Keys);
      EnumeratedLength(approvedOrder, a.Keys);
      TaggedStatus(p, pendingOrder, "pending");
      TaggedStatus(a, approvedOrder, "approved");
      TaggedCovers(p, pendingOrder, "pending");
      TaggedCovers(a, approvedOrder, "approved");
      var r := SortBy(tp + ta, ByIndex());
      MergeFacts(tp, ta, r);
      assert Sorted(r, ByIndex());
      Done(r)
  }

  /** Tagging a chunk with its status leaves its sort key alone. */
  lemma TaggedKeys(folder: Folder, order: seq<int>, status: string)
    requires forall j :: 0 <= j < |order| ==> order[j] in folder
    ensures forall j :: 0 <= j < |order| ==> IndexKey(Tagged(folder, order, status)[j]) == IndexKey(folder[order[j]])
  {
  }

  /** Whether the merged sort raises does not depend on the listing orders. */
  lemma MergedSortableIff(p: Folder, a: Folder, pendingOrder: seq<int>, approvedOrder: seq<int>)
    requires Enumerates(pendingOrder, p.Keys) && Enumerates(approvedOrder, a.Keys)
    ensures Orderable(IndexKeys(Tagged(p, pendingOrder, "pending") + Tagged(a, approvedOrder, "approved")))
        <==> ChunksSortable(p, a)
  {
    var tp := Tagged(p, pendingOrder, "pending");
    var ta := Tagged(a, approvedOrder, "approved");
    EnumeratedLength(pendingOrder, p.Keys);
    EnumeratedLength(approvedOrder, a.Keys);
    FolderKind(p, pendingOrder, "pending", true);
    FolderKind(p, pendingOrder, "pending", false);
    FolderKind(a, approvedOrder, "approved", true);
    FolderKind(a, approvedOrder, "approved", false);
    ConcatOrderable(tp, ta);
  }

  /** Sorting one folder's chunks by index raises exactly when the folder
      fails `FolderSortable`, whatever the listing order. */
  lemma FolderSortableIff(folder: Folder, order: seq<int>, status: string)
    requires Enumerates(order, folder.Keys)
    ensures Orderable(IndexKeys(Tagged(folder, order, status))) <==> FolderSortable(folder)
  {
    var t := Tagged(folder, order, status);
    EnumeratedLength(order, folder.Keys);
    FolderKind(folder, order, status, true);
    FolderKind(folder, order, status, false);
    ConcatOrderable(t, []);
    assert t + [] == t;
  }

  /** The listing of a folder has keys of one kind exactly when the folder has. */
  lemma FolderKind(folder: Folder, order: seq<int>, status: string, isInt: bool)
    requires Enumerates(order, folder.Keys)
    ensures AllListedOf(Tagged(folder, order, status), isInt) <==> AllKeysOf(folder, isInt)
  {
    var t := Tagged(folder, order, status);
    TaggedKeys(folder, order, status);
    if AllListedOf(t, isInt) {
      forall i | i in folder ensures OfKind(IndexKey(folder[i]), isInt) {
        var j :| 0 <= j < |order| && order[j] == i;
        assert IndexKey(t[j]) == IndexKey(folder[i]);
      }
    }
  }

  /** Two listings joined can be sorted exactly when there are fewer than
      two entries or both listings have keys of one and the same kind. */
  lemma ConcatOrderable(x: seq<Meta>, y: seq<Meta>)
    ensures Orderable(IndexKeys(x + y)) <==>
      || |x| + |y| <= 1
      || (AllListedOf(x, true) && AllListedOf(y, true))
      || (AllListedOf(x, false) && AllListedOf(y, false))
  {
    ConcatKind(x, y, true);
    ConcatKind(x, y, false);
  }

  /** The keys of two listings joined are of one kind exactly when each
      listing's are. */
  lemma ConcatKind(x: seq<Meta>, y: seq<Meta>, isInt: bool)
    ensures (forall k :: 0 <= k < |IndexKeys(x + y)| ==> OfKind(IndexKeys(x + y)[k], isInt))
        <==> (AllListedOf(x, isInt) && AllListedOf(y, isInt))
  {
    var keys := IndexKeys(x + y);
    assert forall j :: 0 <= j < |x| ==> keys[j] == IndexKey(x[j]);
    assert forall j :: 0 <= j < |y| ==> keys[|x| + j] == IndexKey(y[j]);
    if AllListedOf(x, isInt) && AllListedOf(y, isInt) {
      forall k | 0 <= k < |keys| ensures OfKind(keys[k], isInt) {
        if k >= |x| {
          assert keys[k] == IndexKey(y[k - |x|]);
        }
      }
    }
  }

  /** A permutation of two listings, the first all pending and the second
      all approved, holds each of their entries and only those. */
  lemma MergeFacts(tp: seq<Meta>, ta: seq<Meta>, r: seq<Meta>)
    requires multiset(r) == multiset(tp + ta)
    requires forall m :: m in tp ==> Holds(m, "status", VStr("pending"))
    requires forall m :: m in ta ==> Holds(m, "status", VStr("approved"))
    ensures |r| == |tp| + |ta|
    ensures forall m :: m in r ==> Holds(m, "status", VStr("pending")) || Holds(m, "status", VStr("approved"))
    ensures forall m :: m in tp ==> m in r
    ensures forall m :: m in ta ==> m in r
  {
    assert |r| == |multiset(r)| == |multiset(tp + ta)| == |tp + ta|;
    SameElements(r, tp + ta);
  }
}

=== FILE: cleaning.dfy ===
/** The cleaning routes: cleaners see the approved raw texts, submit a
    cleaned version of one of them into the pending cleaned directory, list
    the pending and approved cleaned sidecars, and read a cleaned file back.
    The fresh submission id and the clock are parameters. */
module Cleaning {
  import opened Json
  import opened Text
  import opened Http
  import opened Store
  import opened Queue
  import Schemas

  // ---------------------------------------------------------------------------
  // The raw files offered for cleaning
  // ---------------------------------------------------------------------------

  /** How far the cleaning of a raw file has got, judged by the text files
      of the cleaned stage: an approved cleaned text wins over a pending one. */
  function CleaningStatus(s: Store, name: string): (r: string)
    ensures r == "approved" <==> name in s.cleaned.approved.content
    ensures r == "pending" <==> name !in s.cleaned.approved.content && name in s.cleaned.pending.content
    ensures r == "not_started" <==> name !in s.cleaned.approved.content && name !in s.cleaned.pending.content
  {
    if name in s.cleaned.approved.content then "approved"
    else if name in s.cleaned.pending.content then "pending"
    else "not_started"
  }

  /** The preview shown for a raw text: the text itself up to 200
      characters, otherwise its first 200 characters followed by `...`. */
  function ContentPreview(content: string): (r: string)
    ensures |content| <= 200 ==> r == content
    ensures |content| > 200 ==> |r| == 203 && r[..200] == content[..200] && r[200..] == "..."
  {
    if |content| > 200 then content[..200] + "..." else content
  }

  /** One entry of the raw-file listing. */
  datatype RawEntry = RawEntry(
    filename: string,
    language: Value,
    source: Value,
    contentLength: nat,
    contentPreview: string,
    content: string,
    cleaningStatus: string)

  /** `GET /api/cleaning/raw-files`, keyed by file name: one entry per
      approved raw text, with the language and source of its sidecar
      (`ta` and `unknown` when absent) and its cleaning status. */
  function ListRawFiles(s: Store): (r: map<string, RawEntry>)
    ensures r.Keys == s.raw.approved.content.Keys
    ensures forall f :: f in r ==>
      && r[f].filename == f
      && r[f].content == s.raw.approved.content[f]
      && r[f].contentLength == |s.raw.approved.content[f]|
      && r[f].contentPreview == ContentPreview(s.raw.approved.content[f])
      && r[f].cleaningStatus == CleaningStatus(s, f)
    ensures forall f :: f in r ==>
      var meta := if f in s.raw.approved.meta then s.raw.approved.meta[f] else map[];
      && r[f].language == (if "language" in meta then meta["language"] else VStr("ta"))
      && r[f].source == (if "source" in meta then meta["source"] else VStr("unknown"))
  {
    var d := s.raw.approved;
    map f | f in d.content ::
      var meta := if f in d.meta then d.meta[f] else map[];
      var content := d.content[f];
      RawEntry(f, GetOr(meta, "language", VStr("ta")), GetOr(meta, "source", VStr("unknown")),
               |content|, ContentPreview(content), content, CleaningStatus(s, f))
  }

  // ---------------------------------------------------------------------------
  // Submission
  // ---------------------------------------------------------------------------

  /** The sidecar of a new cleaned text: language, source and raw id are
      copied from the approved raw sidecar (`ta`, `unknown` and `''` when
      absent). */
  function CleanedMetadata(filename: string, rawMeta: Meta, contentLength: nat, id: string, now: string): Meta {
    map[
      "id" := VStr(id),
      "filename" := VStr(filename),
      "language" := GetOr(rawMeta, "language", VStr("ta")),
      "source" := GetOr(rawMeta, "source", VStr("unknown")),
      "original_raw_id" := GetOr(rawMeta, "id", VStr("")),
      "content_length" := VInt(contentLength),
      "submitted_at" := VStr(now),
      "status" := VStr("pending"),
      "submitted_by" := VStr("cleaner")
    ]
  }

  /** The cleaned sidecar has exactly its nine keys. */
  lemma CleanedMetadataKeys(filename: string, rawMeta: Meta, contentLength: nat, id: string, now: string)
    ensures CleanedMetadata(filename, rawMeta, contentLength, id, now).Keys
         == {"id", "filename", "language", "source", "original_raw_id", "content_length",
             "submitted_at", "status", "submitted_by"}
  {
  }

  /** The route's sidecar is the schema's metadata view of a pending
      cleaned record whose language, source and raw id are the strings the
      raw sidecar carries, less the approval fields. */
  lemma MetadataMatchesSchema(c: Schemas.CleanedData, rawMeta: Meta)
    requires Holds(rawMeta, "language", VStr(c.language))
    requires Holds(rawMeta, "source", VStr(c.source))
    requires c.originalRawId.Some? && Holds(rawMeta, "id", VStr(c.originalRawId.value))
    requires c.contentLength == |c.content| && c.status == "pending" && c.submittedBy == "cleaner"
    ensures CleanedMetadata(c.filename, rawMeta, |c.content|, c.id, c.submittedAt)
         == Schemas.CleanedToMetadata(c) - {"approved_at", "approved_by"}
  {
    var m := CleanedMetadata(c.filename, rawMeta, |c.content|, c.id, c.submittedAt);
    var d := Schemas.CleanedToDict(c);
    var v := Schemas.CleanedToMetadata(c) - {"approved_at", "approved_by"};
    CleanedMetadataKeys(c.filename, rawMeta, |c.content|, c.id, c.submittedAt);
    Schemas.CleanedToDictKeys(c);
    SidecarKeysInSchema();
    assert v.Keys == m.Keys;
    LookupsMatchIds(c, rawMeta);
    LookupsMatchOrigin(c, rawMeta);
    LookupsMatchSubmission(c, rawMeta);
    AgreeOnSidecarKeys(m, d);
    Json.SameEntries(m, v);
  }

  /** The keys of the cleaned sidecar. */
  const SidecarKeys: set<string> := {
    "id", "filename", "language", "source", "original_raw_id", "content_length",
    "submitted_at", "status", "submitted_by"
  }

  lemma SidecarKeysInSchema()
    ensures SidecarKeys == Schemas.CleanedFields - {"content"} - {"approved_at", "approved_by"}
  {
  }

  lemma LookupsMatchIds(c: Schemas.CleanedData, rawMeta: Meta)
    requires c.status == "pending"
    ensures var m := CleanedMetadata(c.filename, rawMeta, |c.content|, c.id, c.submittedAt);
      var d := Schemas.CleanedToDict(c);
      m["id"] == d["id"] && m["filename"] == d["filename"] && m["status"] == d["status"]
  {
  }

  lemma LookupsMatchOrigin(c: Schemas.CleanedData, rawMeta: Meta)
    requires Holds(rawMeta, "language", VStr(c.language))
    requires Holds(rawMeta, "source", VStr(c.source))
    requires c.originalRawId.Some? && Holds(rawMeta, "id", VStr(c.originalRawId.value))
    ensures var m := CleanedMetadata(c.filename, rawMeta, |c.content|, c.id, c.submittedAt);
      var d := Schemas.CleanedToDict(c);
      m["language"] == d["language"] && m["source"] == d["source"] && m["original_raw_id"] == d["original_raw_id"]
  {
  }

  lemma LookupsMatchSubmission(c: Schemas.CleanedData, rawMeta: Meta)
    requires c.contentLength == |c.content| && c.submittedBy == "cleaner"
    ensures var m := CleanedMetadata(c.filename, rawMeta, |c.content|, c.id, c.submittedAt);
      var d := Schemas.CleanedToDict(c);
      m["content_length"] == d["content_length"] && m["submitted_at"] == d["submitted_at"]
      && m["submitted_by"] == d["submitted_by"]
  {
  }

  /** Two objects agree on every sidecar key once they agree on each of the nine. */
  lemma AgreeOnSidecarKeys(m: Meta, d: Meta)
    requires m.Keys == SidecarKeys && SidecarKeys <= d.Keys
    requires m["id"] == d["id"] && m["filename"] == d["filename"] && m["status"] == d["status"]
    requires m["language"] == d["language"] && m["source"] == d["source"] && m["original_raw_id"] == d["original_raw_id"]
    requires m["content_length"] == d["content_length"] && m["submitted_at"] == d["submitted_at"]
    requires m["submitted_by"] == d["submitted_by"]
    ensures forall k :: k in m ==> m[k] == d[k]
  {
  }

  /** When a cleaned submission is accepted: both fields are present (their
      truthiness is not checked), the filename is a string whose stripped
      form names an approved raw text, the content is a string, and no
      pending cleaned text of that name exists. */
  predicate Accepts(s: Store, data: Meta) {
    && "filename" in data && "content" in data
    && data["filename"].VStr?
    && Strip(data["filename"].s) in s.raw.approved.content
    && data["content"].VStr?
    && Strip(data["filename"].s) !in s.cleaned.pending.content
  }

  /** `POST /api/cleaning/submit`. Checks, in order: both keys present
      (400), a string filename (500), an approved raw text of the stripped
      name (404), a content that has a length (500), no pending cleaned
      text of that name (409); then writes the text and the sidecar. A
      content that has a length but is not a string leaves an empty text
      file behind before the write raises (500). */
  function Submit(s: Store, data: Meta, id: string, now: string): (r: Step<Outcome<Submitted>>)
    ensures r.out.Done? <==> Accepts(s, data)
    ensures r.out.Done? ==>
      var name := Strip(data["filename"].s);
      var content := data["content"].s;
      var rawMeta := if name in s.raw.approved.meta then s.raw.approved.meta[name] else map[];
      && r.out.value == Submitted(id, name)
      && r.store == s.(cleaned := s.cleaned.(pending := s.cleaned.pending.(
           content := s.cleaned.pending.content[name := content],
           meta := s.cleaned.pending.meta[name := CleanedMetadata(name, rawMeta, |content|, id, now)])))
    ensures ("filename" !in data || "content" !in data) ==> r == Step(Fail(BadRequest), s)
    ensures r.out == Fail(NotFound) <==>
      && "filename" in data && "content" in data && data["filename"].VStr?
      && Strip(data["filename"].s) !in s.raw.approved.content
    ensures r.out == Fail(BadRequest) <==> "filename" !in data || "content" !in data
    ensures r.out == Fail(Conflict) <==>
      && "filename" in data && "content" in data && data["filename"].VStr?
      && Strip(data["filename"].s) in s.raw.approved.content
      && Len(data["content"]).Some? && Strip(data["filename"].s) in s.cleaned.pending.content
    ensures r.out == Fail(ServerError) <==>
      && "filename" in data && "content" in data
      && (|| !data["filename"].VStr?
          || (&& Strip(data["filename"].s) in s.raw.approved.content
              && (Len(data["content"]).None?
                  || (Strip(data["filename"].s) !in s.cleaned.pending.content && !data["content"].VStr?))))
    ensures r.out.Fail? && r.out.code != ServerError ==> r.store == s
    ensures r.out == Fail(ServerError) ==>
      || r.store == s
      || (&& data["filename"].VStr?
          && r.store == s.(cleaned := s.cleaned.(pending := s.cleaned.pending.(
               content := s.cleaned.pending.content[Strip(data["filename"].s) := ""]))))
    ensures r.store.raw == s.raw && r.store.chunked == s.chunked && r.store.cleaned.approved == s.cleaned.approved
    ensures r.store.cleaned.pending.content.Keys <= s.cleaned.pending.content.Keys + s.raw.approved.content.Keys
  {
    if "filename" !in data || "content" !in data then Step(Fail(BadRequest), s)
    else if !data["filename"].VStr? then Step(Fail(ServerError), s)
    else
      var name := Strip(data["filename"].s);
      var content := data["content"];
      if name !in s.raw.approved.content then Step(Fail(NotFound), s)
      else
        var rawMeta := if name in s.raw.approved.meta then s.raw.approved.meta[name] else map[];
        var length := Len(content);
        if length.None? then Step(Fail(ServerError), s)
        else if name in s.cleaned.pending.content then Step(Fail(Conflict), s)
        else if !content.VStr? then
          Step(Fail(ServerError), s.(cleaned := s.cleaned.(pending := s.cleaned.pending.(content := s.cleaned.pending.content[name := ""]))))
        else
          var meta := CleanedMetadata(name, rawMeta, length.value, id, now);
          Step(Done(Submitted(id, name)),
               s.(cleaned := s.cleaned.(pending := s.cleaned.pending.(content := s.cleaned.pending.content[name := content.s],
                                                                   meta := s.cleaned.pending.meta[name := meta]))))
  }

  /** After a cleaned submission the raw listing reports the file as being
      cleaned (or as cleaned, when an approved cleaned text already existed),
      and the cleaned sidecar points back at the raw file's id. */
  lemma SubmitThenStatus(s: Store, data: Meta, id: string, now: string)
    requires Accepts(s, data)
    ensures var name := Strip(data["filename"].s);
      var s' := Submit(s, data, id, now).store;
      && CleaningStatus(s', name) == (if name in s.cleaned.approved.content then "approved" else "pending")
      && name in s'.cleaned.pending.meta
      && Holds(s'.cleaned.pending.meta[name], "original_raw_id",
               GetOr(if name in s.raw.approved.meta then s.raw.approved.meta[name] else map[], "id", VStr("")))
  {
  }

  /** A cleaned submission for an approved raw text whose name is already
      pending in the cleaned stage is refused with 409, changing nothing. */
  lemma SubmitConflicts(s: Store, data: Meta, id: string, now: string)
    requires "filename" in data && "content" in data && data["filename"].VStr?
    requires Strip(data["filename"].s) in s.raw.approved.content && Len(data["content"]).Some?
    requires Strip(data["filename"].s) in s.cleaned.pending.content
    ensures Submit(s, data, id, now) == Step(Fail(Conflict), s)
  {
  }

  /** `GET /api/cleaning/pending`: every pending cleaned sidecar, newest
      submission first; 500 when the submission times cannot be compared. */
  function ListPending(s: Store, order: seq<string>): (r: Outcome<seq<Meta>>)
    requires Enumerates(order, s.cleaned.pending.meta.Keys)
    ensures r.Done? <==> SortableBy(s.cleaned.pending, "submitted_at")
    ensures r.Fail? ==> r.code == ServerError
    ensures r.Done? ==>
      && |r.value| == |s.cleaned.pending.meta|
      && (forall i :: 0 < i < |r.value| ==> KeyLe(TimeKey(r.value[i], "submitted_at"), TimeKey(r.value[i - 1], "submitted_at")))
      && (forall m :: m in r.value <==> exists f :: f in s.cleaned.pending.meta && s.cleaned.pending.meta[f] == m)
  {
    ListNewestFirst(s.cleaned.pending, order, "submitted_at")
  }

  /** `GET /api/cleaning/approved`: every approved cleaned sidecar, newest
      approval first; 500 when the approval times cannot be compared. */
  function ListApproved(s: Store, order: seq<string>): (r: Outcome<seq<Meta>>)
    requires Enumerates(order, s.cleaned.approved.meta.Keys)
    ensures r.Done? <==> SortableBy(s.cleaned.approved, "approved_at")
    ensures r.Fail? ==> r.code == ServerError
    ensures r.Done? ==>
      && |r.value| == |s.cleaned.approved.meta|
      && (forall i :: 0 < i < |r.value| ==> KeyLe(TimeKey(r.value[i], "approved_at"), TimeKey(r.value[i - 1], "approved_at")))
      && (forall m :: m in r.value <==> exists f :: f in s.cleaned.approved.meta && s.cleaned.approved.meta[f] == m)
  {
    ListNewestFirst(s.cleaned.approved, order, "approved_at")
  }

  /** `GET /api/cleaning/file/<filename>`: the pending text first, then the
      approved one, each with the sidecar of its directory; 404 when neither
      exists, 500 when the text found has no sidecar. */
  function GetFileContent(s: Store, filename: string): (r: Outcome<Located>)
    ensures r == Fail(NotFound) <==> filename !in s.cleaned.pending.content && filename !in s.cleaned.approved.content
    ensures filename in s.cleaned.pending.content && filename in s.cleaned.pending.meta ==>
      r == Done(Located(s.cleaned.pending.content[filename], s.cleaned.pending.meta[filename], "pending"))
    ensures filename !in s.cleaned.pending.content && filename in s.cleaned.approved.content && filename in s.cleaned.approved.meta ==>
      r == Done(Located(s.cleaned.approved.content[filename], s.cleaned.approved.meta[filename], "approved"))
    ensures r == Fail(ServerError) <==>
      || (filename in s.cleaned.pending.content && filename !in s.cleaned.pending.meta)
      || (filename !in s.cleaned.pending.content && filename in s.cleaned.approved.content && filename !in s.cleaned.approved.meta)
  {
    LookupPendingFirst(s.cleaned, filename)
  }

  /** A cleaned submission reads back from the pending directory. */
  lemma SubmitThenRead(s: Store, data: Meta, id: string, now: string)
    requires Accepts(s, data)
    ensures var r := Submit(s, data, id, now);
      var read := GetFileContent(r.store, Strip(data["filename"].s));
      read.Done? && read.value.location == "pending" && read.value.content == data["content"].s
  {
  }
}

=== FILE: http.dfy ===
/** The uniform reply envelope of the HTTP routes: either success with a
    payload, or one of the error statuses the routes return. */
module Http {

  datatype Code = BadRequest | NotFound | Conflict | ServerError {
    /** The HTTP status the route answers with. */
    function Status(): nat {
      match this
      case BadRequest => 400
      case NotFound => 404
      case Conflict => 409
      case ServerError => 500
    }
  }

  /** `ServerError` stands for an exception the route's `try` turns into a 500. */
  datatype Outcome<+T> = Done(value: T) | Fail(code: Code)
}

=== FILE: json.dfy ===
/** JSON values as the platform reads and writes them: metadata sidecar
    files, chunk files and request bodies are all JSON objects. */
module Json {
  import opened Text

  datatype Option<+T> = None | Some(value: T)

  datatype Value =
    | VStr(s: string)
    | VInt(i: int)
    | VNull
    | VList(items: seq<Value>)
    | VObj(fields: map<string, Value>)

  /** A JSON object: a metadata file, a chunk file or a request body. */
  type Meta = map<string, Value>

  /** Python truthiness of a decoded JSON value. */
  predicate Falsy(v: Value) {
    match v
    case VStr(s) => s == ""
    case VInt(i) => i == 0
    case VNull => true
    case VList(items) => items == []
    case VObj(fields) => fields == map[]
  }

  /** `key not in data or not data[key]`: how the routes test required fields. */
  predicate MissingOrFalsy(data: Meta, key: string) {
    key !in data || Falsy(data[key])
  }

  /** `m[key] == v`, with the key present. */
  predicate Holds(m: Meta, key: string, v: Value) {
    key in m && m[key] == v
  }

  /** Two objects with the same keys and the same value under each key are equal. */
  lemma SameEntries(a: Meta, b: Meta)
    requires a.Keys == b.Keys
    requires forall k :: k in a ==> a[k] == b[k]
    ensures a == b
  {
  }

  /** `data.get(key, default)`. */
  function GetOr(data: Meta, key: string, default: Value): Value {
    if key in data then data[key] else default
  }

  /** The string inside a JSON string value; `None` for any other value
      (where the source calls a string method and raises). */
  function AsStr(v: Value): Option<string> {
    if v.VStr? then Some(v.s) else None
  }

  /** Python's `len(v)`: defined on strings, lists and objects; `None` where
      `len` raises. */
  function Len(v: Value): (n: Option<nat>)
    ensures n.Some? <==> v.VStr? || v.VList? || v.VObj?
    ensures v.VStr? ==> n == Some(|v.s|)
  {
    match v
    case VStr(s) => Some(|s|)
    case VList(items) => Some(|items|)
    case VObj(fields) => Some(|fields|)
    case _ => None
  }

  /** `str(v)`, as an f-string renders a value. */
  function Render(v: Value): string {
    match v
    case VStr(s) => s
    case VInt(i) => if i < 0 then "-" + Digits(-i) else Digits(i)
    case VNull => "None"
    case VList(_) => "[...]"
    case VObj(_) => "{...}"
  }

  /** `str` of a string is the string, and `str` of an int reads back as
      that int. */
  lemma RenderRoundTrip(s: string, i: int)
    ensures Render(VStr(s)) == s
    ensures ParsePad(Render(VInt(i))) == i
  {
    var r := Render(VInt(i));
    if i < 0 {
      assert r[0] == '-' && r[1..] == Digits(-i);
      ParseDigitsRoundTrip(-i);
    } else {
      assert r == Digits(i) && AllDigits(r);
      assert r[0] != '-' by {
        assert IsDigitChar(r[0]);
      }
      ParseDigitsRoundTrip(i);
    }
  }

  // ---------------------------------------------------------------------------
  // Sort keys
  // ---------------------------------------------------------------------------

  /** How Python orders two sort keys: ints by value, strings by code
      points. Python refuses to compare any other pair; here they are ranked
      by kind (ints, then strings, then the rest) so that the relation is
      total, and `Orderable` says when the refusal cannot happen. */
  predicate KeyLe(a: Value, b: Value) {
    if a.VInt? && b.VInt? then a.i <= b.i
    else if a.VStr? && b.VStr? then LexLe(a.s, b.s)
    else KeyRank(a) <= KeyRank(b)
  }

  function KeyRank(v: Value): nat {
    if v.VInt? then 0 else if v.VStr? then 1 else 2
  }

  lemma KeyLeTotal(a: Value, b: Value)
    ensures KeyLe(a, b) || KeyLe(b, a)
  {
    if a.VStr? && b.VStr? {
      LexLeTotal(a.s, b.s);
    }
  }

  /** Sorting keys compares them pairwise once there are two of them, and
      Python raises `TypeError` unless they are all ints or all strings. */
  predicate Orderable(keys: seq<Value>) {
    || |keys| <= 1
    || (forall i :: 0 <= i < |keys| ==> keys[i].VInt?)
    || (forall i :: 0 <= i < |keys| ==> keys[i].VStr?)
  }

  /** On keys Python can compare, `KeyLe` is Python's own `<=`: between
      ints and between strings, and never between keys of different kinds. */
  lemma KeyLeOnOrderable(keys: seq<Value>, i: int, j: int)
    requires Orderable(keys) && 0 <= i < |keys| && 0 <= j < |keys| && i != j
    ensures keys[i].VInt? <==> keys[j].VInt?
    ensures keys[i].VStr? <==> keys[j].VStr?
    ensures keys[i].VInt? || keys[i].VStr?
  {
  }
}

=== FILE: lifecycle.dfy ===
/** The review lifecycle across the routes that change the data directory:
    every route request is one step, and two facts hold of every sequence
    of steps. Approved data is never withdrawn by a route, and data of a
    later stage always derives from approved data of the stage before it. */
module Lifecycle {
  import opened Json
  import opened Text
  import opened Http
  import opened Store
  import RawData
  import Cleaning
  import Chunking
  import Admin

  /** A request to a route that can change the data directory. The clock
      reading and the fresh submission id travel with the request. */
  datatype Request =
    | RawSubmit(data: Meta, id: string)
    | CleanedSubmit(data: Meta, id: string)
    | ChunkSubmit(data: Meta)
    | ChunkBatch(data: Meta)
    | ChunkDelete(filename: string, index: nat)
    | AdminUpdate(data: Meta)
    | AdminApprove(data: Meta)
    | AdminReject(data: Meta)
    | AdminApproveAll(data: Meta)

  /** The directory after one request, whatever its reply. Single chunk
      submissions pick their index by `rule`: as the routes do, or corrected. */
  function Apply(rule: Chunking.IndexRule, s: Store, req: Request, now: string): Store {
    match req
    case RawSubmit(data, id) => RawData.Submit(s, data, id, now).store
    case CleanedSubmit(data, id) => Cleaning.Submit(s, data, id, now).store
    case ChunkSubmit(data) => Chunking.SubmitWith(rule, s, data, now).store
    case ChunkBatch(data) => Chunking.SubmitBatch(s, data, now).store
    case ChunkDelete(filename, index) => Chunking.DeleteChunk(s, filename, index).store
    case AdminUpdate(data) => Admin.Update(s, data, now).store
    case AdminApprove(data) => Admin.Approve(s, data, now).store
    case AdminReject(data) => Admin.Reject(s, data).store
    case AdminApproveAll(data) => Admin.ApproveAll(s, data, now).store
  }

  /** The directory after a sequence of requests, the i-th at clock reading `clock[i]`. */
  function Run(rule: Chunking.IndexRule, s: Store, reqs: seq<Request>, clock: seq<string>): Store
    requires |clock| == |reqs|
    decreases |reqs|
  {
    if reqs == [] then s
    else Run(rule, Apply(rule, s, reqs[0], clock[0]), reqs[1..], clock[1..])
  }

  // ---------------------------------------------------------------------------
  // Approved data only grows
  // ---------------------------------------------------------------------------

  /** Everything approved in `s` is still approved in `s'`: the approved
      texts of both text stages by name, the approved chunks by folder and
      index. Contents may be rewritten by a later approval of the same name. */
  predicate ApprovedKept(s: Store, s': Store) {
    && s.raw.approved.content.Keys <= s'.raw.approved.content.Keys
    && s.cleaned.approved.content.Keys <= s'.cleaned.approved.content.Keys
    && ChunkFiles(s.chunked.approved.folders) <= ChunkFiles(s'.chunked.approved.folders)
  }

  /** Writing a chunk keeps every chunk file there was. */
  lemma PutChunkKeepsFiles(d: Dir, f: string, index: int, chunk: Meta)
    ensures ChunkFiles(d.folders) <= ChunkFiles(PutChunk(d, f, index, chunk).folders)
  {
    var d' := PutChunk(d, f, index, chunk);
    forall x | x in ChunkFiles(d.folders) ensures x in ChunkFiles(d'.folders) {
      assert x.0 in d'.folders && x.1 in d'.folders[x.0];
    }
  }

  lemma ApproveKeepsApproved(s: Store, data: Meta, now: string)
    ensures ApprovedKept(s, Admin.Approve(s, data, now).store)
  {
    var r := Admin.Approve(s, data, now);
    if r.out.Done? && data["type"] == VStr("chunk") {
      var f := data["filename"].s;
      var i := data["chunk_index"].i;
      PutChunkKeepsFiles(s.chunked.approved, f, i, Admin.ApprovalStamp(s.chunked.pending.folders[f][i], now));
    } else if r.out.Done? {
      var k := Admin.TextKind(data["type"]).value;
      assert StageOf(s, k).approved.content.Keys <= StageOf(r.store, k).approved.content.Keys;
    }
  }

  lemma ApproveAllKeepsApproved(s: Store, data: Meta, now: string)
    ensures ApprovedKept(s, Admin.ApproveAll(s, data, now).store)
  {
    var r := Admin.ApproveAll(s, data, now);
    if r.out.Done? && data["type"] == VStr("chunks") && data["filename"].VStr? {
      var f := data["filename"].s;
      var a := s.chunked.approved;
      var a' := r.store.chunked.approved;
      forall x | x in ChunkFiles(a.folders) ensures x in ChunkFiles(a'.folders) {
        if x.0 == f {
          assert x.1 in FolderOf(a, f);
        } else {
          assert x.0 in (a'.folders - {f});
        }
      }
    } else if r.out.Done? && Admin.TextKind(data["type"]).Some? {
      var k := Admin.TextKind(data["type"]).value;
      assert StageOf(s, k).approved.content.Keys <= StageOf(r.store, k).approved.content.Keys;
    }
  }

  lemma RawSubmitKeepsApproved(s: Store, data: Meta, id: string, now: string)
    ensures ApprovedKept(s, RawData.Submit(s, data, id, now).store)
  {
  }

  lemma CleanedSubmitKeepsApproved(s: Store, data: Meta, id: string, now: string)
    ensures ApprovedKept(s, Cleaning.Submit(s, data, id, now).store)
  {
  }

  lemma ChunkSubmitKeepsApproved(rule: Chunking.IndexRule, s: Store, data: Meta, now: string)
    ensures ApprovedKept(s, Chunking.SubmitWith(rule, s, data, now).store)
  {
  }

  lemma BatchKeepsApproved(s: Store, data: Meta, now: string)
    ensures ApprovedKept(s, Chunking.SubmitBatch(s, data, now).store)
  {
  }

  lemma DeleteKeepsApproved(s: Store, filename: string, index: nat)
    ensures ApprovedKept(s, Chunking.DeleteChunk(s, filename, index).store)
  {
  }

  lemma UpdateKeepsApproved(s: Store, data: Meta, now: string)
    ensures ApprovedKept(s, Admin.Update(s, data, now).store)
  {
    var r := Admin.Update(s, data, now);
    assert r.store.raw.approved == s.raw.approved;
  }

  lemma RejectKeepsApproved(s: Store, data: Meta)
    ensures ApprovedKept(s, Admin.Reject(s, data).store)
  {
  }

  /** No route request withdraws anything approved. */
  lemma ApplyKeepsApproved(rule: Chunking.IndexRule, s: Store, req: Request, now: string)
    ensures ApprovedKept(s, Apply(rule, s, req, now))
  {
    match req
    case RawSubmit(data, id) => RawSubmitKeepsApproved(s, data, id, now);
    case CleanedSubmit(data, id) => CleanedSubmitKeepsApproved(s, data, id, now);
    case ChunkSubmit(data) => ChunkSubmitKeepsApproved(rule, s, data, now);
    case ChunkBatch(data) => BatchKeepsApproved(s, data, now);
    case ChunkDelete(filename, index) => DeleteKeepsApproved(s, filename, index);
    case AdminUpdate(data) => UpdateKeepsApproved(s, data, now);
    case AdminApprove(data) => ApproveKeepsApproved(s, data, now);
    case AdminReject(data) => RejectKeepsApproved(s, data);
    case AdminApproveAll(data) => ApproveAllKeepsApproved(s, data, now);
  }

  /** Along any sequence of requests, everything approved stays approved. */
  lemma {:induction false} RunKeepsApproved(rule: Chunking.IndexRule, s: Store, reqs: seq<Request>, clock: seq<string>)
    requires |clock| == |reqs|
    ensures ApprovedKept(s, Run(rule, s, reqs, clock))
    decreases |reqs|
  {
    if reqs != [] {
      var s1 := Apply(rule, s, reqs[0], clock[0]);
      ApplyKeepsApproved(rule, s, reqs[0], clock[0]);
      RunKeepsApproved(rule, s1, reqs[1..], clock[1..]);
    }
  }

  // ---------------------------------------------------------------------------
  // Lineage
  // ---------------------------------------------------------------------------

  /** Every cleaned text carries the name of an approved raw text, and every
      chunk folder, pending or approved, the name of an approved cleaned text. */
  predicate Lineage(s: Store) {
    && s.cleaned.pending.content.Keys <= s.raw.approved.content.Keys
    && s.cleaned.approved.content.Keys <= s.raw.approved.content.Keys
    && s.chunked.pending.folders.Keys <= s.cleaned.approved.content.Keys
    && s.chunked.approved.folders.Keys <= s.cleaned.approved.content.Keys
  }

  /** The data directory of a fresh deployment: six empty directories. */
  function EmptyStore(): Store {
    var d := Dir(map[], map[], map[]);
    Store(Stage(d, d), Stage(d, d), Stage(d, d))
  }

  lemma UpdateKeepsLineage(s: Store, data: Meta, now: string)
    requires Lineage(s)
    ensures Lineage(Admin.Update(s, data, now).store)
  {
    var r := Admin.Update(s, data, now);
    if "type" in data && "filename" in data && Admin.TextKind(data["type"]).Some? {
      var k := Admin.TextKind(data["type"]).value;
      assert r == Admin.UpdateText(s, k, Render(data["filename"]), data, now);
      assert StageOf(r.store, k).pending.content.Keys == StageOf(s, k).pending.content.Keys;
    } else if "type" in data && "filename" in data && data["type"] == VStr("chunk") && r.store != s {
      var f := data["filename"].s;
      assert f in s.chunked.pending.folders;
    }
  }

  lemma ApproveKeepsLineage(s: Store, data: Meta, now: string)
    requires Lineage(s)
    ensures Lineage(Admin.Approve(s, data, now).store)
  {
    var r := Admin.Approve(s, data, now);
    if r.out.Done? && data["type"] == VStr("chunk") {
      assert data["filename"].s in s.chunked.pending.folders;
    } else if r.out.Done? {
      var k := Admin.TextKind(data["type"]).value;
      var name := Render(data["filename"]);
      assert name in StageOf(s, k).pending.content;
    }
  }

  lemma ApproveAllKeepsLineage(s: Store, data: Meta, now: string)
    requires Lineage(s)
    ensures Lineage(Admin.ApproveAll(s, data, now).store)
  {
    var r := Admin.ApproveAll(s, data, now);
    if r.out.Done? && Admin.TextKind(data["type"]).Some? {
      var k := Admin.TextKind(data["type"]).value;
      var st := StageOf(s, k);
      assert StageOf(r.store, k) == Admin.ApproveAllTexts(st, now).0;
      forall f | f in StageOf(r.store, k).approved.content
        ensures f in st.approved.content || f in st.pending.content
      {
        if f !in Admin.Movable(st.pending) {
          assert f in st.approved.content;
        }
      }
    }
  }

  lemma ChunkSubmitKeepsLineage(rule: Chunking.IndexRule, s: Store, data: Meta, now: string)
    requires Lineage(s)
    ensures Lineage(Chunking.SubmitWith(rule, s, data, now).store)
  {
    var r := Chunking.SubmitWith(rule, s, data, now);
    if r.out.Done? {
      var name := Strip(data["filename"].s);
      var index := Chunking.IndexFor(rule, s, name);
      var chunk := Chunking.ChunkRecord(Chunking.RequestOf(data), Chunking.LanguageOf(s, name), name, index, now);
      UpdateKeys(s.chunked.pending.folders, name, FolderOf(s.chunked.pending, name)[index := chunk]);
    }
  }

  lemma RawSubmitKeepsLineage(s: Store, data: Meta, id: string, now: string)
    requires Lineage(s)
    ensures Lineage(RawData.Submit(s, data, id, now).store)
  {
  }

  lemma CleanedSubmitKeepsLineage(s: Store, data: Meta, id: string, now: string)
    requires Lineage(s)
    ensures Lineage(Cleaning.Submit(s, data, id, now).store)
  {
  }

  lemma BatchKeepsLineage(s: Store, data: Meta, now: string)
    requires Lineage(s)
    ensures Lineage(Chunking.SubmitBatch(s, data, now).store)
  {
  }

  lemma DeleteKeepsLineage(s: Store, filename: string, index: nat)
    requires Lineage(s)
    ensures Lineage(Chunking.DeleteChunk(s, filename, index).store)
  {
  }

  lemma RejectKeepsLineage(s: Store, data: Meta)
    requires Lineage(s)
    ensures Lineage(Admin.Reject(s, data).store)
  {
    var r := Admin.Reject(s, data);
    assert r.store.chunked.pending.folders.Keys <= s.chunked.pending.folders.Keys;
  }

  /** No route request breaks lineage. */
  lemma ApplyKeepsLineage(rule: Chunking.IndexRule, s: Store, req: Request, now: string)
    requires Lineage(s)
    ensures Lineage(Apply(rule, s, req, now))
  {
    match req
    case RawSubmit(data, id) => RawSubmitKeepsLineage(s, data, id, now);
    case CleanedSubmit(data, id) => CleanedSubmitKeepsLineage(s, data, id, now);
    case ChunkSubmit(data) => ChunkSubmitKeepsLineage(rule, s, data, now);
    case ChunkBatch(data) => BatchKeepsLineage(s, data, now);
    case ChunkDelete(filename, index) => DeleteKeepsLineage(s, filename, index);
    case AdminUpdate(data) => UpdateKeepsLineage(s, data, now);
    case AdminApprove(data) => ApproveKeepsLineage(s, data, now);
    case AdminReject(data) => RejectKeepsLineage(s, data);
    case AdminApproveAll(data) => ApproveAllKeepsLineage(s, data, now);
  }

  /** Every sequence of requests from a directory with lineage ends in one. */
  lemma {:induction false} RunKeepsLineage(rule: Chunking.IndexRule, s: Store, reqs: seq<Request>, clock: seq<string>)
    requires |clock| == |reqs|
    requires Lineage(s)
    ensures Lineage(Run(rule, s, reqs, clock))
    decreases |reqs|
  {
    if reqs != [] {
      ApplyKeepsLineage(rule, s, reqs[0], clock[0]);
      RunKeepsLineage(rule, Apply(rule, s, reqs[0], clock[0]), reqs[1..], clock[1..]);
    }
  }

  /** Whatever requests a fresh deployment serves, every cleaned text and
      every chunk folder traces back to approved data of the stage before. */
  lemma RunFromEmptyHasLineage(rule: Chunking.IndexRule, reqs: seq<Request>, clock: seq<string>)
    requires |clock| == |reqs|
    ensures Lineage(Run(rule, EmptyStore(), reqs, clock))
  {
    RunKeepsLineage(rule, EmptyStore(), reqs, clock);
  }
}

=== FILE: queue.dfy ===
/** Helpers the raw and cleaning routes share: their listings of one
    directory's sidecars, newest first, and their lookup of a file that tries
    the pending directory before the approved one. */
module Queue {
  import opened Json
  import opened Text
  import opened Http
  import opened Store
  import opened Sorting

  /** What a successful submission reports. */
  datatype Submitted = Submitted(submissionId: string, filename: string)

  // ---------------------------------------------------------------------------
  // Listings
  // ---------------------------------------------------------------------------

  /** The sort key `m.get(field, '')`. */
  function TimeKey(m: Meta, field: string): (r: Value)
    ensures field in m ==> r == m[field]
    ensures field !in m ==> r == VStr("")
  {
    GetOr(m, field, VStr(""))
  }

  /** `sort(key=..., reverse=True)`: a sidecar may come first when its key is
      not smaller than the other's. */
  function NewestFirst(field: string): (Meta, Meta) -> bool {
    (a: Meta, b: Meta) => KeyLe(TimeKey(b, field), TimeKey(a, field))
  }

  lemma NewestFirstTotal(field: string)
    ensures Total(NewestFirst(field))
  {
    forall a: Meta, b: Meta ensures NewestFirst(field)(a, b) || NewestFirst(field)(b, a) {
      KeyLeTotal(TimeKey(b, field), TimeKey(a, field));
    }
  }

  /** The sidecars of a directory, in the order the listing names them. */
  function Sidecars(d: Dir, order: seq<string>): (r: seq<Meta>)
    requires forall f :: f in order ==> f in d.meta
    ensures |r| == |order|
    ensures forall i :: 0 <= i < |order| ==> r[i] == d.meta[order[i]]
  {
    seq(|order|, i requires 0 <= i < |order| => d.meta[order[i]])
  }

  /** The sort keys of a listing, in its order. */
  function TimeKeys(ms: seq<Meta>, field: string): (r: seq<Value>)
    ensures |r| == |ms|
    ensures forall i :: 0 <= i < |ms| ==> r[i] == TimeKey(ms[i], field)
  {
    seq(|ms|, i requires 0 <= i < |ms| => TimeKey(ms[i], field))
  }

  /** Python can sort the sidecars of a directory by `field`: there are
      fewer than two, or their keys are all ints or all strings (a missing
      key counts as the string `''`). */
  ghost predicate SortableBy(d: Dir, field: string) {
    || |d.meta| <= 1
    || (forall f :: f in d.meta ==> TimeKey(d.meta[f], field).VInt?)
    || (forall f :: f in d.meta ==> TimeKey(d.meta[f], field).VStr?)
  }

  /** Whether the sort raises does not depend on the listing order. */
  lemma SortableIff(d: Dir, order: seq<string>, field: string)
    requires Enumerates(order, d.meta.Keys)
    ensures Orderable(TimeKeys(Sidecars(d, order), field)) <==> SortableBy(d, field)
  {
    EnumeratedLength(order, d.meta.Keys);
    var keys := TimeKeys(Sidecars(d, order), field);
    assert forall i :: 0 <= i < |order| ==> keys[i] == TimeKey(d.meta[order[i]], field);
    forall f | f in d.meta ensures exists i :: 0 <= i < |keys| && keys[i] == TimeKey(d.meta[f], field) {
      var i :| 0 <= i < |order| && order[i] == f;
      assert keys[i] == TimeKey(d.meta[f], field);
    }
  }

  /** Every sidecar of a directory (`*.meta.json`), newest first by `field`.
      500 when Python's sort would compare keys of different kinds (or
      nulls, lists, objects); otherwise one entry per sidecar, each a
      sidecar of the directory, and each key no smaller than the next. */
  function ListNewestFirst(d: Dir, order: seq<string>, field: string): (r: Outcome<seq<Meta>>)
    requires Enumerates(order, d.meta.Keys)
    ensures r.Done? <==> SortableBy(d, field)
    ensures r.Fail? ==> r.code == ServerError
    ensures r.Done? ==>
      && |r.value| == |d.meta|
      && (forall i :: 0 < i < |r.value| ==> KeyLe(TimeKey(r.value[i], field), TimeKey(r.value[i - 1], field)))
      && multiset(r.value) == multiset(Sidecars(d, order))
      && (forall m :: m in r.value <==> exists f :: f in d.meta && d.meta[f] == m)
  {
    SortableIff(d, order, field);
    var side := Sidecars(d, order);
    if !Orderable(TimeKeys(side, field)) then Fail(ServerError)
    else
      NewestFirstTotal(field);
      EnumeratedLength(order, d.meta.Keys);
      var r := SortBy(side, NewestFirst(field));
      SortedSidecars(d, order, r);
      Done(r)
  }

  /** A permutation of the sidecars of a directory holds exactly those sidecars. */
  lemma SortedSidecars(d: Dir, order: seq<string>, r: seq<Meta>)
    requires Enumerates(order, d.meta.Keys)
    requires multiset(r) == multiset(Sidecars(d, order))
    ensures forall m :: m in r <==> exists f :: f in d.meta && d.meta[f] == m
  {
    var side := Sidecars(d, order);
    forall m ensures m in r <==> exists f :: f in d.meta && d.meta[f] == m {
      assert m in r <==> m in multiset(r);
      assert m in side <==> m in multiset(side);
      if m in side {
        var i :| 0 <= i < |side| && side[i] == m;
        assert order[i] in d.meta && d.meta[order[i]] == m;
      }
      if exists f :: f in d.meta && d.meta[f] == m {
        var f :| f in d.meta && d.meta[f] == m;
        var i :| 0 <= i < |order| && order[i] == f;
        assert side[i] == m;
      }
    }
  }

  // ---------------------------------------------------------------------------
  // Lookup
  // ---------------------------------------------------------------------------

  /** A file read back, with the directory it was found in. */
  datatype Located = Located(content: string, metadata: Meta, location: string)

  /** The file-content routes: the pending directory first, then the
      approved one; 404 when neither holds the text file. The sidecar of the
      directory the text was found in must exist (its absence raises: 500). */
  function LookupPendingFirst(st: Stage, f: string): (r: Outcome<Located>)
    ensures r == Fail(NotFound) <==> f !in st.pending.content && f !in st.approved.content
    ensures r.Done? ==>
      var d := if r.value.location == "pending" then st.pending else st.approved;
      && (r.value.location == "pending" <==> f in st.pending.content)
      && f in d.content && r.value.content == d.content[f]
      && f in d.meta && r.value.metadata == d.meta[f]
    ensures r.Fail? ==> r.code in {NotFound, ServerError}
    ensures f in st.pending.content && f in st.pending.meta ==>
      r == Done(Located(st.pending.content[f], st.pending.meta[f], "pending"))
    ensures f !in st.pending.content && f in st.approved.content && f in st.approved.meta ==>
      r == Done(Located(st.approved.content[f], st.approved.meta[f], "approved"))
    ensures r == Fail(ServerError) <==>
      || (f in st.pending.content && f !in st.pending.meta)
      || (f !in st.pending.content && f in st.approved.content && f !in st.approved.meta)
  {
    if f in st.pending.content then
      if f in st.pending.meta then Done(Located(st.pending.content[f], st.pending.meta[f], "pending"))
      else Fail(ServerError)
    else if f in st.approved.content then
      if f in st.approved.meta then Done(Located(st.approved.content[f], st.approved.meta[f], "approved"))
      else Fail(ServerError)
    else Fail(NotFound)
  }
}

=== FILE: raw_data.dfy ===
/** The raw-data routes: collectors submit texts into the pending raw
    directory, list the pending and approved sidecars, and read a file back.
    The fresh submission id and the clock are parameters. */
module RawData {
  import opened Json
  import opened Text
  import opened Http
  import opened Store
  import opened Queue
  import Schemas

  /** The four request fields a raw submission must carry, each present and truthy. */
  predicate HasRequired(data: Meta) {
    && !MissingOrFalsy(data, "filename")
    && !MissingOrFalsy(data, "language")
    && !MissingOrFalsy(data, "source")
    && !MissingOrFalsy(data, "content")
  }

  /** The sidecar written for a new raw submission. */
  function GenerateMetadata(filename: string, language: Value, source: Value, contentLength: nat,
                            id: string, now: string): Meta
  {
    map[
      "id" := VStr(id),
      "filename" := VStr(filename),
      "language" := language,
      "source" := source,
      "content_length" := VInt(contentLength),
      "submitted_at" := VStr(now),
      "status" := VStr("pending"),
      "submitted_by" := VStr("collector")
    ]
  }

  /** The raw sidecar has exactly its eight keys. */
  lemma GenerateMetadataKeys(filename: string, language: Value, source: Value, contentLength: nat, id: string, now: string)
    ensures GenerateMetadata(filename, language, source, contentLength, id, now).Keys
         == {"id", "filename", "language", "source", "content_length", "submitted_at", "status", "submitted_by"}
  {
  }

  /** The route's sidecar is the schema's metadata view of the same
      submission, less the two approval fields the schema also carries. */
  lemma MetadataMatchesSchema(filename: string, language: string, source: string, content: string,
                              id: string, now: string)
    ensures GenerateMetadata(filename, VStr(language), VStr(source), |content|, id, now)
         == Schemas.RawToMetadata(Schemas.NewRawData(filename, language, source, content, id, now))
            - {"approved_at", "approved_by"}
  {
    var r := Schemas.NewRawData(filename, language, source, content, id, now);
    Schemas.NewRawDataLength(filename, language, source, content, id, now);
    assert r.filename == filename && r.language == language && r.source == source
        && r.id == id && r.submittedAt == now;
    var m := GenerateMetadata(r.filename, VStr(r.language), VStr(r.source), |content|, r.id, r.submittedAt);
    var d := Schemas.RawToDict(r);
    var v := Schemas.RawToMetadata(r) - {"approved_at", "approved_by"};
    GenerateMetadataKeys(r.filename, VStr(r.language), VStr(r.source), |content|, r.id, r.submittedAt);
    Schemas.RawToDictKeys(r);
    SidecarKeysInSchema();
    assert v.Keys == m.Keys;
    LookupsMatchIds(r, |content|);
    LookupsMatchSubmission(r, |content|);
    AgreeOnSidecarKeys(m, d);
    Json.SameEntries(m, v);
  }

  /** The keys of the raw sidecar. */
  const SidecarKeys: set<string> := {
    "id", "filename", "language", "source", "content_length", "submitted_at", "status", "submitted_by"
  }

  lemma SidecarKeysInSchema()
    ensures SidecarKeys == Schemas.RawFields - {"content"} - {"approved_at", "approved_by"}
  {
  }

  lemma LookupsMatchIds(r: Schemas.RawData, length: nat)
    ensures var m := GenerateMetadata(r.filename, VStr(r.language), VStr(r.source), length, r.id, r.submittedAt);
      var d := Schemas.RawToDict(r);
      && m["id"] == d["id"] && m["filename"] == d["filename"]
      && m["language"] == d["language"] && m["source"] == d["source"]
  {
  }

  lemma LookupsMatchSubmission(r: Schemas.RawData, length: nat)
    requires r.contentLength == length && r.status == "pending" && r.submittedBy == "collector"
    ensures var m := GenerateMetadata(r.filename, VStr(r.language), VStr(r.source), length, r.id, r.submittedAt);
      var d := Schemas.RawToDict(r);
      && m["content_length"] == d["content_length"] && m["submitted_at"] == d["submitted_at"]
      && m["status"] == d["status"] && m["submitted_by"] == d["submitted_by"]
  {
  }

  /** Two objects agree on every sidecar key once they agree on each of the eight. */
  lemma AgreeOnSidecarKeys(m: Meta, d: Meta)
    requires m.Keys == SidecarKeys && SidecarKeys <= d.Keys
    requires m["id"] == d["id"] && m["filename"] == d["filename"]
    requires m["language"] == d["language"] && m["source"] == d["source"]
    requires m["content_length"] == d["content_length"] && m["submitted_at"] == d["submitted_at"]
    requires m["status"] == d["status"] && m["submitted_by"] == d["submitted_by"]
    ensures forall k :: k in m ==> m[k] == d[k]
  {
  }

  /** When a raw submission is accepted: the four fields are present and
      truthy, the filename is a string whose stripped form passes the
      filename rule, the content is a string, and no pending raw text of that
      name exists. */
  predicate Accepts(s: Store, data: Meta) {
    && HasRequired(data)
    && data["filename"].VStr?
    && FilenameChars(Strip(data["filename"].s))
    && data["content"].VStr?
    && Strip(data["filename"].s) !in s.raw.pending.content
  }

  /** `POST /api/raw/submit`. Checks, in order: the four required fields
      (400), a string filename (500), the filename rule on the stripped name
      (400), a content that has a length (500), no pending text of that name
      (409). Only then are the text and the sidecar written. A content that
      has a length but is not a string leaves an empty text file behind
      before the write raises (500). */
  function Submit(s: Store, data: Meta, id: string, now: string): (r: Step<Outcome<Submitted>>)
    ensures r.out.Done? <==> Accepts(s, data)
    ensures r.out.Done? ==>
      var name := Strip(data["filename"].s);
      var content := data["content"].s;
      && r.out.value == Submitted(id, name)
      && r.store == s.(raw := s.raw.(pending := s.raw.pending.(
           content := s.raw.pending.content[name := content],
           meta := s.raw.pending.meta[name := GenerateMetadata(name, data["language"], data["source"], |content|, id, now)])))
    ensures !HasRequired(data) ==> r == Step(Fail(BadRequest), s)
    ensures r.out == Fail(BadRequest) <==>
      !HasRequired(data) || (data["filename"].VStr? && !FilenameChars(Strip(data["filename"].s)))
    ensures r.out == Fail(Conflict) <==>
      && HasRequired(data) && data["filename"].VStr? && FilenameChars(Strip(data["filename"].s))
      && Len(data["content"]).Some? && Strip(data["filename"].s) in s.raw.pending.content
    ensures r.out == Fail(ServerError) <==>
      && HasRequired(data)
      && (|| !data["filename"].VStr?
          || (&& FilenameChars(Strip(data["filename"].s))
              && (Len(data["content"]).None?
                  || (Strip(data["filename"].s) !in s.raw.pending.content && !data["content"].VStr?))))
    ensures r.out == Fail(Conflict) ==> r.store == s
    ensures r.out == Fail(ServerError) ==>
      || r.store == s
      || (&& data["filename"].VStr?
          && r.store == s.(raw := s.raw.(pending := s.raw.pending.(
               content := s.raw.pending.content[Strip(data["filename"].s) := ""]))))
    ensures r.store == s || r.out.Done? || r.out == Fail(ServerError)
    ensures r.store.cleaned == s.cleaned && r.store.chunked == s.chunked && r.store.raw.approved == s.raw.approved
  {
    if MissingOrFalsy(data, "filename") || MissingOrFalsy(data, "language")
       || MissingOrFalsy(data, "source") || MissingOrFalsy(data, "content")
    then Step(Fail(BadRequest), s)
    else if !data["filename"].VStr? then Step(Fail(ServerError), s)
    else
      var name := Strip(data["filename"].s);
      var content := data["content"];
      if !FilenameChars(name) then Step(Fail(BadRequest), s)
      else
        var length := Len(content);
        if length.None? then Step(Fail(ServerError), s)
        else if name in s.raw.pending.content then Step(Fail(Conflict), s)
        else if !content.VStr? then
          Step(Fail(ServerError), s.(raw := s.raw.(pending := s.raw.pending.(content := s.raw.pending.content[name := ""]))))
        else
          var meta := GenerateMetadata(name, data["language"], data["source"], length.value, id, now);
          Step(Done(Submitted(id, name)),
               s.(raw := s.raw.(pending := s.raw.pending.(content := s.raw.pending.content[name := content.s],
                                                           meta := s.raw.pending.meta[name := meta]))))
  }

  /** A submitted text reads back from the pending directory, as submitted,
      with a sidecar that records it as pending. */
  lemma SubmitThenRead(s: Store, data: Meta, id: string, now: string)
    requires Accepts(s, data)
    ensures var r := Submit(s, data, id, now);
      var read := GetFileContent(r.store, Strip(data["filename"].s));
      && read.Done?
      && read.value.location == "pending"
      && read.value.content == data["content"].s
      && Holds(read.value.metadata, "status", VStr("pending"))
      && Holds(read.value.metadata, "submitted_at", VStr(now))
      && Holds(read.value.metadata, "content_length", VInt(|data["content"].s|))
  {
  }

  /** Submitting the same request again is refused with 409 and changes
      nothing: a pending name is never overwritten by this route. */
  lemma ResubmitConflicts(s: Store, data: Meta, id: string, id': string, now: string, now': string)
    requires Accepts(s, data)
    ensures var s' := Submit(s, data, id, now).store;
      Submit(s', data, id', now') == Step(Fail(Conflict), s')
  {
  }

  /** The refusals of a raw submission, each leaving the store as it was:
      a filename that fails the rule after stripping is refused with 400,
      and a valid name that is already pending with 409. */
  lemma SubmitRefusals(s: Store, data: Meta, id: string, now: string)
    ensures HasRequired(data) && data["filename"].VStr? && !FilenameChars(Strip(data["filename"].s)) ==>
      Submit(s, data, id, now) == Step(Fail(BadRequest), s)
    ensures HasRequired(data) && data["filename"].VStr? && FilenameChars(Strip(data["filename"].s))
            && Len(data["content"]).Some? && Strip(data["filename"].s) in s.raw.pending.content ==>
      Submit(s, data, id, now) == Step(Fail(Conflict), s)
  {
  }

  /** `GET /api/raw/pending`: every pending sidecar, newest submission
      first; 500 when the submission times cannot be compared. */
  function ListPending(s: Store, order: seq<string>): (r: Outcome<seq<Meta>>)
    requires Enumerates(order, s.raw.pending.meta.Keys)
    ensures r.Done? <==> SortableBy(s.raw.pending, "submitted_at")
    ensures r.Fail? ==> r.code == ServerError
    ensures r.Done? ==>
      && |r.value| == |s.raw.pending.meta|
      && (forall i :: 0 < i < |r.value| ==> KeyLe(TimeKey(r.value[i], "submitted_at"), TimeKey(r.value[i - 1], "submitted_at")))
      && (forall m :: m in r.value <==> exists f :: f in s.raw.pending.meta && s.raw.pending.meta[f] == m)
  {
    ListNewestFirst(s.raw.pending, order, "submitted_at")
  }

  /** `GET /api/raw/approved`: every approved sidecar, newest approval
      first; 500 when the approval times cannot be compared. */
  function ListApproved(s: Store, order: seq<string>): (r: Outcome<seq<Meta>>)
    requires Enumerates(order, s.raw.approved.meta.Keys)
    ensures r.Done? <==> SortableBy(s.raw.approved, "approved_at")
    ensures r.Fail? ==> r.code == ServerError
    ensures r.Done? ==>
      && |r.value| == |s.raw.approved.meta|
      && (forall i :: 0 < i < |r.value| ==> KeyLe(TimeKey(r.value[i], "approved_at"), TimeKey(r.value[i - 1], "approved_at")))
      && (forall m :: m in r.value <==> exists f :: f in s.raw.approved.meta && s.raw.approved.meta[f] == m)
  {
    ListNewestFirst(s.raw.approved, order, "approved_at")
  }

  /** A successful submission shows up in the pending listing, and the
      listing succeeds when every earlier pending sidecar has a string
      submission time (the new one has). */
  lemma SubmitThenListed(s: Store, data: Meta, id: string, now: string, order: seq<string>)
    requires Accepts(s, data)
    requires Enumerates(order, Submit(s, data, id, now).store.raw.pending.meta.Keys)
    ensures var name := Strip(data["filename"].s);
      var r := ListPending(Submit(s, data, id, now).store, order);
      && (r.Done? ==> GenerateMetadata(name, data["language"], data["source"], |data["content"].s|, id, now) in r.value)
      && ((forall f :: f in s.raw.pending.meta ==> TimeKey(s.raw.pending.meta[f], "submitted_at").VStr?) ==> r.Done?)
  {
    var s' := Submit(s, data, id, now).store;
    var name := Strip(data["filename"].s);
    var m := GenerateMetadata(name, data["language"], data["source"], |data["content"].s|, id, now);
    assert s'.raw.pending.meta == s.raw.pending.meta[name := m];
    assert name in s'.raw.pending.meta && s'.raw.pending.meta[name] == m;
    assert TimeKey(m, "submitted_at") == VStr(now);
  }

  /** `GET /api/raw/file/<filename>`: the pending text first, then the
      approved one, each with the sidecar of its directory; 404 when neither
      exists, 500 when the text found has no sidecar. */
  function GetFileContent(s: Store, filename: string): (r: Outcome<Located>)
    ensures r == Fail(NotFound) <==> filename !in s.raw.pending.content && filename !in s.raw.approved.content
    ensures filename in s.raw.pending.content && filename in s.raw.pending.meta ==>
      r == Done(Located(s.raw.pending.content[filename], s.raw.pending.meta[filename], "pending"))
    ensures filename !in s.raw.pending.content && filename in s.raw.approved.content && filename in s.raw.approved.meta ==>
      r == Done(Located(s.raw.approved.content[filename], s.raw.approved.meta[filename], "approved"))
    ensures r == Fail(ServerError) <==>
      || (filename in s.raw.pending.content && filename !in s.raw.pending.meta)
      || (filename !in s.raw.pending.content && filename in s.raw.approved.content && filename !in s.raw.approved.meta)
  {
    LookupPendingFirst(s.raw, filename)
  }
}

=== FILE: schemas.dfy ===
/** The record schemas of the three pipeline stages: raw submissions,
    cleaned texts and RAG chunks, with their post-construction fix-ups,
    dictionary views, validation rules and the chunk id format. */
module Schemas {
  import opened Json
  import opened Text

  /** Language codes the raw schema accepts. */
  const Languages: seq<string> := ["ta", "en", "hi", "te", "ml", "kn"]

  /** Chunk categories, in the order the validation message lists them. */
  const Categories: seq<string> := [
    "education", "literature", "news", "science",
    "history", "culture", "technology", "health",
    "legal", "government", "religion", "other"
  ]

  /** `None` is serialised as JSON null. */
  function OptValue(o: Option<string>): Value {
    if o.Some? then VStr(o.value) else VNull
  }

  // ===========================================================================
  // Raw data
  // ===========================================================================

  datatype RawData = RawData(
    filename: string,
    language: string,
    source: string,
    content: string,
    id: string,
    contentLength: int,
    submittedAt: string,
    submittedBy: string,
    status: string,
    approvedAt: Option<string>,
    approvedBy: Option<string>)

  /** `__post_init__`: a non-empty content overrides the given length. */
  function RawPostInit(r: RawData): (r': RawData)
    ensures r'.(contentLength := r.contentLength) == r
    ensures r.content != "" ==> r'.contentLength == |r.content|
    ensures r.content == "" ==> r'.contentLength == r.contentLength
  {
    if r.content != "" then r.(contentLength := |r.content|) else r
  }

  /** `RawDataSchema(filename, language, source, content)` with every other
      field left at its default; the fresh id and the clock are parameters. */
  function NewRawData(filename: string, language: string, source: string, content: string,
                      id: string, now: string): RawData
  {
    RawPostInit(RawData(filename, language, source, content, id, 0, now, "collector", "pending", None, None))
  }

  /** With the default length, the stored length is always the content's. */
  lemma NewRawDataLength(filename: string, language: string, source: string, content: string,
                         id: string, now: string)
    ensures NewRawData(filename, language, source, content, id, now).contentLength == |content|
    ensures NewRawData(filename, language, source, content, id, now).status == "pending"
    ensures NewRawData(filename, language, source, content, id, now).submittedBy == "collector"
  {
  }

  /** The field names `asdict` produces for a raw record. */
  const RawFields: set<string> := {
    "id", "filename", "language", "source", "content", "content_length",
    "submitted_at", "submitted_by", "status", "approved_at", "approved_by"
  }

  /** `to_dict()`. */
  function RawToDict(r: RawData): Meta {
    map[
      "id" := VStr(r.id),
      "filename" := VStr(r.filename),
      "language" := VStr(r.language),
      "source" := VStr(r.source),
      "content" := VStr(r.content),
      "content_length" := VInt(r.contentLength),
      "submitted_at" := VStr(r.submittedAt),
      "submitted_by" := VStr(r.submittedBy),
      "status" := VStr(r.status),
      "approved_at" := OptValue(r.approvedAt),
      "approved_by" := OptValue(r.approvedBy)
    ]
  }

  /** `to_dict` has exactly the dataclass's fields, the content under `content`. */
  lemma RawToDictKeys(r: RawData)
    ensures RawToDict(r).Keys == RawFields
    ensures RawToDict(r)["content"] == VStr(r.content)
  {
  }

  /** `to_metadata()`: the dictionary view without the content. */
  function RawToMetadata(r: RawData): (m: Meta)
    ensures m.Keys == RawToDict(r).Keys - {"content"}
    ensures forall k :: k in m ==> m[k] == RawToDict(r)[k]
  {
    var d := RawToDict(r);
    map k | k in d && k != "content" :: d[k]
  }

  /** The metadata sidecar plus the content file give back the whole record. */
  lemma RawMetadataPlusContent(r: RawData)
    ensures RawToMetadata(r)["content" := VStr(r.content)] == RawToDict(r)
  {
  }

  const MsgFilenameShort := "Filename must be at least 3 characters"
  const MsgFilenameChars := "Filename can only contain letters, numbers, underscores, and hyphens"
  const MsgContentShort := "Content must be at least 50 characters"
  const MsgLanguage := "Invalid language code"

  /** The conditions `validate()` checks for a raw record. */
  predicate RawValid(r: RawData) {
    && |r.filename| >= 3
    && FilenameChars(r.filename)
    && |r.content| >= 50
    && r.language in Languages
  }

  /** `validate()`: one message per failed rule, in rule order. */
  function RawValidate(r: RawData): (errors: seq<string>)
    ensures MsgFilenameShort in errors <==> |r.filename| < 3
    ensures MsgFilenameChars in errors <==> !FilenameChars(r.filename)
    ensures MsgContentShort in errors <==> |r.content| < 50
    ensures MsgLanguage in errors <==> r.language !in Languages
    ensures errors == [] <==> RawValid(r)
    ensures |errors| <= 4
  {
    (if r.filename == "" || |r.filename| < 3 then [MsgFilenameShort] else [])
    + (if !FilenameChars(r.filename) then [MsgFilenameChars] else [])
    + (if r.content == "" || |r.content| < 50 then [MsgContentShort] else [])
    + (if r.language !in Languages then [MsgLanguage] else [])
  }

  // ===========================================================================
  // Cleaned data
  // ===========================================================================

  datatype CleanedData = CleanedData(
    filename: string,
    content: string,
    language: string,
    source: string,
    id: string,
    originalRawId: Option<string>,
    contentLength: int,
    submittedAt: string,
    submittedBy: string,
    status: string,
    approvedAt: Option<string>,
    approvedBy: Option<string>)

  /** `__post_init__`: a non-empty content overrides the given length. */
  function CleanedPostInit(c: CleanedData): (c': CleanedData)
    ensures c'.(contentLength := c.contentLength) == c
    ensures c.content != "" ==> c'.contentLength == |c.content|
    ensures c.content == "" ==> c'.contentLength == c.contentLength
  {
    if c.content != "" then c.(contentLength := |c.content|) else c
  }

  /** `CleanedDataSchema(filename, content)` with every other field at its default. */
  function NewCleanedData(filename: string, content: string, id: string, now: string): CleanedData
  {
    CleanedPostInit(CleanedData(filename, content, "ta", "unknown", id, None, 0, now, "cleaner", "pending", None, None))
  }

  const CleanedFields: set<string> := {
    "id", "filename", "language", "source", "content", "original_raw_id", "content_length",
    "submitted_at", "submitted_by", "status", "approved_at", "approved_by"
  }

  /** `to_dict()`. */
  function CleanedToDict(c: CleanedData): Meta {
    map[
      "id" := VStr(c.id),
      "filename" := VStr(c.filename),
      "language" := VStr(c.language),
      "source" := VStr(c.source),
      "content" := VStr(c.content),
      "original_raw_id" := OptValue(c.originalRawId),
      "content_length" := VInt(c.contentLength),
      "submitted_at" := VStr(c.submittedAt),
      "submitted_by" := VStr(c.submittedBy),
      "status" := VStr(c.status),
      "approved_at" := OptValue(c.approvedAt),
      "approved_by" := OptValue(c.approvedBy)
    ]
  }

  /** `to_dict` has exactly the dataclass's fields, the content under `content`. */
  lemma CleanedToDictKeys(c: CleanedData)
    ensures CleanedToDict(c).Keys == CleanedFields
    ensures CleanedToDict(c)["content"] == VStr(c.content)
  {
  }

  /** `to_metadata()`: the dictionary view without the content. */
  function CleanedToMetadata(c: CleanedData): (m: Meta)
    ensures m.Keys == CleanedToDict(c).Keys - {"content"}
    ensures forall k :: k in m ==> m[k] == CleanedToDict(c)[k]
  {
    var d := CleanedToDict(c);
    map k | k in d && k != "content" :: d[k]
  }

  // ===========================================================================
  // Chunks
  // ===========================================================================

  datatype ChunkData = ChunkData(
    text: string,
    chunkIndex: int,
    sourceFile: string,
    category: string,
    language: string,
    source: string,
    chunkId: string,
    overlapReference: string,
    textLength: int,
    createdAt: string,
    createdBy: string,
    status: string,
    approvedAt: Option<string>,
    approvedBy: Option<string>)

  /** `category[:3] if len(category) > 3 else category`. */
  function ShortCategory(category: string): string {
    if |category| > 3 then category[..3] else category
  }

  /** The conditional is just a three-character prefix. */
  lemma ShortCategoryIsTake(category: string)
    ensures ShortCategory(category) == Take(category, 3)
    ensures |ShortCategory(category)| <= 3 && ShortCategory(category) <= category
  {
  }

  /** `source_file.replace('_', '')[:10]`. */
  function ShortFile(sourceFile: string): (r: string)
    ensures |r| <= 10
    ensures '_' !in r
  {
    var t := RemoveChar(sourceFile, '_');
    var r := Take(t, 10);
    assert forall k :: 0 <= k < |r| ==> r[k] == t[k] && t[k] in t;
    r
  }

  /** `f"{lang}_{cat_short}_{file_short}_{index:02d}"`. */
  function ChunkId(language: string, category: string, sourceFile: string, index: int): string {
    language + "_" + ShortCategory(category) + "_" + ShortFile(sourceFile) + "_" + Pad2(index)
  }

  /** The last `_`-separated component of an id is the padded index. */
  lemma ChunkIdLastComponent(language: string, category: string, sourceFile: string, index: int)
    ensures LastComponent(ChunkId(language, category, sourceFile, index)) == Pad2(index)
    ensures ParsePad(LastComponent(ChunkId(language, category, sourceFile, index))) == index
  {
    LastComponentAfter(language + "_" + ShortCategory(category) + "_" + ShortFile(sourceFile), Pad2(index));
    Pad2RoundTrip(index);
  }

  /** Two ids with different indices differ, whatever their other parts. */
  lemma ChunkIdIndexInjective(l1: string, c1: string, f1: string, i: int,
                              l2: string, c2: string, f2: string, j: int)
    requires i != j
    ensures ChunkId(l1, c1, f1, i) != ChunkId(l2, c2, f2, j)
  {
    ChunkIdLastComponent(l1, c1, f1, i);
    ChunkIdLastComponent(l2, c2, f2, j);
  }

  /** A name whose underscore-free stem has at least ten characters is
      shortened to the first ten characters of that stem. */
  lemma ShortFileOfStem(stem: string, suffix: string)
    requires '_' !in stem && '_' !in suffix && |stem| >= 10
    ensures ShortFile(stem + "_" + suffix) == stem[..10]
  {
    var t := RemoveChar(stem + "_" + suffix, '_');
    assert RemoveChar(stem + "_", '_') == stem by {
      RemoveCharConcat(stem, "_", '_');
      RemoveCharAbsent(stem, '_');
      assert RemoveChar("_", '_') == "" by {
        assert "_"[1..] == "";
      }
      assert stem + "" == stem;
    }
    assert t == stem + suffix by {
      RemoveCharConcat(stem + "_", suffix, '_');
      RemoveCharAbsent(suffix, '_');
    }
    assert (stem + suffix)[..10] == stem[..10];
  }

  /** Ids are not globally unique: two different files that share a long
      enough underscore-free stem get the same id for the same index. */
  lemma ChunkIdTruncationCollision(language: string, category: string, stem: string,
                                   suffix1: string, suffix2: string, index: int)
    requires '_' !in stem && '_' !in suffix1 && '_' !in suffix2 && |stem| >= 10
    requires suffix1 != suffix2
    ensures stem + "_" + suffix1 != stem + "_" + suffix2
    ensures ChunkId(language, category, stem + "_" + suffix1, index)
         == ChunkId(language, category, stem + "_" + suffix2, index)
  {
    ShortFileOfStem(stem, suffix1);
    ShortFileOfStem(stem, suffix2);
    assert (stem + "_" + suffix1)[|stem| + 1..] == suffix1;
    assert (stem + "_" + suffix2)[|stem| + 1..] == suffix2;
  }

  /** `__post_init__`: recompute the text length from a non-empty text and
      generate the id only when none was supplied. */
  function ChunkPostInit(c: ChunkData): (c': ChunkData)
    ensures c'.(textLength := c.textLength, chunkId := c.chunkId) == c
    ensures c.text != "" ==> c'.textLength == |c.text|
    ensures c.text == "" ==> c'.textLength == c.textLength
    ensures c.chunkId != "" ==> c'.chunkId == c.chunkId
    ensures c.chunkId == "" ==> LastComponent(c'.chunkId) == Pad2(c.chunkIndex)
  {
    var withLength := if c.text != "" then c.(textLength := |c.text|) else c;
    if c.chunkId != "" then withLength
    else
      ChunkIdLastComponent(c.language, c.category, c.sourceFile, c.chunkIndex);
      withLength.(chunkId := ChunkId(c.language, c.category, c.sourceFile, c.chunkIndex))
  }

  /** `ChunkSchema(text, chunk_index, source_file, category)` with defaults. */
  function NewChunkData(text: string, chunkIndex: int, sourceFile: string, category: string, now: string): ChunkData
  {
    ChunkPostInit(ChunkData(text, chunkIndex, sourceFile, category, "ta", "unknown", "", "", 0, now,
                            "chunker", "pending", None, None))
  }

  /** A default-built chunk gets the standard id and the text's length. */
  lemma NewChunkDataFields(text: string, chunkIndex: int, sourceFile: string, category: string, now: string)
    ensures NewChunkData(text, chunkIndex, sourceFile, category, now).chunkId
         == ChunkId("ta", category, sourceFile, chunkIndex)
    ensures NewChunkData(text, chunkIndex, sourceFile, category, now).textLength == |text|
  {
  }

  const ChunkFields: set<string> := {
    "chunk_id", "text", "language", "category", "source", "chunk_index", "source_file",
    "overlap_reference", "text_length", "created_at", "created_by", "status",
    "approved_at", "approved_by"
  }

  /** `to_dict()`. */
  function ChunkToDict(c: ChunkData): Meta {
    map[
      "chunk_id" := VStr(c.chunkId),
      "text" := VStr(c.text),
      "language" := VStr(c.language),
      "category" := VStr(c.category),
      "source" := VStr(c.source),
      "chunk_index" := VInt(c.chunkIndex),
      "source_file" := VStr(c.sourceFile),
      "overlap_reference" := VStr(c.overlapReference),
      "text_length" := VInt(c.textLength),
      "created_at" := VStr(c.createdAt),
      "created_by" := VStr(c.createdBy),
      "status" := VStr(c.status),
      "approved_at" := OptValue(c.approvedAt),
      "approved_by" := OptValue(c.approvedBy)
    ]
  }

  /** `to_dict` has exactly the dataclass's fields. */
  lemma ChunkToDictKeys(c: ChunkData)
    ensures ChunkToDict(c).Keys == ChunkFields
  {
  }

  /** The keys the embedding pipeline consumes. */
  const RagKeys: set<string> := {"chunk_id", "text", "language", "category", "source", "chunk_index"}

  /** `to_rag_format()`: the record as the embedding pipeline consumes it. */
  function ToRagFormat(c: ChunkData): Meta {
    map[
      "chunk_id" := VStr(c.chunkId),
      "text" := VStr(c.text),
      "language" := VStr(c.language),
      "category" := VStr(c.category),
      "source" := VStr(c.source),
      "chunk_index" := VInt(c.chunkIndex)
    ]
  }

  /** `to_rag_format()` has exactly the six RAG keys, each copied unchanged
      from the full dictionary view. */
  lemma ToRagFormatAgrees(c: ChunkData)
    ensures ToRagFormat(c).Keys == RagKeys && RagKeys <= ChunkToDict(c).Keys
    ensures forall k :: k in ToRagFormat(c) ==> ToRagFormat(c)[k] == ChunkToDict(c)[k]
  {
    var m := ToRagFormat(c);
    var d := ChunkToDict(c);
    ChunkToDictKeys(c);
    RagLookups(c);
    forall k | k in m ensures m[k] == d[k] {
      assert k in RagKeys;
    }
  }

  lemma RagLookups(c: ChunkData)
    ensures var m := ToRagFormat(c); var d := ChunkToDict(c);
      && m["chunk_id"] == d["chunk_id"] && m["text"] == d["text"] && m["language"] == d["language"]
      && m["category"] == d["category"] && m["source"] == d["source"] && m["chunk_index"] == d["chunk_index"]
  {
  }

  const MsgTextShort := "Chunk text must be at least 20 characters"
  const MsgSourceFile := "Source file is required"
  const MsgIndex := "Chunk index must be positive"
  const MsgCategory := "Invalid category. Must be one of: education, literature, news, science, history, culture, technology, health, legal, government, religion, other"

  /** The conditions `validate()` checks for a chunk. */
  predicate ChunkValid(c: ChunkData) {
    && |c.text| >= 20
    && c.sourceFile != ""
    && c.chunkIndex >= 1
    && c.category in Categories
  }

  /** `validate()`: one message per failed rule, in rule order. */
  function ChunkValidate(c: ChunkData): (errors: seq<string>)
    ensures MsgTextShort in errors <==> |c.text| < 20
    ensures MsgSourceFile in errors <==> c.sourceFile == ""
    ensures MsgIndex in errors <==> c.chunkIndex < 1
    ensures MsgCategory in errors <==> c.category !in Categories
    ensures errors == [] <==> ChunkValid(c)
    ensures |errors| <= 4
  {
    (if c.text == "" || |c.text| < 20 then [MsgTextShort] else [])
    + (if c.sourceFile == "" then [MsgSourceFile] else [])
    + (if c.chunkIndex < 1 then [MsgIndex] else [])
    + (if c.category !in Categories then [MsgCategory] else [])
  }
}

=== FILE: sorting.dfy ===
/** Python's stable `list.sort(key=...)`, modelled as insertion sort over a
    total "comes no later than" relation on the elements. */
module Sorting {

  /** `le` relates every pair one way or the other. */
  ghost predicate Total<T(!new)>(le: (T, T) -> bool) {
    forall a, b :: le(a, b) || le(b, a)
  }

  /** Each element comes no later than its successor. */
  predicate Sorted<T>(s: seq<T>, le: (T, T) -> bool) {
    forall i :: 0 < i < |s| ==> le(s[i - 1], s[i])
  }

  /** Inserts `x` before the first element it may precede. */
  function Insert<T(!new)>(x: T, s: seq<T>, le: (T, T) -> bool): (r: seq<T>)
    requires Total(le)
    requires Sorted(s, le)
    ensures Sorted(r, le)
    ensures multiset(r) == multiset(s) + multiset{x}
    ensures |r| == |s| + 1
    ensures r[0] == x || (|s| > 0 && r[0] == s[0])
  {
    if |s| == 0 then [x]
    else if le(x, s[0]) then [x] + s
    else
      var t := Insert(x, s[1..], le);
      assert s == [s[0]] + s[1..];
      [s[0]] + t
  }

  /** The sorted permutation of `s`; elements that compare equal keep their
      relative order, as in Python's stable sort. */
  function SortBy<T(!new)>(s: seq<T>, le: (T, T) -> bool): (r: seq<T>)
    requires Total(le)
    ensures Sorted(r, le)
    ensures multiset(r) == multiset(s)
    ensures |r| == |s|
  {
    if |s| == 0 then []
    else
      assert s == [s[0]] + s[1..];
      Insert(s[0], SortBy(s[1..], le), le)
  }
}

=== FILE: storage.dfy ===
/** The storage service: a reusable wrapper over the six directories. The
    routes touch the directory tree themselves and never call it, so it is
    modelled on its own, as a set of store transitions. Each directory is
    named by a `{status}_{stage}` key; the clock is a parameter (`now`). */
module Storage {
  import opened Json
  import opened Text
  import opened Store

  function StageName(k: StageKind): (name: string)
    ensures '_' !in name
  {
    match k
    case Raw => "raw"
    case Cleaned => "cleaned"
    case Chunked => "chunked"
  }

  function StatusName(t: StatusKind): (name: string)
    ensures '_' !in name
  {
    if t == Pending then "pending" else "approved"
  }

  /** The key `f'{status}_{stage}'` the service looks directories up by. */
  function DirKey(status: string, stage: string): string {
    status + "_" + stage
  }

  /** The directory a `{status}_{stage}` key names, when it is one of the six. */
  function Resolve(stage: string, status: string): Option<(StageKind, StatusKind)> {
    var key := DirKey(status, stage);
    if key == DirKey("pending", "raw") then Some((Raw, Pending))
    else if key == DirKey("pending", "cleaned") then Some((Cleaned, Pending))
    else if key == DirKey("pending", "chunked") then Some((Chunked, Pending))
    else if key == DirKey("approved", "raw") then Some((Raw, Approved))
    else if key == DirKey("approved", "cleaned") then Some((Cleaned, Approved))
    else if key == DirKey("approved", "chunked") then Some((Chunked, Approved))
    else None
  }

  /** Joining with `_` is unambiguous when the right-hand parts hold no `_`. */
  lemma SplitAtSeparator(a: string, b: string, c: string, d: string)
    requires a + "_" + b == c + "_" + d
    requires '_' !in c && '_' !in d
    ensures a == c && b == d
  {
    var x := a + "_" + b;
    assert x[|a|] == '_';
    forall i | 0 <= i < |x| && i != |c| ensures x[i] != '_' {
      if i < |c| {
        assert x[i] == c[i];
      } else {
        assert x[i] == d[i - |c| - 1];
      }
    }
    assert a == x[..|a|];
    assert b == x[|a| + 1..];
  }

  /** A key names a directory exactly when its parts are that directory's
      stage and status names: no other pair of strings reaches one of the
      six directories. */
  lemma ResolveIff(stage: string, status: string, k: StageKind, t: StatusKind)
    ensures Resolve(stage, status) == Some((k, t)) <==> stage == StageName(k) && status == StatusName(t)
  {
    var key := DirKey(status, stage);
    forall k': StageKind, t': StatusKind | key == DirKey(StatusName(t'), StageName(k'))
      ensures status == StatusName(t') && stage == StageName(k')
    {
      SplitAtSeparator(status, stage, StatusName(t'), StageName(k'));
    }
    KeyLiterals();
  }

  /** The six directory keys, spelled out. */
  lemma KeyLiterals()
    ensures DirKey(StatusName(Pending), StageName(Raw)) == "pending_raw"
    ensures DirKey(StatusName(Pending), StageName(Cleaned)) == "pending_cleaned"
    ensures DirKey(StatusName(Pending), StageName(Chunked)) == "pending_chunked"
    ensures DirKey(StatusName(Approved), StageName(Raw)) == "approved_raw"
    ensures DirKey(StatusName(Approved), StageName(Cleaned)) == "approved_cleaned"
    ensures DirKey(StatusName(Approved), StageName(Chunked)) == "approved_chunked"
  {
  }

  // ---------------------------------------------------------------------------
  // Reads
  // ---------------------------------------------------------------------------

  /** What `get_file` returns. */
  datatype FileView = FileView(filename: string, content: string, metadata: Meta, stage: string, status: string)

  /** `get_file`: the text and sidecar of a file; no sidecar reads as `{}`.
      `None` for an unknown directory key or a missing text file. */
  function GetFile(s: Store, stage: string, status: string, filename: string): (r: Option<FileView>)
    ensures r.Some? ==> r.value.filename == filename && r.value.stage == stage && r.value.status == status
    ensures r.Some? <==>
      exists k: StageKind, t: StatusKind ::
        stage == StageName(k) && status == StatusName(t) && filename in DirOf(StageOf(s, k), t).content
    ensures forall k: StageKind, t: StatusKind ::
      stage == StageName(k) && status == StatusName(t) && filename in DirOf(StageOf(s, k), t).content ==>
        var d := DirOf(StageOf(s, k), t);
        && r.Some?
        && r.value.content == d.content[filename]
        && r.value.metadata == (if filename in d.meta then d.meta[filename] else map[])
  {
    var loc := Resolve(stage, status);
    forall k: StageKind, t: StatusKind ensures loc == Some((k, t)) <==> stage == StageName(k) && status == StatusName(t) {
      ResolveIff(stage, status, k, t);
    }
    if loc.None? then None
    else
      var d := DirOf(StageOf(s, loc.value.0), loc.value.1);
      if filename !in d.content then None
      else Some(FileView(filename, d.content[filename], if filename in d.meta then d.meta[filename] else map[], stage, status))
  }

  /** `list_files`, keyed by file name (the listing order is the
      filesystem's). Chunk directories list one summary per folder; the other
      directories list each text file's sidecar, or `{'filename': name}`
      when it has none. An unknown key lists nothing. */
  function ListFiles(s: Store, stage: string, status: string): (r: map<string, Meta>)
    ensures Resolve(stage, status).None? ==> r == map[]
    ensures forall k: StageKind, t: StatusKind :: Resolve(stage, status) == Some((k, t)) ==>
      r.Keys == (if k == Chunked then DirOf(StageOf(s, k), t).folders.Keys else DirOf(StageOf(s, k), t).content.Keys)
    ensures forall k: StageKind, t: StatusKind, f :: Resolve(stage, status) == Some((k, t)) && k != Chunked && f in r ==>
      var d := DirOf(StageOf(s, k), t);
      r[f] == (if f in d.meta then d.meta[f] else map["filename" := VStr(f)])
    ensures forall k: StageKind, t: StatusKind, f :: Resolve(stage, status) == Some((k, t)) && k == Chunked && f in r ==>
      Holds(r[f], "chunk_count", VInt(|DirOf(StageOf(s, k), t).folders[f]|))
  {
    var loc := Resolve(stage, status);
    forall k: StageKind, t: StatusKind ensures loc == Some((k, t)) <==> stage == StageName(k) && status == StatusName(t) {
      ResolveIff(stage, status, k, t);
    }
    if loc.None? then map[]
    else
      var d := DirOf(StageOf(s, loc.value.0), loc.value.1);
      if stage == "chunked" then
        map f | f in d.folders :: map["filename" := VStr(f), "chunk_count" := VInt(|d.folders[f]|), "status" := VStr(status)]
      else
        map f | f in d.content :: if f in d.meta then d.meta[f] else map["filename" := VStr(f)]
  }

  // ---------------------------------------------------------------------------
  // Writes
  // ---------------------------------------------------------------------------

  /** `save_file`: writes a text file and its sidecar into the pending
      directory of `stage`, replacing any file of that name. Fails, changing
      nothing, when `pending_{stage}` names no directory. */
  function SaveFile(s: Store, stage: string, filename: string, content: string, metadata: Meta): (r: Step<bool>)
    ensures r.out <==> stage in {"raw", "cleaned", "chunked"}
    ensures !r.out ==> r.store == s
  {
    var loc := Resolve(stage, "pending");
    forall k: StageKind, t: StatusKind ensures loc == Some((k, t)) <==> stage == StageName(k) && "pending" == StatusName(t) {
      ResolveIff(stage, "pending", k, t);
    }
    if loc.None? then Step(false, s)
    else
      var k := loc.value.0;
      var st := StageOf(s, k);
      var pending := st.pending.(content := st.pending.content[filename := content],
                                 meta := st.pending.meta[filename := metadata]);
      Step(true, WithStage(s, k, st.(pending := pending)))
  }

  /** A saved file reads back as saved, from the pending directory. */
  lemma SaveThenGet(s: Store, k: StageKind, filename: string, content: string, metadata: Meta)
    ensures var r := SaveFile(s, StageName(k), filename, content, metadata);
      && r.out
      && GetFile(r.store, StageName(k), "pending", filename)
         == Some(FileView(filename, content, metadata, StageName(k), "pending"))
  {
    ResolveIff(StageName(k), "pending", k, Pending);
  }

  /** Saving touches only the named file of one pending directory. */
  lemma SaveFrame(s: Store, k: StageKind, filename: string, content: string, metadata: Meta)
    ensures var s' := SaveFile(s, StageName(k), filename, content, metadata).store;
      && StageOf(s', k).approved == StageOf(s, k).approved
      && StageOf(s', k).pending.folders == StageOf(s, k).pending.folders
      && (forall f :: f != filename && f in StageOf(s, k).pending.content ==>
            f in StageOf(s', k).pending.content && StageOf(s', k).pending.content[f] == StageOf(s, k).pending.content[f])
      && StageOf(s', k).pending.content - {filename} == StageOf(s, k).pending.content - {filename}
      && StageOf(s', k).pending.meta - {filename} == StageOf(s, k).pending.meta - {filename}
      && StageOf(s', k).pending.content.Keys == StageOf(s, k).pending.content.Keys + {filename}
      && StageOf(s', k).pending.meta.Keys == StageOf(s, k).pending.meta.Keys + {filename}
      && (forall k' :: k' != k ==> StageOf(s', k') == StageOf(s, k'))
  {
    ResolveIff(StageName(k), "pending", k, Pending);
  }

  /** `save_chunk`: creates the pending chunk folder, then writes the chunk
      as `chunk_{index:02d}.json`, where the index is the chunk's
      `chunk_index` (1 when absent); an existing file of that index is
      replaced. The file name is formatted before the `try`, so an index
      that is not an integer raises out of the call (`None`) after the
      folder was created; otherwise the call answers `Some(true)`. */
  function SaveChunk(s: Store, folder: string, chunk: Meta): (r: Step<Option<bool>>)
    ensures folder in r.store.chunked.pending.folders
    ensures r.out.None? <==> !GetOr(chunk, "chunk_index", VInt(1)).VInt?
    ensures r.out != Some(false)
    ensures r.out.Some? ==>
      r.store.chunked.pending.folders[folder] == FolderOf(s.chunked.pending, folder)[GetOr(chunk, "chunk_index", VInt(1)).i := chunk]
    ensures r.out.None? ==> r.store.chunked.pending.folders[folder] == FolderOf(s.chunked.pending, folder)
    ensures forall f :: f != folder && f in s.chunked.pending.folders ==>
      f in r.store.chunked.pending.folders && r.store.chunked.pending.folders[f] == s.chunked.pending.folders[f]
    ensures r.store.raw == s.raw && r.store.cleaned == s.cleaned && r.store.chunked.approved == s.chunked.approved
    ensures r.store.chunked.pending.content == s.chunked.pending.content && r.store.chunked.pending.meta == s.chunked.pending.meta
    ensures r.store.chunked.pending.folders.Keys == s.chunked.pending.folders.Keys + {folder}
  {
    var d := s.chunked.pending;
    var made := d.(folders := d.folders[folder := FolderOf(d, folder)]);
    var index := GetOr(chunk, "chunk_index", VInt(1));
    if !index.VInt? then Step(None, s.(chunked := s.chunked.(pending := made)))
    else Step(Some(true), s.(chunked := s.chunked.(pending := PutChunk(made, folder, index.i, chunk))))
  }

  /** A saved chunk reads back from its folder, and the pending directory
      gains one chunk file unless the index was already taken. */
  lemma SaveChunkCount(s: Store, folder: string, chunk: Meta)
    requires GetOr(chunk, "chunk_index", VInt(1)).VInt?
    ensures var i := GetOr(chunk, "chunk_index", VInt(1)).i;
      var d' := SaveChunk(s, folder, chunk).store.chunked.pending;
      && i in d'.folders[folder] && d'.folders[folder][i] == chunk
      && ChunkCount(d') == ChunkCount(s.chunked.pending) + (if i in FolderOf(s.chunked.pending, folder) then 0 else 1)
  {
    var d := s.chunked.pending;
    var i := GetOr(chunk, "chunk_index", VInt(1)).i;
    var made := d.(folders := d.folders[folder := FolderOf(d, folder)]);
    assert PutChunk(made, folder, i, chunk) == PutChunk(d, folder, i, chunk);
    PutChunkCount(d, folder, i, chunk);
  }

  // ---------------------------------------------------------------------------
  // Approval and deletion
  // ---------------------------------------------------------------------------

  /** `approve_file`: moves a pending text file to the approved directory
      (replacing an approved file of that name) with its sidecar (`{}` when
      it has none) stamped `status: approved` and `approved_at`; the pending
      sidecar is removed. Fails, changing nothing, when there is no pending
      text file. Unlike the admin route it does not stamp `approved_by`. */
  function ApproveFile(s: Store, k: StageKind, filename: string, now: string): (r: Step<bool>)
    ensures r.out <==> filename in StageOf(s, k).pending.content
    ensures !r.out ==> r.store == s
    ensures forall k' :: k' != k ==> StageOf(r.store, k') == StageOf(s, k')
    ensures r.out ==>
      var before := StageOf(s, k);
      var after := StageOf(r.store, k);
      && filename !in after.pending.content && filename !in after.pending.meta
      && after.approved.content == before.approved.content[filename := before.pending.content[filename]]
      && filename in after.approved.meta
      && Holds(after.approved.meta[filename], "status", VStr("approved"))
      && Holds(after.approved.meta[filename], "approved_at", VStr(now))
      && after.approved.meta[filename]
           == (if filename in before.pending.meta then before.pending.meta[filename] else map[])
                ["status" := VStr("approved")]["approved_at" := VStr(now)]
    ensures r.out ==>
      var before := StageOf(s, k);
      var after := StageOf(r.store, k);
      && after.pending.content == before.pending.content - {filename}
      && after.pending.meta == before.pending.meta - {filename}
      && after.approved.meta - {filename} == before.approved.meta - {filename}
      && after.pending.folders == before.pending.folders && after.approved.folders == before.approved.folders
  {
    var st := StageOf(s, k);
    if filename !in st.pending.content then Step(false, s)
    else
      var meta := if filename in st.pending.meta then st.pending.meta[filename] else map[];
      var stamped := meta["status" := VStr("approved")]["approved_at" := VStr(now)];
      UpdateThenRemove(st.approved.meta, filename, stamped);
      Step(true, WithStage(s, k, MoveFile(st, filename, stamped)))
  }

  /** After an approval the file is readable from the approved directory
      and no longer from the pending one. */
  lemma ApproveThenGet(s: Store, k: StageKind, filename: string, now: string)
    requires filename in StageOf(s, k).pending.content
    ensures var s' := ApproveFile(s, k, filename, now).store;
      && GetFile(s', StageName(k), "pending", filename).None?
      && GetFile(s', StageName(k), "approved", filename).Some?
      && GetFile(s', StageName(k), "approved", filename).value.content == StageOf(s, k).pending.content[filename]
  {
    ResolveIff(StageName(k), "pending", k, Pending);
    ResolveIff(StageName(k), "approved", k, Approved);
  }

  /** Approval moves a file: the pending directory holds one file fewer, and
      the approved one a file more unless it already held that name. */
  lemma ApproveFileCounts(s: Store, k: StageKind, filename: string, now: string)
    requires filename in StageOf(s, k).pending.content
    ensures var s' := ApproveFile(s, k, filename, now).store;
      && TextCount(StageOf(s', k).pending) + 1 == TextCount(StageOf(s, k).pending)
      && TextCount(StageOf(s', k).approved) ==
           TextCount(StageOf(s, k).approved) + (if filename in StageOf(s, k).approved.content then 0 else 1)
  {
  }

  /** `approve_chunk`: moves one chunk file to the approved folder of the
      same name, stamped `status: approved` and `approved_at`, replacing an
      approved chunk of that index; the pending folder is removed once
      empty. Fails, changing nothing, when the pending chunk does not exist. */
  function ApproveChunk(s: Store, folder: string, index: int, now: string): (r: Step<bool>)
    ensures r.out <==> folder in s.chunked.pending.folders && index in s.chunked.pending.folders[folder]
    ensures !r.out ==> r.store == s
    ensures r.store.raw == s.raw && r.store.cleaned == s.cleaned
    ensures r.out ==>
      && (folder in r.store.chunked.pending.folders ==>
            r.store.chunked.pending.folders[folder] == s.chunked.pending.folders[folder] - {index})
      && (folder !in r.store.chunked.pending.folders <==> s.chunked.pending.folders[folder].Keys == {index})
      && folder in r.store.chunked.approved.folders
      && index in r.store.chunked.approved.folders[folder]
      && r.store.chunked.approved.folders[folder][index] ==
           s.chunked.pending.folders[folder][index]["status" := VStr("approved")]["approved_at" := VStr(now)]
    ensures r.out ==>
      && r.store.chunked.approved.folders[folder] - {index} == FolderOf(s.chunked.approved, folder) - {index}
      && r.store.chunked.approved.folders - {folder} == s.chunked.approved.folders - {folder}
      && r.store.chunked.pending.folders - {folder} == s.chunked.pending.folders - {folder}
      && r.store.chunked.pending.content == s.chunked.pending.content && r.store.chunked.pending.meta == s.chunked.pending.meta
      && r.store.chunked.approved.content == s.chunked.approved.content && r.store.chunked.approved.meta == s.chunked.approved.meta
  {
    var st := s.chunked;
    if folder !in st.pending.folders || index !in st.pending.folders[folder] then Step(false, s)
    else
      var chunk := st.pending.folders[folder][index];
      var stamped := chunk["status" := VStr("approved")]["approved_at" := VStr(now)];
      var rest := st.pending.folders[folder] - {index};
      assert rest.Keys == st.pending.folders[folder].Keys - {index};
      assert rest == map[] <==> rest.Keys == {};
      var approved := PutChunk(st.approved, folder, index, stamped);
      var pending := DeleteChunkFile(st.pending, folder, index, true);
      UpdateThenRemove(st.approved.folders, folder, FolderOf(st.approved, folder)[index := stamped]);
      UpdateThenRemove(FolderOf(st.approved, folder), index, stamped);
      UpdateThenRemove(st.pending.folders, folder, rest);
      Step(true, s.(chunked := Stage(pending, approved)))
  }

  /** Approving a chunk moves one chunk file: the pending chunks are one
      fewer, and the approved ones one more unless an approved chunk of
      that index was replaced. */
  lemma ApproveChunkConserves(s: Store, folder: string, index: int, now: string)
    requires folder in s.chunked.pending.folders && index in s.chunked.pending.folders[folder]
    ensures var s' := ApproveChunk(s, folder, index, now).store;
      && ChunkCount(s'.chunked.pending) + 1 == ChunkCount(s.chunked.pending)
      && ChunkCount(s'.chunked.approved) ==
           ChunkCount(s.chunked.approved) + (if index in FolderOf(s.chunked.approved, folder) then 0 else 1)
  {
    var st := s.chunked;
    var s' := ApproveChunk(s, folder, index, now).store;
    var rest := st.pending.folders[folder] - {index};
    assert |rest| + 1 == |st.pending.folders[folder]|;
    if rest == map[] {
      ChunkCountRemove(st.pending.folders, folder);
    } else {
      ChunkCountUpdate(st.pending.folders, folder, rest);
    }
    var chunk := st.pending.folders[folder][index];
    PutChunkCount(st.approved, folder, index, chunk["status" := VStr("approved")]["approved_at" := VStr(now)]);
  }

  /** `delete_pending`: for the chunk stage, removes a whole pending folder
      and reports whether it existed; otherwise removes the pending text file
      and sidecar and reports whether either existed. */
  function DeletePending(s: Store, k: StageKind, filename: string): (r: Step<bool>)
    ensures k == Chunked ==> (r.out <==> filename in s.chunked.pending.folders)
    ensures k != Chunked ==> (r.out <==> filename in StageOf(s, k).pending.content || filename in StageOf(s, k).pending.meta)
    ensures !r.out ==> r.store == s
    ensures forall k' :: k' != k ==> StageOf(r.store, k') == StageOf(s, k')
    ensures StageOf(r.store, k).approved == StageOf(s, k).approved
    ensures k == Chunked ==> filename !in r.store.chunked.pending.folders
    ensures k != Chunked ==> filename !in StageOf(r.store, k).pending.content && filename !in StageOf(r.store, k).pending.meta
    ensures k == Chunked ==>
      && r.store.chunked.pending.folders == s.chunked.pending.folders - {filename}
      && r.store.chunked.pending.content == s.chunked.pending.content && r.store.chunked.pending.meta == s.chunked.pending.meta
    ensures k != Chunked ==>
      && StageOf(r.store, k).pending.content == StageOf(s, k).pending.content - {filename}
      && StageOf(r.store, k).pending.meta == StageOf(s, k).pending.meta - {filename}
      && StageOf(r.store, k).pending.folders == StageOf(s, k).pending.folders
  {
    var st := StageOf(s, k);
    if k == Chunked then
      if filename in st.pending.folders then
        Step(true, WithStage(s, k, st.(pending := st.pending.(folders := st.pending.folders - {filename}))))
      else
        RemoveAbsent(st.pending.folders, filename);
        Step(false, s)
    else if filename in st.pending.content || filename in st.pending.meta then
      Step(true, WithStage(s, k, st.(pending := RemoveFile(st.pending, filename))))
    else
      RemoveAbsent(st.pending.content, filename);
      RemoveAbsent(st.pending.meta, filename);
      Step(false, s)
  }

  /** Deleting twice is deleting once: the second call finds nothing. */
  lemma DeletePendingIdempotent(s: Store, k: StageKind, filename: string)
    ensures var s' := DeletePending(s, k, filename).store;
      DeletePending(s', k, filename) == Step(false, s')
  {
  }

  // ---------------------------------------------------------------------------
  // Statistics
  // ---------------------------------------------------------------------------

  /** `get_stats`: per directory key, the number of chunk files (chunk
      directories) or text files (the others). */
  function GetStats(s: Store): (r: map<string, nat>)
    ensures forall k: StageKind, t: StatusKind :: DirKey(StatusName(t), StageName(k)) in r
  {
    KeyLiterals();
    map[
      "pending_raw" := TextCount(s.raw.pending),
      "approved_raw" := TextCount(s.raw.approved),
      "pending_cleaned" := TextCount(s.cleaned.pending),
      "approved_cleaned" := TextCount(s.cleaned.approved),
      "pending_chunked" := ChunkCount(s.chunked.pending),
      "approved_chunked" := ChunkCount(s.chunked.approved)]
  }

  /** The counts agree with the listings: a text directory's count is the
      length of its listing, and a chunk directory's count is the number of
      chunk files across the folders it lists. */
  lemma StatsMatchListing(s: Store, k: StageKind, t: StatusKind)
    ensures var key := DirKey(StatusName(t), StageName(k));
      k != Chunked ==> GetStats(s)[key] == |ListFiles(s, StageName(k), StatusName(t))|
    ensures var key := DirKey(StatusName(t), StageName(k));
      k == Chunked ==>
        && GetStats(s)[key] == |ChunkFiles(DirOf(StageOf(s, k), t).folders)|
        && ListFiles(s, StageName(k), StatusName(t)).Keys == DirOf(StageOf(s, k), t).folders.Keys
  {
    ResolveIff(StageName(k), StatusName(t), k, t);
    KeyLiterals();
    var l := ListFiles(s, StageName(k), StatusName(t));
    assert k != Chunked ==> l.Keys == DirOf(StageOf(s, k), t).content.Keys;
  }
}

=== FILE: store.dfy ===
/** The data directory as an immutable value. Each of the six directories
    (pending/approved x raw/cleaned/chunked) holds text files `<name>.txt`,
    sidecar metadata files `<name>.meta.json` (either may exist without the
    other), and chunk folders `<name>/chunk_<NN>.json` keyed by chunk index. */
module Store {
  import opened Json

  /** The chunk files of one folder, keyed by the index in their file name. */
  type Folder = map<int, Meta>

  datatype Dir = Dir(content: map<string, string>, meta: map<string, Meta>, folders: map<string, Folder>)

  const EmptyDir: Dir := Dir(map[], map[], map[])

  datatype StageKind = Raw | Cleaned | Chunked
  datatype StatusKind = Pending | Approved

  datatype Stage = Stage(pending: Dir, approved: Dir)

  datatype Store = Store(raw: Stage, cleaned: Stage, chunked: Stage)

  function StageOf(s: Store, k: StageKind): Stage {
    match k
    case Raw => s.raw
    case Cleaned => s.cleaned
    case Chunked => s.chunked
  }

  function WithStage(s: Store, k: StageKind, st: Stage): (s': Store)
    ensures StageOf(s', k) == st
    ensures forall k' :: k' != k ==> StageOf(s', k') == StageOf(s, k')
  {
    match k
    case Raw => s.(raw := st)
    case Cleaned => s.(cleaned := st)
    case Chunked => s.(chunked := st)
  }

  function DirOf(st: Stage, status: StatusKind): Dir {
    if status == Pending then st.pending else st.approved
  }

  // ---------------------------------------------------------------------------
  // Counting files
  // ---------------------------------------------------------------------------

  /** Every chunk file under a directory, as (folder, index) pairs. */
  function ChunkFiles(folders: map<string, Folder>): set<(string, int)> {
    set f, i | f in folders && i in folders[f] :: (f, i)
  }

  /** Number of `chunk_*.json` files in a folder; 0 when the folder is absent. */
  function FolderCount(d: Dir, name: string): nat {
    if name in d.folders then |d.folders[name]| else 0
  }

  /** Number of `.txt` files in a directory. */
  function TextCount(d: Dir): nat {
    |d.content|
  }

  /** Number of chunk files across all folders of a directory. */
  function ChunkCount(d: Dir): nat {
    |ChunkFiles(d.folders)|
  }

  /** The chunk files of the other folders are those of the whole
      directory minus the files of folder `f`. */
  lemma ChunkFilesSplit(folders: map<string, Folder>, f: string)
    requires f in folders
    ensures ChunkFiles(folders) == ChunkFiles(folders - {f}) + (set i | i in folders[f] :: (f, i))
    ensures ChunkFiles(folders - {f}) !! (set i | i in folders[f] :: (f, i))
    ensures |ChunkFiles(folders)| == |ChunkFiles(folders - {f})| + |folders[f]|
  {
    var own := set i | i in folders[f] :: (f, i);
    var rest := ChunkFiles(folders - {f});
    assert ChunkFiles(folders) == rest + own;
    assert |own| == |folders[f].Keys| by { PairsSize(f, folders[f].Keys); }
  }

  lemma {:induction false} PairsSize(f: string, keys: set<int>)
    ensures |(set i | i in keys :: (f, i))| == |keys|
    decreases |keys|
  {
    if keys != {} {
      HasElement(keys);
      var x :| x in keys;
      PairsSize(f, keys - {x});
      assert (set i | i in keys :: (f, i)) == (set i | i in keys - {x} :: (f, i)) + {(f, x)};
    }
  }

  /** A non-empty set has an element. */
  lemma HasElement(s: set<int>)
    requires s != {}
    ensures exists x :: x in s
  {
    assert (forall x :: x !in s) ==> s == {};
  }

  /** Replacing one folder changes the directory's chunk count by the change
      in that folder's size. */
  lemma ChunkCountUpdate(folders: map<string, Folder>, f: string, g: Folder)
    ensures |ChunkFiles(folders[f := g])| + (if f in folders then |folders[f]| else 0)
         == |ChunkFiles(folders)| + |g|
  {
    var after := folders[f := g];
    ChunkFilesSplit(after, f);
    UpdateThenRemove(folders, f, g);
    if f in folders {
      ChunkCountRemove(folders, f);
    } else {
      RemoveAbsent(folders, f);
    }
  }

  lemma UpdateThenRemove<K, V>(m: map<K, V>, k: K, v: V)
    ensures m[k := v] - {k} == m - {k}
  {
  }

  lemma RemoveAbsent<K, V>(m: map<K, V>, k: K)
    requires k !in m
    ensures m - {k} == m
  {
  }

  lemma RemovePresent<K, V>(m: map<K, V>, k: K)
    requires k in m
    ensures (m - {k}).Keys == m.Keys - {k} && |m - {k}| == |m| - 1
  {
    assert |(m - {k}).Keys| == |m.Keys - {k}|;
  }

  lemma UpdateKeys<K, V>(m: map<K, V>, k: K, v: V)
    ensures m[k := v].Keys == m.Keys + {k}
  {
  }

  lemma UpdatePresent<K, V>(m: map<K, V>, k: K, v: V)
    requires k in m
    ensures m[k := v].Keys == m.Keys && |m[k := v]| == |m|
  {
  }

  /** Removing one folder lowers the directory's chunk count by its size. */
  lemma ChunkCountRemove(folders: map<string, Folder>, f: string)
    requires f in folders
    ensures |ChunkFiles(folders - {f})| + |folders[f]| == |ChunkFiles(folders)|
  {
    ChunkFilesSplit(folders, f);
  }

  // ---------------------------------------------------------------------------
  // Transitions shared by the storage service and the routes
  // ---------------------------------------------------------------------------

  /** The result of an operation together with the directory tree after it. */
  datatype Step<+T> = Step(out: T, store: Store)

  /** `order` lists the elements of `keys` once each, in an order the
      filesystem chose (`os.listdir`). */
  predicate Enumerates<T(!new)>(order: seq<T>, keys: set<T>) {
    && (forall i, j :: 0 <= i < j < |order| ==> order[i] != order[j])
    && (forall x :: x in order ==> x in keys)
    && (forall x :: x in keys ==> x in order)
  }

  /** A listing names as many entries as the set it enumerates. */
  lemma {:induction false} EnumeratedLength<T(!new)>(order: seq<T>, keys: set<T>)
    requires Enumerates(order, keys)
    ensures |order| == |keys|
    decreases |order|
  {
    if |order| == 0 {
      assert forall x :: x !in keys;
      assert keys == {};
    } else {
      var rest := keys - {order[0]};
      assert forall x :: x in order[1..] ==> x in order && x != order[0];
      assert forall x :: x in rest ==> x in order[1..] by {
        forall x | x in rest ensures x in order[1..] {
          var i :| 0 <= i < |order| && order[i] == x;
          assert i != 0;
          assert order[1..][i - 1] == x;
        }
      }
      EnumeratedLength(order[1..], rest);
    }
  }

  /** Before its last entry, a listing enumerates the other entries. */
  lemma EnumerateInit<T(!new)>(order: seq<T>, keys: set<T>)
    requires Enumerates(order, keys) && order != []
    ensures order[|order| - 1] in keys && Enumerates(order[..|order| - 1], keys - {order[|order| - 1]})
  {
    var n := |order| - 1;
    assert forall x :: x in order[..n] ==> x in order && x != order[n];
    forall x | x in keys - {order[n]} ensures x in order[..n] {
      var i :| 0 <= i < |order| && order[i] == x;
      assert order[..n][i] == x;
    }
  }

  /** `sum(len(c) for c in ...)`: the chunk files of the listed folders,
      added up folder by folder in listing order. */
  function SumSizes(folders: map<string, Folder>, order: seq<string>): nat
    requires forall i :: 0 <= i < |order| ==> order[i] in folders
    decreases |order|
  {
    if order == [] then 0
    else SumSizes(folders, order[..|order| - 1]) + |folders[order[|order| - 1]]|
  }

  /** Listing one more folder adds its size. */
  lemma SumSizesStep(folders: map<string, Folder>, order: seq<string>, i: int)
    requires forall k :: 0 <= k < |order| ==> order[k] in folders
    requires 0 <= i < |order|
    ensures SumSizes(folders, order[..i + 1]) == SumSizes(folders, order[..i]) + |folders[order[i]]|
  {
    assert order[..i + 1][..i] == order[..i];
  }

  /** Only the listed folders count. */
  lemma {:induction false} SumSizesRestrict(folders: map<string, Folder>, f: string, order: seq<string>)
    requires forall i :: 0 <= i < |order| ==> order[i] in folders && order[i] != f
    ensures SumSizes(folders - {f}, order) == SumSizes(folders, order)
    decreases |order|
  {
    if order != [] {
      SumSizesRestrict(folders, f, order[..|order| - 1]);
    }
  }

  /** Added up in any listing order, the folder sizes give the number of
      chunk files in the directory. */
  lemma {:induction false} SumSizesIsChunkCount(folders: map<string, Folder>, order: seq<string>)
    requires Enumerates(order, folders.Keys)
    ensures SumSizes(folders, order) == |ChunkFiles(folders)|
    decreases |order|
  {
    if order == [] {
      assert folders.Keys == {};
      assert ChunkFiles(folders) == {};
    } else {
      var last := order[|order| - 1];
      var init := order[..|order| - 1];
      EnumerateInit(order, folders.Keys);
      SumSizesRestrict(folders, last, init);
      SumSizesIsChunkCount(folders - {last}, init);
      ChunkCountRemove(folders, last);
    }
  }

  /** Moves text file `f` to the approved directory (replacing an approved
      file of that name), writes `meta` as its approved sidecar and removes
      the pending sidecar. */
  function MoveFile(st: Stage, f: string, meta: Meta): Stage
    requires f in st.pending.content
  {
    Stage(
      st.pending.(content := st.pending.content - {f}, meta := st.pending.meta - {f}),
      st.approved.(content := st.approved.content[f := st.pending.content[f]],
                   meta := st.approved.meta[f := meta]))
  }

  /** Removes the text file and the sidecar of `f` from a directory. */
  function RemoveFile(d: Dir, f: string): Dir {
    d.(content := d.content - {f}, meta := d.meta - {f})
  }

  /** The chunk files of folder `f` (none when the folder is absent). */
  function FolderOf(d: Dir, f: string): Folder {
    if f in d.folders then d.folders[f] else map[]
  }

  /** Writes a chunk file, creating its folder when needed. */
  function PutChunk(d: Dir, f: string, index: int, chunk: Meta): Dir {
    d.(folders := d.folders[f := FolderOf(d, f)[index := chunk]])
  }

  /** Removes a chunk file; the folder is removed too when it is left empty
      and `dropEmpty` holds. */
  function DeleteChunkFile(d: Dir, f: string, index: int, dropEmpty: bool): Dir
    requires f in d.folders
  {
    var rest := d.folders[f] - {index};
    if dropEmpty && rest == map[] then d.(folders := d.folders - {f})
    else d.(folders := d.folders[f := rest])
  }

  /** Writing a chunk adds one chunk file unless one of that index was there. */
  lemma PutChunkCount(d: Dir, f: string, index: int, chunk: Meta)
    ensures ChunkCount(PutChunk(d, f, index, chunk)) == ChunkCount(d) + (if index in FolderOf(d, f) then 0 else 1)
  {
    var g := FolderOf(d, f)[index := chunk];
    assert g.Keys == FolderOf(d, f).Keys + {index};
    ChunkCountUpdate(d.folders, f, g);
  }

  /** Removing an existing chunk file removes exactly one. */
  lemma DeleteChunkFileCount(d: Dir, f: string, index: int, dropEmpty: bool)
    requires f in d.folders && index in d.folders[f]
    ensures ChunkCount(DeleteChunkFile(d, f, index, dropEmpty)) + 1 == ChunkCount(d)
  {
    var rest := d.folders[f] - {index};
    assert rest.Keys == d.folders[f].Keys - {index};
    if dropEmpty && rest == map[] {
      ChunkCountRemove(d.folders, f);
    } else {
      ChunkCountUpdate(d.folders, f, rest);
    }
  }

  /** Merging maps adds the keys the first one lacks. */
  lemma MergeSize<K, V>(a: map<K, V>, b: map<K, V>)
    ensures |a + b| == |a| + |b.Keys - a.Keys|
  {
    assert (a + b).Keys == a.Keys + (b.Keys - a.Keys);
  }
}

=== FILE: text.dfy ===
/** String helpers standing in for the Python string operations the
    platform relies on: `str.replace(c, '')`, `str.isalnum`, `str.strip`,
    slicing `s[:n]`, integer formatting `f"{n:02d}"`, and string ordering.
    Character classes are ASCII; Python's Unicode tables are not modelled. */
module Text {

  // ---------------------------------------------------------------------------
  // Character classes
  // ---------------------------------------------------------------------------

  predicate IsDigitChar(c: char) {
    '0' <= c <= '9'
  }

  /** A letter or digit (the ASCII part of Python's `isalnum`). */
  predicate AlnumChar(c: char) {
    IsDigitChar(c) || 'a' <= c <= 'z' || 'A' <= c <= 'Z'
  }

  /** The ASCII whitespace that Python's `str.strip()` removes. */
  predicate IsSpace(c: char) {
    c == ' ' || c == '\t' || c == '\n' || c == '\r' || c == '\U{000B}' || c == '\U{000C}'
  }

  /** Python's `str.isalnum()`: false on the empty string. */
  predicate IsAlnum(s: string) {
    |s| > 0 && forall i :: 0 <= i < |s| ==> AlnumChar(s[i])
  }

  // ---------------------------------------------------------------------------
  // replace(c, ''), strip(), s[:n]
  // ---------------------------------------------------------------------------

  /** Python's `s.replace(c, '')`. */
  function RemoveChar(s: string, c: char): (r: string)
    ensures |r| <= |s|
    ensures forall x :: x in r <==> x in s && x != c
  {
    if |s| == 0 then ""
    else (if s[0] == c then "" else [s[0]]) + RemoveChar(s[1..], c)
  }

  lemma {:induction false} RemoveCharAbsent(s: string, c: char)
    requires c !in s
    ensures RemoveChar(s, c) == s
    decreases |s|
  {
    if |s| > 0 {
      RemoveCharAbsent(s[1..], c);
    }
  }

  lemma {:induction false} RemoveCharConcat(a: string, b: string, c: char)
    ensures RemoveChar(a + b, c) == RemoveChar(a, c) + RemoveChar(b, c)
    decreases |a|
  {
    if |a| > 0 {
      RemoveCharConcat(a[1..], b, c);
      assert (a + b)[1..] == a[1..] + b;
    } else {
      assert a + b == b;
    }
  }

  /** Number of leading whitespace characters of `s`. */
  function StartIndex(s: string): (i: nat)
    ensures i <= |s|
    ensures forall k :: 0 <= k < i ==> IsSpace(s[k])
    ensures i == |s| || !IsSpace(s[i])
  {
    if |s| > 0 && IsSpace(s[0]) then
      var i := 1 + StartIndex(s[1..]);
      assert forall k :: 1 <= k < i ==> s[1..][k - 1] == s[k];
      i
    else 0
  }

  /** End of `s` once its trailing whitespace (but nothing before `lo`) is dropped. */
  function EndIndex(s: string, lo: nat): (j: nat)
    requires lo <= |s|
    ensures lo <= j <= |s|
    ensures forall k :: j <= k < |s| ==> IsSpace(s[k])
    ensures j == lo || !IsSpace(s[j - 1])
    decreases |s|
  {
    if |s| > lo && IsSpace(s[|s| - 1]) then EndIndex(s[..|s| - 1], lo) else |s|
  }

  /** Python's `s.strip()`. */
  function Strip(s: string): string {
    var i := StartIndex(s);
    var j := EndIndex(s, i);
    s[i..j]
  }

  /** `s.strip()` is `s` with its leading and trailing whitespace removed:
      a slice of `s` with only whitespace around it, which neither starts
      nor ends with whitespace. */
  lemma StripTrims(s: string)
    ensures exists i, j ::
      && 0 <= i <= j <= |s| && Strip(s) == s[i..j]
      && (forall k :: 0 <= k < i ==> IsSpace(s[k]))
      && (forall k :: j <= k < |s| ==> IsSpace(s[k]))
    ensures Strip(s) == [] || (!IsSpace(Strip(s)[0]) && !IsSpace(Strip(s)[|Strip(s)| - 1]))
  {
    var i := StartIndex(s);
    var j := EndIndex(s, i);
    assert Strip(s) == s[i..j];
  }

  /** Python's slice `s[:n]` for a non-negative `n`. */
  function Take(s: string, n: nat): (r: string)
    ensures |r| == if |s| <= n then |s| else n
    ensures r <= s
  {
    if |s| <= n then s else s[..n]
  }

  // ---------------------------------------------------------------------------
  // Decimal formatting: f"{n}" and f"{n:02d}"
  // ---------------------------------------------------------------------------

  function DigitChar(d: nat): (c: char)
    requires d < 10
    ensures IsDigitChar(c)
  {
    (('0' as int) + d) as char
  }

  predicate AllDigits(s: string) {
    forall i :: 0 <= i < |s| ==> IsDigitChar(s[i])
  }

  /** Decimal rendering of a natural number, without leading zeros. */
  function Digits(n: nat): (s: string)
    ensures |s| > 0 && AllDigits(s)
    decreases n
  {
    if n < 10 then [DigitChar(n)] else Digits(n / 10) + [DigitChar(n % 10)]
  }

  /** Reads a string of decimal digits back into a number. */
  function ParseDigits(s: string): nat
    requires AllDigits(s)
  {
    if |s| == 0 then 0
    else ParseDigits(s[..|s| - 1]) * 10 + (s[|s| - 1] as int - '0' as int)
  }

  lemma {:induction false} ParseDigitsRoundTrip(n: nat)
    ensures ParseDigits(Digits(n)) == n
    decreases n
  {
    var s := Digits(n);
    if n >= 10 {
      ParseDigitsRoundTrip(n / 10);
      assert s[..|s| - 1] == Digits(n / 10);
    }
  }

  /** A leading zero does not change the value read. */
  lemma {:induction false} ParseLeadingZero(s: string)
    requires AllDigits(s)
    ensures AllDigits("0" + s) && ParseDigits("0" + s) == ParseDigits(s)
    decreases |s|
  {
    if |s| > 0 {
      ParseLeadingZero(s[..|s| - 1]);
      assert ("0" + s)[..|s|] == "0" + s[..|s| - 1];
    }
  }

  /** Python's `f"{n:02d}"`: at least two characters, zero-padded, with a
      leading minus sign (which counts towards the width) when negative. */
  function Pad2(n: int): (s: string)
    ensures |s| >= 2
    ensures '_' !in s
  {
    if n < 0 then "-" + Digits(-n)
    else if n < 10 then "0" + Digits(n)
    else Digits(n)
  }

  /** Reads a `Pad2` rendering back into the number. */
  function ParsePad(s: string): int
  {
    if |s| > 0 && s[0] == '-' && AllDigits(s[1..]) then -(ParseDigits(s[1..]) as int)
    else if AllDigits(s) then ParseDigits(s)
    else 0
  }

  lemma Pad2RoundTrip(n: int)
    ensures ParsePad(Pad2(n)) == n
  {
    var s := Pad2(n);
    if n < 0 {
      var d := Digits(-n);
      assert s[0] == '-' && s[1..] == d;
      ParseDigitsRoundTrip(-n);
    } else if n < 10 {
      var d := Digits(n);
      ParseLeadingZero(d);
      assert s == "0" + d && s[0] != '-';
      ParseDigitsRoundTrip(n);
    } else {
      assert s == Digits(n) && AllDigits(s);
      assert s[0] != '-' by {
        assert IsDigitChar(s[0]);
      }
      ParseDigitsRoundTrip(n);
    }
  }

  /** Distinct indices are written as distinct strings. */
  lemma Pad2Injective(m: int, n: int)
    requires m != n
    ensures Pad2(m) != Pad2(n)
  {
    Pad2RoundTrip(m);
    Pad2RoundTrip(n);
  }

  // ---------------------------------------------------------------------------
  // s.split('_')[-1]
  // ---------------------------------------------------------------------------

  /** The text after the last `'_'` of `s` (all of `s` when it has none). */
  function LastComponent(s: string): (r: string)
    ensures '_' !in r
  {
    if |s| == 0 then ""
    else if s[|s| - 1] == '_' then ""
    else LastComponent(s[..|s| - 1]) + [s[|s| - 1]]
  }

  lemma {:induction false} LastComponentAfter(p: string, x: string)
    requires '_' !in x
    ensures LastComponent(p + "_" + x) == x
    decreases |x|
  {
    if |x| > 0 {
      var y := x[..|x| - 1];
      assert '_' !in y by {
        forall k | 0 <= k < |y| ensures y[k] != '_' { assert y[k] == x[k]; }
      }
      LastComponentAfter(p, y);
      assert (p + "_" + x)[..|p + "_" + x| - 1] == p + "_" + y;
    } else {
      assert p + "_" + x == p + "_";
    }
  }

  /** Python's `t in s` on strings: `t` occurs in `s` as a substring. */
  predicate IsSubstring(t: string, s: string) {
    exists i | 0 <= i <= |s| - |t| :: OccursAt(t, s, i)
  }

  predicate OccursAt(t: string, s: string, i: int) {
    0 <= i <= |s| - |t| && s[i..i + |t|] == t
  }

  // ---------------------------------------------------------------------------
  // Python string ordering
  // ---------------------------------------------------------------------------

  /** `a <= b` on Python strings: lexicographic by code point. */
  predicate LexLe(a: string, b: string) {
    |a| == 0 || (|b| > 0 && (a[0] < b[0] || (a[0] == b[0] && LexLe(a[1..], b[1..]))))
  }

  lemma {:induction false} LexLeTotal(a: string, b: string)
    ensures LexLe(a, b) || LexLe(b, a)
    decreases |a|
  {
    if |a| > 0 && |b| > 0 && a[0] == b[0] {
      LexLeTotal(a[1..], b[1..]);
    }
  }

  lemma {:induction false} LexLeTransitive(a: string, b: string, c: string)
    requires LexLe(a, b) && LexLe(b, c)
    ensures LexLe(a, c)
    decreases |a|
  {
    if |a| > 0 && a[0] == b[0] && b[0] == c[0] {
      LexLeTransitive(a[1..], b[1..], c[1..]);
    }
  }

  // ---------------------------------------------------------------------------
  // The filename rule
  // ---------------------------------------------------------------------------

  /** `name.replace('_', '').replace('-', '').isalnum()`: the check both the
      raw submission route and the raw schema apply to a filename. */
  predicate FilenameChars(name: string) {
    IsAlnum(RemoveChar(RemoveChar(name, '_'), '-'))
  }

  /** The filename rule, stated without the string rewriting: every character
      is a letter, a digit, `_` or `-`, and at least one is a letter or digit.
      So a name made only of `_` and `-` (or the empty name) is refused. */
  lemma FilenameCharsIff(name: string)
    ensures FilenameChars(name) <==>
      && (forall i :: 0 <= i < |name| ==> AlnumChar(name[i]) || name[i] == '_' || name[i] == '-')
      && (exists i :: 0 <= i < |name| && AlnumChar(name[i]))
  {
    var r := RemoveChar(RemoveChar(name, '_'), '-');
    if FilenameChars(name) {
      forall i | 0 <= i < |name|
        ensures AlnumChar(name[i]) || name[i] == '_' || name[i] == '-'
      {
        var c := name[i];
        if c != '_' && c != '-' {
          assert c in r;
          var k :| 0 <= k < |r| && r[k] == c;
        }
      }
      var c := r[0];
      assert c in name;
      var i :| 0 <= i < |name| && name[i] == c;
    }
    if (forall i :: 0 <= i < |name| ==> AlnumChar(name[i]) || name[i] == '_' || name[i] == '-')
      && (exists i :: 0 <= i < |name| && AlnumChar(name[i]))
    {
      var i :| 0 <= i < |name| && AlnumChar(name[i]);
      assert name[i] in r;
      forall k | 0 <= k < |r| ensures AlnumChar(r[k]) {
        assert r[k] in name;
      }
    }
  }
}
